=== FILE: README.md ===
# A verified model of a Hyperliquid mean-reversion trading bot

This project models the logic of a Python trading bot for the Hyperliquid
exchange in Dafny. The bot streams one-minute candles, aggregates them into a
larger timeframe and keeps Bollinger Bands over the closes. A three-state
strategy (NEUTRAL, LONG, SHORT) places limit and trigger orders around the
bands and changes state on fills. Around it sit:

- an order gateway that shapes the SDK's answers;
- two subscription registries (the core one, with per-user contexts, and the
  older API one);
- a WebSocket client with a post-correlation table and handler fan-out;
- JSON helpers for market data;
- the strategy-record endpoints and the uniform response envelope.

Every operation is a pure function over immutable datatypes. Where the Python
mutates an object, the model returns the new value. Where the Python calls the
exchange, a database, a clock or a socket, the model takes what that call
returned as an input:

- `Reply<T>` is `Returned(result)` or `Raised(message)`;
- a function parameter stands for a callback the model cannot see, such as
  `subscribe` or `unsubscribe`.

Conventions:

- **Python values.** Python values read from JSON are the `Json` datatype.
- **Timestamps.** Timestamps are integer milliseconds since the epoch. The
  calendar fields `datetime` exposes are derived in UTC.
- **Numbers.** Prices are `real`. `float(str)` is a decimal parser. `int()`,
  `%` and truncation are written out with Python's semantics (`PyInt`,
  `PyMod`, `Trunc`).
- **Standard deviation.** `statistics.stdev` is a function parameter
  constrained by `Indicators.IsStdev`. It must be the unique non-negative
  root of the sample variance. This makes stdev zero on a constant window.
- **Rounding.** `round_values` is a function parameter. Where a proof needs
  it, the parameter is assumed monotone.
- **Subscription table.** Both subscription managers share
  `SubscriptionTable`. It is an insertion-ordered sequence of records plus the
  id counter. Its invariant `Valid` says ids are distinct and were all issued
  by the counter.
- **Shared indicator code.** `indicators.py` and `core/indicators.py` are
  identical, so one module covers both.

The modules follow the source files:

| module | source |
|---|---|
| `Candles` | candle_helpers.py |
| `Indicators` | indicators.py, core/indicators.py |
| `Events` | core/events.py |
| `Strategy` | mv_bb.py |
| `Gateway` | order_system.py |
| `SubscriptionTable` | what both subscription managers share |
| `CoreSubscriptions` | core/subscription_manager.py |
| `ApiSubscriptions` | api/subscription_manager.py |
| `WsClient` | ws_client.py |
| `PerpsHelper` | core/perps_helper.py |
| `StrategyRecords` | api/strategy_records.py |
| `Response` | utils/response.py |

Supporting modules:

- `Wrappers` holds `Option`, `Result` and `Reply`.
- `Json` holds the value type.
- `Numbers` holds number text and Python arithmetic.

## Model

| member | source | states |
|---|---|---|
| Numbers.ParseInt | core/events.py:24 | of the syntax `int(text)` accepts, the ASCII part: the model accepts exactly an optional sign followed by at least one ASCII digit, and gives the signed value of the digits |
| Numbers.ParseIntRoundTrip | core/events.py:24-25 | the decimal text of any integer parses back to that integer |
| Numbers.ParseDecimal | core/perps_helper.py:42-43 | of the syntax `float(text)` accepts, the plain-decimal ASCII part: the model accepts exactly an optional `-` or `+` followed by digits and '.' with at most one point and at least one digit; empty text fails; after `-` the value is ≤ 0, otherwise ≥ 0 |
| Numbers.UnsignedDecimal | core/perps_helper.py:42-43 | unsigned decimal text is accepted exactly when it has only digits and at most one point and at least one digit; plain digits read as their integer value |
| Numbers.ParseDecimalFraction | core/perps_helper.py:42-43 | a decimal `N.D` written with no sign, `+` or `-` reads back as N + D/10^len(D), negated for `-` |
| Numbers.ParseDecimalOfIntString | core/perps_helper.py:42-43 | the decimal text of any integer reads back through `float` as that integer |
| Numbers.PyFloat | core/events.py:26-30 | `float(v)` on an int, a float, a bool or a numeric string; `None` for a value `float` rejects |
| Numbers.PyInt | ws_client.py:192 | `int(v)`: ints as they are, floats truncated toward zero, bools as 0/1, integer strings parsed, anything else rejected |
| Numbers.PyMod | candle_helpers.py:19-23 | Python's `%` for a non-zero divisor: in [0, b) for positive b and in (b, 0] for negative b; the usual remainder for positive b, and zero exactly when b divides a |
| Numbers.PyDivMod | candle_helpers.py:19-23 | Python's `//` and `%` recombine: `a == (a // b) * b + a % b`, so the remainder is congruent to `a` modulo `b` |
| Candles.Timedelta | candle_helpers.py:4-14 | "s", "m", "h" and "d" give period × 1, 60, 3600 and 86400 seconds; any other unit is `Unsupported time unit` |
| Candles.Normalize | candle_helpers.py:17-27 | normalising raises exactly for an unknown unit (unsupported-unit error) or a zero period in a unit that takes `% period` (zero-period error); with a positive period, and always for days, the bucket never starts after the timestamp |
| Candles.NormalizeMinutes | candle_helpers.py:20-21 | for minutes the bucket start is less than one bucket before the timestamp, is a whole minute whose minute-of-hour is a multiple of the period, and normalises to itself |
| Candles.NormalizeHours | candle_helpers.py:22-23 | the same for hours: bound, alignment and idempotence |
| Candles.NormalizeDays | candle_helpers.py:24-25 | for days the bucket is midnight of the same day, whatever the period, and normalises to itself |
| Candles.NormalizeSecondsUsesMinute | candle_helpers.py:18-19 | the seconds branch subtracts `minute % period` seconds: 00:07:03 with period 5 gives 00:07:01, which is not on a 5-second boundary |
| Candles.Aggregate | candle_helpers.py:49-80 | a new bucket (none yet, or start after the old end) opens with start = bucket, end = start + span − 1 s and the candle's own open, high, low, volume and trades; otherwise start, end and open stay and high/low become the max/min of old and new while volume and trades add up; close is always the new close; complete iff the candle's end ≥ the aggregate's end |
| Candles.AggregateRun | candle_helpers.py:49-77 | folding a run of candles of one bucket gives open of the first, close of the last, the run's max high and min low, its total volume, and the bucket's span |
| Events.Field | core/events.py:20-31 | `message[key]` succeeds exactly when the message is a dict holding the key, with that value, and otherwise names the missing key |
| Events.FloatField | core/events.py:26-30 | `float(message[key])` succeeds exactly when the key is present and its value converts |
| Events.IntField | core/events.py:31 | `int(message[key])` succeeds exactly when the key is present and its value converts |
| Events.MillisOf | core/events.py:21-22 | a millisecond timestamp is any number: an int as it is, a float as the millisecond it falls in, a bool as 0 or 1; strings, lists, dicts and null raise |
| Events.TimeField | core/events.py:21-22 | reading `t`/`T`/`time` succeeds exactly when the key is present and holds a number (int, float or bool), giving its millisecond count |
| Events.ParseInterval | core/events.py:24-25 | "Nu" splits into period `int(N)` and unit `u`; any string whose prefix is an integer parses |
| Events.IntervalRoundTrip | core/events.py:24-25 | an interval written as period then unit letter (the snapshot request format) parses back to the same period and unit |
| Events.ParseCandle | core/events.py:19-32 | a candle decodes exactly when all eleven keys are present and convert, and each field is the conversion of its key; no defaults |
| Events.CandleRoundTrip | core/events.py:19-32 | decoding the wire record of a candle gives back that candle |
| Events.ParseFill | core/events.py:52-67 | a fill decodes exactly when all thirteen keys are present and convert; price and size via `float`, time in ms, the rest copied |
| Events.FillRoundTrip | core/events.py:52-67 | decoding the wire record of a fill gives back that fill |
| Events.ParseFillOfList | mv_bb.py:379 | handing the `fills` list to the single-fill decoder fails on the first key, whatever the list holds |
| Indicators.Last | indicators.py:23-33 | the contents of a `deque(maxlen=n)` after appending a sequence: its last min(len, n) elements, in order |
| Indicators.LastAppend | indicators.py:33 | appending to a bounded deque, then bounding again, equals bounding the whole history; the deque without its newest value is the history bounded to n − 1 |
| Indicators.StdevOf | indicators.py:45 | the assumed stdev of a window of two or more values is non-negative and squares to the sample variance |
| Indicators.StdevOfNoSpread | indicators.py:45 | a window with zero sample variance has stdev 0 |
| Indicators.StdevOfUnitVariance | indicators.py:45 | a window with sample variance 1 has stdev 1: the assumption pins the value |
| Indicators.New | indicators.py:13-26 | construction fails for period ≤ 0 and then for k < 0; otherwise an empty, not-ready indicator with that period and k |
| Indicators.BandsOf | indicators.py:36-49 | middle = sum / period; upper − middle = middle − lower = k × stdev (0 when period < 2), so lower ≤ middle ≤ upper |
| Indicators.Update | indicators.py:28-55 | the window becomes the last `period` inputs; bands are defined iff the window is full and are then the bands of the window; the invariant (length ≤ period, bands iff full, symmetric and ordered) is kept |
| Indicators.UpdateValue | indicators.py:28-33 | a non-number raises `TypeError` and leaves the indicator unchanged; a number is an `Update` |
| Indicators.ReadyIffFull | indicators.py:35-80 | in a valid indicator `is_ready` holds exactly when the window holds `period` values |
| Indicators.MiddleBand | indicators.py:62-65 | the middle band is defined iff the indicator is ready, and is then the mean of the full window |
| Indicators.UpperBand | indicators.py:67-70 | the upper band is defined iff the indicator is ready, and is then at or above the middle band |
| Indicators.LowerBand | indicators.py:72-75 | the lower band is defined iff the indicator is ready, and is then at or below the middle band, as far below it as the upper band is above |
| Indicators.ReadyIffMiddleDefined | indicators.py:62-80 | `is_ready` holds iff the middle band is defined, iff the upper and lower bands are |
| Indicators.Reset | indicators.py:82-87 | reset gives exactly a freshly constructed indicator with the same period and k, not ready |
| Indicators.FeedWindow | indicators.py:23-33 | after feeding any inputs to an empty indicator the window is the last `period` of them |
| Indicators.FeedReady | core/indicators.py:35-53 | after feeding n inputs to an empty indicator it is ready iff n ≥ period, and the invariant holds |
| Indicators.FullStaysFull | indicators.py:33-35 | once the window is full every update keeps it full and yields bands |
| Indicators.ConstantWindowCollapses | core/indicators.py:39-49 | on a constant window all three bands equal the constant |
| Indicators.ThreeValueWindow | indicators.py:28-55 | feeding 1, 2, 3 into an empty period-3 indicator leaves exactly those in the window, with their bands |
| Indicators.ThreeValueVariance | indicators.py:39-45 | 1, 2, 3 sums to 6 and has sample variance 1 |
| Indicators.ThreeValueExample | indicators.py:28-55 | period 3, k = 2 fed 1, 2, 3 gives middle 2, upper 4, lower 0 |
| Strategy.DefaultConfig | mv_bb.py:27-43 | the constructor's default arguments, for any symbol, build a strategy for that symbol whose indicator covers 20 periods |
| Strategy.Init | mv_bb.py:52-66 | construction succeeds iff the indicator's arguments are valid, and starts NEUTRAL with the watermark at the epoch, no candle and start-up not complete |
| Strategy.NeutralEntries | mv_bb.py:265-278 | a Gtc buy of trade_size/lower at lower and a Gtc sell of trade_size/upper at upper, rounded; fails when a band is missing or zero |
| Strategy.NeutralLogic | mv_bb.py:262-278 | NEUTRAL logic is a cancel-all followed by the entry orders |
| Strategy.Bracket | mv_bb.py:283-327 | the cancel-all, then the stop sized by the first position read, then the take-profit sized by the second; a first read that finds no position raises after the cancel alone, a second one raises after the cancel and the stop |
| Strategy.LongLogic | mv_bb.py:281-327 | missing bands raise before anything is sent; otherwise cancel-all, then a stop sell at lower − half × sl sized by the first position read and a take-profit sell at lower + half × tp sized by the second (half = middle − lower); no position at the first read raises after the cancel, none at the second raises after the cancel and the stop |
| Strategy.ShortLogic | mv_bb.py:330-374 | missing bands raise before anything is sent; otherwise cancel-all, then a stop buy at upper + half × sl sized by the first position read and a take-profit buy at upper − half × tp sized by the second (half = upper − middle), the take-profit trigger rounded without a precision argument; no position at the first read raises after the cancel, none at the second after the cancel and the stop |
| Strategy.StateLogic | mv_bb.py:260-376 | the current state's order logic fails exactly when the bands are missing, a NEUTRAL band is zero, or LONG/SHORT finds no position at either of its two reads; when only the second read finds none, the cancel and a stop sized by the first are emitted before the fault; every action is on the symbol and the first is a cancel-all; without a fault it is a cancel-all and two placements: buy then sell from NEUTRAL, two sells from LONG, two buys from SHORT, sized by the first and the second position read |
| Strategy.Send | mv_bb.py:265-374 | sending the orders in turn: what is sent is a prefix of the orders; every order before the last one sent was accepted; if some order raises, the first that does is the last one sent and its exception is the fault; if none raises, everything is sent with the logic's own fault |
| Strategy.Accept | mv_bb.py:249-255 | an accepted candle sets the watermark to its start, goes through the aggregator, and the indicator takes the aggregate's close exactly when the aggregate completes |
| Strategy.OnCandle | mv_bb.py:241-376 | the state never changes on a candle; a candle that does not decode raises with nothing changed; a stale or unfinished one changes nothing; a taken one moves the watermark to its start and is aggregated; when the aggregate completes, start-up becomes complete iff it was or the indicator is ready, and then exactly the state's order logic is sent, with each bracket order sized by its own position read, up to the first order that raises; before that nothing is sent |
| Strategy.OnFills | mv_bb.py:377-491 | fills change nothing but the state: watermark, aggregate, indicator and start-up flag are kept (the transitions are in the lemmas below) |
| Strategy.OnFillsAsWritten | mv_bb.py:377-491 | as written, the engine is either unchanged or, only from LONG or SHORT and only when `fills` decodes as one fill, goes NEUTRAL with a single cancel-all; from NEUTRAL nothing is sent and the state never changes |
| Strategy.RouteOf | mv_bb.py:241-493 | a message goes to the candle path iff its channel is "candle", to the fill path iff it is "userFills", and is unsupported for any other channel |
| Strategy.Step | mv_bb.py:236-493 | the watermark never decreases; only fills change the state; only candles move the watermark; an unsupported channel raises with nothing changed |
| Strategy.StepAsWritten | mv_bb.py:236-493 | as written, the watermark never decreases; the state can only change on a fill and then only to NEUTRAL, so a NEUTRAL strategy stays NEUTRAL; non-fill messages behave as in `Step`; a non-snapshot fill message whose fills are a list raises a missing-"coin" decode error with nothing changed |
| Strategy.ReplayOne | mv_bb.py:95-106 | replaying one snapshot candle keeps the state and start-up flag and never lowers the watermark |
| Strategy.Replay | mv_bb.py:95-106 | replaying a run of snapshot candles keeps the state and start-up flag and never lowers the watermark |
| Strategy.InitialState | mv_bb.py:113-120 | no position gives NEUTRAL; a position of non-zero size gives LONG iff its side is long and SHORT iff it is short |
| Strategy.StartOrders | mv_bb.py:124-233 | start-up places what `process_message` would in that state: exactly the state's order logic for LONG and SHORT, and in NEUTRAL the same orders and fault with the leading cancel-all left out |
| Strategy.StartUp | mv_bb.py:87-233 | a replay fault raises with nothing changed and nothing sent; otherwise start-up is complete with the replayed indicator and watermark, the state derived from the "ETH" position, two cancel-alls sent, then the start orders (a LONG/SHORT bracket sized by two separate position reads) up to the first that raises |
| Strategy.LongBracket | mv_bb.py:282-311 | with lower ≤ middle and non-negative multipliers, stop ≤ lower ≤ take-profit |
| Strategy.ShortBracket | mv_bb.py:331-359 | with middle ≤ upper and non-negative multipliers, take-profit ≤ upper ≤ stop |
| Strategy.LongTriggersOrdered | mv_bb.py:286-327 | with a monotone rounding, the LONG stop trigger is at or below the rounded lower band and the take-profit trigger at or above it |
| Strategy.StopPlacedThenNoPosition | mv_bb.py:283-374 | closing from LONG or SHORT when the second position read finds none: the cancel and the stop, sized by the first read, are sent; the fault is the stop's own error if the exchange raised on it, otherwise the missing position |
| Strategy.ShortTriggersOrdered | mv_bb.py:335-374 | with a monotone rounding, the SHORT take-profit trigger is at or below the upper band and the stop trigger at or above it |
| Strategy.StaleCandleIgnored | mv_bb.py:243-248 | a candle starting at or before the watermark, or not finished by now, changes nothing and emits nothing |
| Strategy.WatermarkAdvances | mv_bb.py:243-249 | over any run of messages the watermark never decreases |
| Strategy.NeutralFillTransitions | mv_bb.py:382-481 | from NEUTRAL a positive fill goes LONG with the LONG orders, a negative one goes SHORT with the SHORT orders, each bracket order sized by its own position read, and a zero one raises with nothing changed |
| Strategy.ExitFillTransitions | mv_bb.py:483-489 | from LONG or SHORT any fill goes NEUTRAL with a cancel-all and no new orders |
| Strategy.SnapshotFillIgnored | mv_bb.py:378 | a snapshot fill message changes nothing, in both the corrected and the as-written path |
| Strategy.FillsAsWrittenAlwaysRaise | mv_bb.py:379-383 | as written, every non-snapshot fill message raises before any state change |
| Strategy.BuyFillExample | mv_bb.py:379-384 | a buy fill leaves the as-written strategy NEUTRAL with an exception, while the corrected one goes LONG |
| Gateway.PlaceLimitOrder | order_system.py:65-84 | no request is sent iff size ≤ 0 or price ≤ 0; otherwise exactly the given order; the result is true iff a request was sent and the answer has status "ok" |
| Gateway.FilterByCoin | order_system.py:91 | exactly the orders whose coin is the symbol: all of them when every coin matches, and a one-order list is kept iff its coin matches |
| Gateway.FilterByCoinConcat | order_system.py:91 | the filter keeps the original order: filtering a concatenation concatenates the filtered parts |
| Gateway.GetOpenOrders | order_system.py:87-95 | an exception gives []; no symbol gives all orders; a symbol gives the filtered list |
| Gateway.CancelCalls | order_system.py:101-103 | never more cancel calls than open orders (an order missing `coin` or `oid` is skipped, a non-dict one ends the loop) |
| Gateway.CountOk | order_system.py:101-107 | the count of "ok" cancels never exceeds the calls made |
| Gateway.CancelEach | order_system.py:100-108 | the loop sends exactly the cancels of `CancelCalls`, in order, and counts the "ok" answers; a non-dict order ends it with 0 |
| Gateway.CancelAllOrders | order_system.py:97-111 | cancels every open order of the symbol, continuing past failures; returns the number answered "ok", at most the number of open orders |
| Gateway.GetUserState | order_system.py:114-119 | the user state, or {} when the call raises |
| Gateway.ProbeEntry | order_system.py:124-135 | an entry is skipped iff it is a dict whose position is a dict for another coin; a matching entry yields a position iff `szi` converts to a non-zero float and `entryPx or 0` and `unrealizedPnl or 0` convert, and then the position holds exactly those values, the symbol, and side long iff the size is positive |
| Gateway.GetPosition | order_system.py:121-139 | a raising user-state call gives None; a dict state whose `assetPositions` (default []) is a list gives the search over that list; anything else gives None; a returned position is for the symbol, with non-zero size and side long iff size > 0 |
| Gateway.FirstPosition | order_system.py:124-136 | when every entry is skipped as another coin's, no position is found |
| Gateway.FirstPositionSound | order_system.py:124-136 | a position found is the one some entry yields, with every entry before it skipped as another coin's; it is for the symbol, non-zero, and long iff positive |
| Gateway.FirstMatchDecides | order_system.py:124-135 | the first matching entry decides the result; later entries are never looked at |
| Gateway.NoMatchNoPosition | order_system.py:136 | with no matching entry there is no position |
| SubscriptionTable.IdOf | core/subscription_manager.py:55-58 | an id is "sub_" followed by the decimal counter value, which reads back from it |
| SubscriptionTable.IdOfInjective | api/subscription_manager.py:44-47 | two counter values give the same id iff they are equal |
| SubscriptionTable.NextId | core/subscription_manager.py:55-58 | the counter goes up by one; the new id was never issued before, is now issued, and is in no record of a valid table |
| SubscriptionTable.FreshIdAbsent | api/subscription_manager.py:44-51 | an id the counter has not reached names no record of a valid table |
| SubscriptionTable.Lookup | core/subscription_manager.py:250-252 | `get_subscription`: a record is found iff some record has that id, and it is that record |
| SubscriptionTable.Put | core/subscription_manager.py:128 | after storing, the id maps to the new record, every other id maps to what it did before, and a new id is appended at the end |
| SubscriptionTable.Delete | core/subscription_manager.py:239 | after `del`, the id is absent, every other id is unchanged, no record is added, and a valid table stays valid |
| SubscriptionTable.UpdateStatus | core/subscription_manager.py:268-274 | an unknown id changes nothing; otherwise the status is set and the error message is overwritten only by a non-empty message; other records are unchanged; a valid table stays valid |
| SubscriptionTable.WithoutDistinct | core/subscription_manager.py:239 | deleting a record from records with distinct ids leaves distinct ids |
| SubscriptionTable.Remove | core/subscription_manager.py:222-248 | an unknown id gives false with nothing changed; success deletes the record; a failure keeps it, marked ERROR with the message; a valid table stays valid |
| SubscriptionTable.PutPresentKeepsValid | core/subscription_manager.py:244-247 | overwriting a record already stored under its id keeps the table valid |
| SubscriptionTable.StoreEffect | core/subscription_manager.py:117-128 | drawing an id and storing a record under it adds exactly that record, touches no other, and keeps the table valid |
| SubscriptionTable.PutKeepsValid | api/subscription_manager.py:67 | storing a record under a fresh issued id keeps the table valid |
| SubscriptionTable.All | core/subscription_manager.py:254-256 | `get_all_subscriptions`: one entry per record; in a valid table each listed record is the one its id finds, and every record an id finds is listed |
| SubscriptionTable.WithStatus | core/subscription_manager.py:291-296 | exactly the records with that status; a single record is kept iff it has the status |
| SubscriptionTable.WithStatusConcat | core/subscription_manager.py:259-261 | the status filter keeps insertion order: filtering a concatenation concatenates the filtered parts |
| SubscriptionTable.WithStatusCount | core/subscription_manager.py:291-296 | the status filter keeps exactly one record per position whose record has the status |
| SubscriptionTable.OfKind | api/subscription_manager.py:122-125 | exactly the records of that type; a single record is kept iff it has the type |
| SubscriptionTable.OfKindConcat | core/subscription_manager.py:264-266 | the type filter keeps insertion order: filtering a concatenation concatenates the filtered parts |
| SubscriptionTable.ActiveOnes | core/subscription_manager.py:258-261 | `get_active_subscriptions`: exactly the ACTIVE records (in insertion order, by `WithStatusConcat`) |
| SubscriptionTable.ByKind | core/subscription_manager.py:263-266 | `get_subscriptions_by_type`: exactly the records of that type (in insertion order, by `OfKindConcat`) |
| SubscriptionTable.GetStats | core/subscription_manager.py:288-303 | total is the number of records; active, inactive and error are the numbers of records holding each status, and they add up to the total |
| SubscriptionTable.StatusPartition | api/subscription_manager.py:147-162 | the three status filters partition the records |
| SubscriptionTable.Survivors | api/subscription_manager.py:135-145 | what clearing leaves is never more than there was |
| SubscriptionTable.ClearAll | core/subscription_manager.py:276-286 | clearing removes, in order, every record whose removal succeeds and keeps the others marked ERROR; the count plus what remains is what there was; a valid table stays valid |
| SubscriptionTable.SurvivorIds | core/subscription_manager.py:276-286 | every record left by clearing carries the id of a record that was there, and distinct ids stay distinct |
| SubscriptionTable.SurvivorsValid | core/subscription_manager.py:276-286 | clearing a valid table leaves a valid table |
| SubscriptionTable.SurvivorsMarked | core/subscription_manager.py:244-248 | every record left after clearing is ERROR with a message; when every removal succeeds nothing is left |
| CoreSubscriptions.ResolveAlias | core/subscription_manager.py:68-87 | params change only when an alias is given, "user" is absent and the account is found with a secret key; then "user_secret_key" and "user" are set from the account |
| CoreSubscriptions.EnsureContext | core/subscription_manager.py:94-111 | an existing context is reused unchanged; a missing one is built, or the build error is returned; existing contexts are kept; an unhashable user raises |
| CoreSubscriptions.AddStrategySubscriptions | core/subscription_manager.py:60-152 | no user after alias resolution, or a context that cannot be built, raises with nothing changed; success iff there is a user, a context, and both subscribes answer, and then the ids are sub_{c+1} and sub_{c+2} and the user has a context; existing contexts and (in a valid table) existing records never change; a valid table stays valid whichever subscribe raises |
| CoreSubscriptions.SubscribePair | core/subscription_manager.py:113-148 | success iff both subscribes answer, with the next two ids; the counter goes up once per id drawn (one when the candle subscribe raises, else two); records already in a valid table are untouched, and a valid table stays valid on every path |
| CoreSubscriptions.PairSubscribed | core/subscription_manager.py:113-148 | two successful subscribes store a candle and a userFills record, ACTIVE, under consecutive fresh ids, and change nothing else |
| CoreSubscriptions.PairHalfSubscribed | core/subscription_manager.py:132-152 | when the userFills subscribe raises, the candle record stays stored and the second id is used up with no record |
| CoreSubscriptions.StrategySubscribed | core/subscription_manager.py:60-148 | a successful `add_strategy_subscriptions` returns ids sub_{c+1} and sub_{c+2}, stores the two typed ACTIVE records, keeps the table valid and every old record, and leaves the user with a context |
| CoreSubscriptions.MissingUserChangesNothing | core/subscription_manager.py:89-92 | without a user after alias resolution the call raises and nothing changes |
| CoreSubscriptions.FailedFillsKeepsCandle | core/subscription_manager.py:116-152 | if only the userFills subscribe raises, the call fails but the ACTIVE candle record remains |
| CoreSubscriptions.AddSubscription | core/subscription_manager.py:154-201 | the id is drawn before validation; success iff the user is truthy, the context is available and subscribe answers, and then one ACTIVE record is stored; on failure no record is stored; a valid table stays valid |
| CoreSubscriptions.UnsubscribeFailure | core/subscription_manager.py:230-236 | only a record with an exchange id and a user with a context is unsubscribed, and then removal fails iff unsubscribe raises |
| CoreSubscriptions.RemoveSubscription | core/subscription_manager.py:222-248 | unknown id: false, nothing changed; success deletes only that record; failure keeps it ERROR with the message; contexts and counter are untouched; a valid table stays valid |
| CoreSubscriptions.UnsubscribedRecordRemoved | core/subscription_manager.py:231-242 | a record without an exchange id is always removed |
| CoreSubscriptions.RemoveStrategySubscriptions | core/subscription_manager.py:203-220 | true only if every listed id is gone afterwards; ids absent before stay absent; an unknown first id makes it false; contexts and counter are untouched |
| CoreSubscriptions.RemoveStrategyKeepsValid | core/subscription_manager.py:203-220 | removing a strategy's subscriptions, one after the other, keeps a valid table valid |
| CoreSubscriptions.RemoveStrategyOutcome | core/subscription_manager.py:203-220 | the result is true iff the listed ids name distinct records that are all present and unsubscribe without raising; any unknown id makes it false |
| CoreSubscriptions.ClearAllSubscriptions | core/subscription_manager.py:276-286 | what remains is exactly the records whose unsubscribe raised, marked ERROR; count + remaining = before; the table stays valid |
| CoreSubscriptions.AddStrategySubscriptionsAsWritten | core/subscription_manager.py:94-103 | with the `setup` call as written, a manager with no contexts is left unchanged and the call fails |
| CoreSubscriptions.AddSubscriptionAsWritten | core/subscription_manager.py:166-173 | with the `setup` call as written, a user with no context makes the single add fail, using up only its id |
| CoreSubscriptions.AsWrittenNeverSubscribes | core/subscription_manager.py:94-111 | as written, a manager that starts without contexts is unchanged by any run of strategy adds |
| CoreSubscriptions.ExistingContextIgnoresSetup | core/subscription_manager.py:94 | once the user has a context, the result does not depend on what building one would do |
| ApiSubscriptions.AddSubscription | api/subscription_manager.py:49-82 | a record is always stored under the fresh id: ACTIVE with the exchange id, or ERROR with the message and no exchange id; no other record changes; validity is kept |
| ApiSubscriptions.UnsubscribeFailure | api/subscription_manager.py:92-95 | only a record with an exchange id is unsubscribed, and then removal fails iff unsubscribe raises |
| ApiSubscriptions.RemoveSubscription | api/subscription_manager.py:84-107 | unknown id: false; success deletes the record; failure keeps it ERROR with the message; no other record changes; a valid table stays valid |
| ApiSubscriptions.FailedAttemptRemovable | api/subscription_manager.py:72-101 | a failed add leaves a record that removal always deletes |
| ApiSubscriptions.ClearAllSubscriptions | api/subscription_manager.py:135-145 | what remains is exactly the records whose unsubscribe raised, marked ERROR; count + remaining = before; the table stays valid |
| ApiSubscriptions.ClearWithoutExchangeIds | api/subscription_manager.py:93-98 | with no exchange ids in the table, clearing removes everything |
| WsClient.Connect | ws_client.py:49-51 | connecting is a no-op when already connected, and otherwise leaves the client connected |
| WsClient.Close | ws_client.py:90-100 | closing disconnects and keeps the pending table and counter |
| WsClient.Send | ws_client.py:154-162 | sending before connect raises "not initialized", before the socket opens raises "not open", and otherwise appends exactly the frame |
| WsClient.Post | ws_client.py:138-152 | a caller id is used as is, otherwise the counter's next value; the id is pending (None) before sending and stays so if sending raises; other pending entries are untouched; the frame is the post frame |
| WsClient.Subscribe | ws_client.py:108-109 | subscribing is refused like any send; otherwise exactly one frame is appended, with method "subscribe" and the subscription, and nothing else changes |
| WsClient.Unsubscribe | ws_client.py:111-112 | the same with method "unsubscribe" |
| WsClient.Ping | ws_client.py:114-115 | pinging appends exactly the frame `{"method": "ping"}` when the socket is open |
| WsClient.SubscribeUnsubscribe | ws_client.py:108-112 | subscribing then unsubscribing sends two frames for the same subscription differing only in method |
| WsClient.AddHandler | ws_client.py:102-103 | the handler is appended after the channel's handlers; other channels are untouched |
| WsClient.AddWildcardHandler | ws_client.py:105-106 | the handler is appended after the wildcard handlers |
| WsClient.CallAll | ws_client.py:204-208 | every handler is called once, in order, with the message, whether or not an earlier one raised |
| WsClient.ResponseId | ws_client.py:190-194 | a response id is read only from a dict frame whose data is a dict |
| WsClient.Correlate | ws_client.py:189-199 | a post frame whose id is pending fills that entry with its data; any other frame changes nothing; the set of pending ids never changes |
| WsClient.OnMessage | ws_client.py:182-215 | a non-JSON frame is dropped; otherwise correlation, then the channel's handlers in order, then every wildcard handler, each with the frame |
| WsClient.HandlersIsolated | ws_client.py:204-215 | which handlers raise changes neither the client nor which handlers are called |
| WsClient.OnError | ws_client.py:173-180 | a socket error reaches exactly the wildcard handlers, as a message on channel "error" |
| WsClient.AwaitPost | ws_client.py:123-133 | an unregistered id gives None; an answered one gives the answer and is removed; an unanswered one gives None and stays pending |
| WsClient.PostRoundTrip | ws_client.py:138-199 | post, then a response carrying its id, then await: the await returns the response and the id is no longer pending |
| WsClient.AutoIds | ws_client.py:139-140 | n posts without a caller id draw n ids |
| WsClient.AutoIdsIncrease | ws_client.py:42 | automatic ids strictly increase and start from the counter |
| PerpsHelper.DexName | core/perps_helper.py:9-12 | a name comes only from a two-element list whose second element is a dict with a string "name" |
| PerpsHelper.DexNames | core/perps_helper.py:8-12 | a name is listed iff some well-formed entry carries it; a single entry gives its name, or nothing when it is malformed |
| PerpsHelper.DexNamesConcat | core/perps_helper.py:8-12 | names come out in the order of their entries: the names of a concatenation are the names of its parts in turn |
| PerpsHelper.ListDexNames | core/perps_helper.py:4-13 | a non-list gives []; a list gives exactly the names of its well-formed entries, one per entry when all are well-formed |
| PerpsHelper.ListDexNamesInOrder | core/perps_helper.py:4-13 | the result lists the names in entry order: two runs of entries give the first run's names, then the second's |
| PerpsHelper.Pairing | core/perps_helper.py:29-32 | every coin is mapped to a ctx dict |
| PerpsHelper.FetchUniverseAndCtxs | core/perps_helper.py:16-23 | ([], []) unless the answer is a two-element list; then the meta's "universe" (or [] for a non-dict meta) and the ctxs (or [] for a non-list) |
| PerpsHelper.PairingLastWins | core/perps_helper.py:29-32 | a coin is mapped iff some pair within the shorter length names it, and then to the ctx of the last such pair |
| PerpsHelper.CoinToCtx | core/perps_helper.py:26-33 | a list universe gives the positional pairing; a dict or string universe gives {}; a non-iterable one raises; every mapped value is a dict |
| PerpsHelper.CoinMarkPrices | core/perps_helper.py:36-46 | the coins of `coin_to_ctx` whose ctx has a parseable string markPx, each with that price; fails iff `coin_to_ctx` does |
| Response.Success | utils/response.py:8-14 | code 0, the message as given, data {} iff the data is None (or already {}), otherwise the data |
| Response.Error | utils/response.py:17-23 | code −1, the message, and the data passed through, None included |
| Response.Custom | utils/response.py:26-32 | the given code and message, and data defaulting to {} only when None |
| Response.CustomZeroIsSuccess | utils/response.py:8-32 | `custom(0, m, d)` equals `success(d, m)` |
| Response.CustomMinusOneIsError | utils/response.py:17-32 | `custom(-1, m, d)` builds the `error(m, d)` envelope exactly when d is not None (error keeps None, custom makes it {}) |
| StrategyRecords.WithoutSecrets | api/strategy_records.py:73-76 | the keys are exactly the original keys minus user_secret_key, secret_key and private_key, each with its value |
| StrategyRecords.Sanitize | api/strategy_records.py:56-78 | each default ("Legacy Strategy {id}", "ETH", "1m", "default", false) applies only where the field is None; non-empty params lose exactly the three secret keys; everything else is copied |
| StrategyRecords.SanitizedHasNoSecrets | api/strategy_records.py:73-76 | no secret key survives sanitising |
| StrategyRecords.SanitizeIdempotent | api/strategy_records.py:56-78 | sanitising a sanitised record changes nothing |
| StrategyRecords.UpdateRecord | api/strategy_records.py:132-159 | missing: 404; running: 400; an alias naming no account: 400; otherwise exactly the fields the request set are written and nothing else |
| StrategyRecords.DeleteRecord | api/strategy_records.py:169-184 | missing: 404; deleted iff present and not running; running: 400 |
| StrategyRecords.Start | api/strategy_records.py:194-254 | missing: 404; running: 400 "Strategy is already running" with nothing changed; no account: 400 naming the alias ("None" when unset), nothing changed; otherwise the manager is what the single `add_subscription` leaves, and the start succeeds iff that add does: then running, "running", the new subscription id, type "candle", the params, no error; if the add raises, a 500 "Failed to start strategy: <message>" and the record marked "error" with that message, everything else as before |
| StrategyRecords.StartAsWritten | api/strategy_records.py:224-254 | with the core manager's `setup` call as written, starting for an address with no context always ends in 500 with the record "error" and no subscription stored |
| StrategyRecords.Stop | api/strategy_records.py:258-290 | missing: 404; not running: 400; otherwise the subscription (if any) is removed and the record is stopped with subscription fields, params and error cleared, whatever the removal did |
| StrategyRecords.StartStopRoundTrip | api/strategy_records.py:224-284 | start then stop leaves the record stopped and clean, and the subscription the start added is gone when the exchange lets it be unsubscribed |
| StrategyRecords.StartAddsOneRecord | api/strategy_records.py:223-224 | a start stores exactly one record, of type "candle", under the next id, and touches no other |

## Left out

- Threads, locks, condition variables, the reconnect loop, SSL options and real timeouts in ws_client.py. `connect` takes whether the socket opened as an input.
- WsClient.AwaitPost: a wait that has not been answered ends at once with None, and the timeout length is not modelled.
- The text `json.dumps` produces. Frames are kept as `Json` values, and `json.loads` is an input (`None` for text that is not JSON).
- The polling thread and `start_user_streams` in order_system.py: these are concurrency and I/O.
- The SDK and network calls (`Info`, `Exchange`, `requests`): perps_api.py, core/perps_api.py, utils/exchange_utils.py, test.py, main.py and `demo_run`. Each is represented by the reply it gives; `Exchange.order` is a function from the order to its reply, and an order it raises on ends the message as `Strategy.Send` describes.
- `statistics.stdev`, `sqrt` and float rounding: the model uses exact reals. stdev is constrained by `IsStdev`, and `round_values` is an arbitrary function.
- Numbers.ParseDecimal: the rest of the syntax `float()` accepts is rejected by the model: exponents ("5e3"), "inf", "infinity" and "nan" in any case, surrounding whitespace, underscores between digits ("1_000.5"), and non-ASCII Unicode decimal digits ("١٢.٥"); the model's strings have no Unicode digit classes.
- Numbers.ParseInt: the underscores, surrounding whitespace and non-ASCII Unicode decimal digits ("١٢") that `int()` accepts are rejected by the model.
- `datetime.now()` is an input. Local-timezone `fromtimestamp` is taken as UTC.
- Events.MillisOf: a fractional millisecond count is rounded down to the whole millisecond (datetime keeps microseconds), and the `ValueError`/`OverflowError` that `fromtimestamp` raises outside the years 1 to 9999 is not modelled; every number is accepted.
- The FastAPI routers, dependency injection and middleware: api/subscriptions.py, api/routers/*, api/api_server.py, api/common.py, api/system.py, api/accounts.py, api/configs.py, api/logs.py, api/pages.py, utils/exception.py.
- The SQLAlchemy session, queries, commits and rollbacks: database/*. An endpoint receives the record (or `None`) and the account its alias names. The record it returns is what would be stored.
- The `created_at`/`updated_at` timestamps and `list`/`get`/`create` of strategy records: they carry no guard logic.
- YAML loading and config/config.py. Also the `__init__.py` re-exports.
- `get_ws_ready_any`, which reads an SDK attribute of each context.
- `SubscriptionInfo.created_at`, which no code path sets.
- Python's equality of `1`, `1.0` and `True` as dict keys: context keys are compared as `Json` values.
- Strategy.OnFills: the signed fill quantity is an input, because the code that reads it cannot run (see Findings).
- The unknown-state branches of mv_bb.py (375-376, 490-491): the state is a three-valued datatype, so they cannot be reached.
- The `print` and logging calls.

## Findings

| source | as written | input that shows it | evidently intended | confidence | as-written member | corrected member |
|---|---|---|---|---|---|---|
| mv_bb.py:379-383 | `FillEvent.from_hyperliquid_message(message['data']['fills'])` gets the whole fills list, and the next line reads `event.order.quantity`, which `FillEvent` does not have | any non-snapshot userFills message, e.g. `{"isSnapshot": false, "fills": []}` | decode one fill and use its signed quantity to move NEUTRAL to LONG or SHORT | high (not executed) | Strategy.FillsAsWrittenAlwaysRaise | Strategy.NeutralFillTransitions |
| core/subscription_manager.py:98-103 | `exchange_utils.setup(..., account_address=target_user)`, but `setup` (utils/exchange_utils.py:10) takes no `account_address` parameter, so the call raises `TypeError` | the first `add_strategy_subscriptions` for any user, e.g. params `{"user": "0xabc", "coin": "ETH"}` on a fresh manager | build the user's context and subscribe | high (not executed) | CoreSubscriptions.AsWrittenNeverSubscribes | CoreSubscriptions.StrategySubscribed |
| core/subscription_manager.py:168-173 | the same `setup(..., account_address=...)` call in the single `add_subscription`, which the strategy start endpoint uses | any start of a strategy record whose account has no context yet | build the context and store one ACTIVE candle record | high (not executed) | StrategyRecords.StartAsWritten | StrategyRecords.StartAddsOneRecord |

=== FILE: api_subscriptions.dfy ===
/** The API-side subscription manager (api/subscription_manager.py): one
    fixed exchange client, and a record kept for every attempt, failed or
    not. The client's `subscribe`/`unsubscribe` are inputs: the reply each
    produced. */
module ApiSubscriptions {
  import opened Wrappers
  import opened Json
  import opened SubscriptionTable

  /** `add_subscription`: the id is drawn, and the attempt is recorded either
      way: ACTIVE with the exchange id when `subscribe` answered, ERROR with
      the message and no exchange id when it raised. The id is returned in
      both cases. */
  function AddSubscription(t: Table, kind: string, params: map<string, Json>, subscribe: Reply<Json>)
    : (r: (Table, string))
    ensures Valid(t) ==> Valid(r.0) && Lookup(t, r.1).None?
    ensures r.1 == IdOf(t.counter + 1) && r.0.counter == t.counter + 1
    ensures subscribe.Returned? ==>
      Lookup(r.0, r.1) == Some(SubscriptionInfo(r.1, kind, params, Active, subscribe.result, None))
    ensures subscribe.Raised? ==>
      Lookup(r.0, r.1) == Some(SubscriptionInfo(r.1, kind, params, Error, JNull, Some(subscribe.message)))
    ensures forall id :: id != r.1 ==> Lookup(r.0, id) == Lookup(t, id)
  {
    var (t1, id) := NextId(t);
    var info := match subscribe
      case Returned(h) => SubscriptionInfo(id, kind, params, Active, h, None)
      case Raised(e) => SubscriptionInfo(id, kind, params, Error, JNull, Some(e));
    StoreEffect(t, info);
    (Put(t1, info), id)
  }

  /** What `remove_subscription` raises while unsubscribing: only a record
      with an exchange id is unsubscribed. */
  function UnsubscribeFailure(unsubscribe: SubscriptionInfo -> Reply<Json>, info: SubscriptionInfo): (r: Option<string>)
    ensures info.externalId == JNull ==> r.None?
    ensures info.externalId != JNull ==> (r.Some? <==> unsubscribe(info).Raised?)
  {
    if info.externalId == JNull then None
    else match unsubscribe(info)
      case Raised(e) => Some(e)
      case Returned(_) => None
  }

  /** `remove_subscription`: an unknown id is refused; a record is deleted
      unless unsubscribing it raised, in which case it stays, marked ERROR
      with the message. No other record changes. */
  function RemoveSubscription(t: Table, id: string, unsubscribe: SubscriptionInfo -> Reply<Json>): (r: (Table, bool))
    ensures Lookup(t, id).None? ==> r == (t, false)
    ensures r.1 <==> Lookup(t, id).Some? && UnsubscribeFailure(unsubscribe, Lookup(t, id).value).None?
    ensures r.1 ==> Lookup(r.0, id).None?
    ensures Valid(t) ==> Valid(r.0)
    ensures Lookup(t, id).Some? && !r.1 ==>
      Lookup(r.0, id) == Some(Lookup(t, id).value.(status := Error,
                                                   errorMessage := UnsubscribeFailure(unsubscribe, Lookup(t, id).value)))
    ensures forall other :: other != id ==> Lookup(r.0, other) == Lookup(t, other)
  {
    match Lookup(t, id)
    case None => (t, false)
    case Some(info) => Remove(t, id, UnsubscribeFailure(unsubscribe, info))
  }

  /** A failed attempt recorded by `AddSubscription` has no exchange id, so
      removing it always succeeds. */
  lemma FailedAttemptRemovable(t: Table, kind: string, params: map<string, Json>, message: string,
                               unsubscribe: SubscriptionInfo -> Reply<Json>)
    requires Valid(t)
    ensures var (t1, id) := AddSubscription(t, kind, params, Raised(message));
      && RemoveSubscription(t1, id, unsubscribe).1
      && Lookup(RemoveSubscription(t1, id, unsubscribe).0, id).None?
  {
  }

  /** `clear_all_subscriptions`: records whose unsubscribe raised stay,
      marked ERROR; the count is how many were removed. */
  method ClearAllSubscriptions(t: Table, unsubscribe: SubscriptionInfo -> Reply<Json>)
    returns (t': Table, count: nat)
    requires Valid(t)
    ensures t'.entries == Survivors(t.entries, info => UnsubscribeFailure(unsubscribe, info))
    ensures t'.counter == t.counter
    ensures count + |t'.entries| == |t.entries|
    ensures Valid(t')
  {
    t', count := ClearAll(t, info => UnsubscribeFailure(unsubscribe, info));
  }

  /** When no record has an exchange id, clearing removes everything. */
  lemma ClearWithoutExchangeIds(t: Table, unsubscribe: SubscriptionInfo -> Reply<Json>)
    requires forall k :: 0 <= k < |t.entries| ==> t.entries[k].externalId == JNull
    ensures Survivors(t.entries, info => UnsubscribeFailure(unsubscribe, info)) == []
  {
    SurvivorsMarked(t.entries, info => UnsubscribeFailure(unsubscribe, info));
  }
}

=== FILE: candles.dfy ===
/** The OHLCV candle and the timeframe aggregator that builds a larger-period
    candle out of a stream of smaller ones (candle_helpers.py, core/events.py).

    A timestamp is an integer number of milliseconds since the epoch; the
    calendar fields a `datetime` exposes are derived from it in UTC. */
module Candles {
  import opened Wrappers
  import opened Json
  import opened Numbers

  const MsPerSecond: int := 1000
  const MsPerMinute: int := 60 * MsPerSecond
  const MsPerHour: int := 60 * MsPerMinute
  const MsPerDay: int := 24 * MsPerHour

  /** `datetime.second`, `.minute` and `.hour` of a timestamp. */
  function SecondOf(t: int): int { (t / MsPerSecond) % 60 }
  function MinuteOf(t: int): int { (t / MsPerMinute) % 60 }
  function HourOf(t: int): int { (t / MsPerHour) % 24 }

  /** `ts.replace(microsecond=0)`. */
  function FloorToSecond(t: int): int { t - t % MsPerSecond }

  /** One candle: the exchange's small-interval candle or an aggregate of them. */
  datatype Candle = Candle(
    startTime: int,
    endTime: int,
    symbol: Json,
    period: int,
    unit: string,
    open: real,
    high: real,
    low: real,
    close: real,
    volume: real,
    numTrades: int)

  /** The exceptions the time arithmetic raises. */
  datatype TimeError =
    | UnsupportedUnit(unit: string)  // ValueError("Unsupported time unit")
    | ZeroPeriod                     // ZeroDivisionError from `% period`

  predicate SupportedUnit(unit: string) {
    unit == "s" || unit == "m" || unit == "h" || unit == "d"
  }

  function UnitMs(unit: string): int
    requires SupportedUnit(unit)
  {
    if unit == "s" then MsPerSecond
    else if unit == "m" then MsPerMinute
    else if unit == "h" then MsPerHour
    else MsPerDay
  }

  /** `_get_timedelta`: the length of `period` units, in milliseconds. */
  function Timedelta(period: int, unit: string): (r: Result<int, TimeError>)
    ensures r.Ok? <==> SupportedUnit(unit)
    ensures unit == "s" ==> r == Ok(period * 1000)
    ensures unit == "m" ==> r == Ok(period * 60 * 1000)
    ensures unit == "h" ==> r == Ok(period * 3600 * 1000)
    ensures unit == "d" ==> r == Ok(period * 86400 * 1000)
    ensures r.Err? ==> r.error == UnsupportedUnit(unit)
  {
    if SupportedUnit(unit) then Ok(period * UnitMs(unit)) else Err(UnsupportedUnit(unit))
  }

  /** `normalize_timestamp`: the start of the target bucket a timestamp falls
      in. An unknown unit and a zero period (except for days, which ignore
      it) raise; with a positive period, and always for days, the bucket
      never starts after the timestamp. */
  function Normalize(t: int, period: int, unit: string): (r: Result<int, TimeError>)
    ensures r.Err? <==> !SupportedUnit(unit) || (period == 0 && unit != "d")
    ensures !SupportedUnit(unit) ==> r == Err(UnsupportedUnit(unit))
    ensures SupportedUnit(unit) && r.Err? ==> r == Err(ZeroPeriod)
    ensures r.Ok? && (period > 0 || unit == "d") ==> r.value <= t
  {
    if unit == "s" then
      if period == 0 then Err(ZeroPeriod)
      else Ok(FloorToSecond(t) - PyMod(MinuteOf(t), period) * MsPerSecond)
    else if unit == "m" then
      if period == 0 then Err(ZeroPeriod)
      else Ok(t - t % MsPerMinute - PyMod(MinuteOf(t), period) * MsPerMinute)
    else if unit == "h" then
      if period == 0 then Err(ZeroPeriod)
      else Ok(t - t % MsPerHour - PyMod(HourOf(t), period) * MsPerHour)
    else if unit == "d" then
      Ok(t - t % MsPerDay)
    else
      Err(UnsupportedUnit(unit))
  }

  /** Euclidean division is determined by quotient and remainder. */
  lemma DivModUnique(x: int, d: int, q: int, r: int)
    requires d > 0 && 0 <= r < d && x == q * d + r
    ensures x / d == q && x % d == r
  {
    var q0 := x / d;
    var r0 := x % d;
    assert x == q0 * d + r0;
    if q0 < q {
      assert (q - q0) * d >= d by { MulAtLeast(q - q0, d); }
      assert false;
    } else if q0 > q {
      assert (q0 - q) * d >= d by { MulAtLeast(q0 - q, d); }
      assert false;
    }
  }

  lemma MulAtLeast(a: int, d: int)
    requires a >= 1 && d > 0
    ensures a * d >= d
  {
  }

  /** Taking `k` whole units off the start of the unit a timestamp is in:
      the result is aligned to the unit and its field within the next larger
      unit (`within` of them) drops by exactly `k`. */
  lemma UnitBucketArith(t: int, unitMs: int, within: int, k: int)
    requires unitMs > 0 && within > 0
    requires 0 <= k <= (t / unitMs) % within
    ensures var n := t - t % unitMs - k * unitMs;
      && n % unitMs == 0
      && (n / unitMs) % within == (t / unitMs) % within - k
      && 0 <= t - n < unitMs + k * unitMs
  {
    var q := t / unitMs;
    var n := t - t % unitMs - k * unitMs;
    assert n == (q - k) * unitMs;
    DivModUnique(n, unitMs, q - k, 0);
    var f := q % within;
    assert q == (q / within) * within + f;
    DivModUnique(q - k, within, q / within, f - k);
  }

  /** Subtracting the remainder leaves a multiple of the divisor. */
  lemma DropRemainder(m: int, p: int)
    requires p > 0
    ensures (m - m % p) % p == 0
  {
    var q := m / p;
    assert m - m % p == q * p;
    DivModUnique(m - m % p, p, q, 0);
  }

  /** For minutes: the bucket start lies less than one bucket before the
      timestamp, is aligned to whole minutes and its minute to a multiple of
      the period, and normalising it again changes nothing. */
  lemma NormalizeMinutes(t: int, period: int)
    requires period > 0
    ensures Normalize(t, period, "m").Ok?
    ensures var n := Normalize(t, period, "m").value;
      && 0 <= t - n < period * MsPerMinute
      && n % MsPerMinute == 0
      && MinuteOf(n) % period == 0
      && Normalize(n, period, "m") == Ok(n)
  {
    var m := MinuteOf(t);
    var k := PyMod(m, period);
    assert k == m % period;
    var n := t - t % MsPerMinute - k * MsPerMinute;
    assert Normalize(t, period, "m") == Ok(n);
    UnitBucketArith(t, MsPerMinute, 60, k);
    assert MinuteOf(n) == m - k;
    DropRemainder(m, period);
    assert PyMod(MinuteOf(n), period) == 0;
    assert Normalize(n, period, "m") == Ok(n - n % MsPerMinute - 0 * MsPerMinute);
    assert k * MsPerMinute <= (period - 1) * MsPerMinute;
  }

  /** For hours: the same bound, alignment and idempotence, with hour-sized buckets. */
  lemma NormalizeHours(t: int, period: int)
    requires period > 0
    ensures Normalize(t, period, "h").Ok?
    ensures var n := Normalize(t, period, "h").value;
      && 0 <= t - n < period * MsPerHour
      && n % MsPerHour == 0
      && HourOf(n) % period == 0
      && Normalize(n, period, "h") == Ok(n)
  {
    var h := HourOf(t);
    var k := PyMod(h, period);
    assert k == h % period;
    var n := t - t % MsPerHour - k * MsPerHour;
    assert Normalize(t, period, "h") == Ok(n);
    UnitBucketArith(t, MsPerHour, 24, k);
    assert HourOf(n) == h - k;
    DropRemainder(h, period);
    assert PyMod(HourOf(n), period) == 0;
    assert Normalize(n, period, "h") == Ok(n - n % MsPerHour - 0 * MsPerHour);
    assert k * MsPerHour <= (period - 1) * MsPerHour;
  }

  /** For days: the bucket is midnight of the same day, whatever the period. */
  lemma NormalizeDays(t: int, period: int)
    ensures Normalize(t, period, "d").Ok?
    ensures var n := Normalize(t, period, "d").value;
      && 0 <= t - n < MsPerDay
      && n % MsPerDay == 0
      && HourOf(n) == 0 && MinuteOf(n) == 0 && SecondOf(n) == 0
      && Normalize(n, period, "d") == Ok(n)
  {
    var d := t / MsPerDay;
    var n := t - t % MsPerDay;
    assert n == d * MsPerDay;
    DivModUnique(n, MsPerDay, d, 0);
    DivModUnique(n, MsPerHour, d * 24, 0);
    DivModUnique(d * 24, 24, d, 0);
    DivModUnique(n, MsPerMinute, d * 1440, 0);
    DivModUnique(d * 1440, 60, d * 24, 0);
    DivModUnique(n, MsPerSecond, d * 86400, 0);
    DivModUnique(d * 86400, 60, d * 1440, 0);
  }

  /** For seconds the source subtracts `minute % period` seconds, not
      `second % period`: at 00:07:03 with a 5-second period the bucket starts
      at 00:07:01, which is not a multiple of five seconds. */
  lemma NormalizeSecondsUsesMinute()
    ensures Normalize(7 * MsPerMinute + 3 * MsPerSecond, 5, "s") == Ok(7 * MsPerMinute + 1 * MsPerSecond)
    ensures (7 * MsPerMinute + 1 * MsPerSecond) % (5 * MsPerSecond) != 0
  {
  }

  /** An existing aggregate is discarded when the new bucket starts after it ends. */
  predicate StartsFresh(current: Option<Candle>, bucket: int) {
    current.None? || bucket > current.value.endTime
  }

  /** `aggregate_ohlcv`: fold one small candle into the aggregate of its
      bucket, and report whether that bucket is now complete. */
  function Aggregate(c: Candle, current: Option<Candle>, period: int, unit: string)
    : (r: Result<(bool, Candle), TimeError>)
    ensures r.Ok? <==> SupportedUnit(unit) && (period != 0 || unit == "d")
    ensures r.Ok? ==>
      var bucket := Normalize(c.startTime, period, unit).value;
      var agg := r.value.1;
      && (StartsFresh(current, bucket) ==>
            && agg.startTime == bucket
            && agg.endTime == bucket + Timedelta(period, unit).value - MsPerSecond
            && agg.open == c.open && agg.symbol == c.symbol
            && agg.period == period && agg.unit == unit
            && agg.high == c.high && agg.low == c.low
            && agg.volume == c.volume && agg.numTrades == c.numTrades)
      && (!StartsFresh(current, bucket) ==>
            var prev := current.value;
            && agg.startTime == prev.startTime && agg.endTime == prev.endTime
            && agg.open == prev.open && agg.symbol == prev.symbol
            && agg.period == prev.period && agg.unit == prev.unit
            && agg.high >= prev.high && agg.high >= c.high
            && (agg.high == prev.high || agg.high == c.high)
            && agg.low <= prev.low && agg.low <= c.low
            && (agg.low == prev.low || agg.low == c.low)
            && agg.volume == prev.volume + c.volume
            && agg.numTrades == prev.numTrades + c.numTrades)
      && agg.close == c.close
      && (r.value.0 <==> c.endTime >= agg.endTime)
  {
    match Normalize(c.startTime, period, unit)
    case Err(e) => Err(e)
    case Ok(bucket) =>
      var base :=
        if StartsFresh(current, bucket) then
          Candle(bucket, bucket + Timedelta(period, unit).value - MsPerSecond, c.symbol,
                 period, unit, c.open, c.high, c.low, c.close, 0.0, 0)
        else current.value;
      var agg := base.(
        high := if base.high >= c.high then base.high else c.high,
        low := if base.low <= c.low then base.low else c.low,
        close := c.close,
        volume := base.volume + c.volume,
        numTrades := base.numTrades + c.numTrades);
      Ok((c.endTime >= agg.endTime, agg))
  }

  // ---------------------------------------------------------------------
  // Folding a run of candles that share one bucket.

  function MaxHigh(cs: seq<Candle>): real
    requires |cs| > 0
  {
    if |cs| == 1 then cs[0].high
    else
      var m := MaxHigh(cs[..|cs| - 1]);
      var h := cs[|cs| - 1].high;
      if m >= h then m else h
  }

  function MinLow(cs: seq<Candle>): real
    requires |cs| > 0
  {
    if |cs| == 1 then cs[0].low
    else
      var m := MinLow(cs[..|cs| - 1]);
      var l := cs[|cs| - 1].low;
      if m <= l then m else l
  }

  function TotalVolume(cs: seq<Candle>): real {
    if |cs| == 0 then 0.0 else TotalVolume(cs[..|cs| - 1]) + cs[|cs| - 1].volume
  }

  /** Feed candles one after another, starting from `current`; `None` if any step fails. */
  function AggregateAll(cs: seq<Candle>, current: Option<Candle>, period: int, unit: string)
    : Option<Candle>
  {
    if |cs| == 0 then current
    else match AggregateAll(cs[..|cs| - 1], current, period, unit)
      case None => None
      case Some(a) =>
        match Aggregate(cs[|cs| - 1], Some(a), period, unit)
        case Ok((_, b)) => Some(b)
        case Err(_) => None
  }

  /** Candles that all fall in the bucket starting at `bucket`. */
  predicate SameBucket(cs: seq<Candle>, bucket: int, period: int, unit: string) {
    forall i :: 0 <= i < |cs| ==> Normalize(cs[i].startTime, period, unit) == Ok(bucket)
  }

  /** Aggregating a run of candles of one bucket, from nothing: the aggregate
      opens at the first candle's open, closes at the last close, its high and
      low are the extremes of the run, its volume is their sum, and it spans
      exactly the bucket. */
  lemma {:induction false} AggregateRun(cs: seq<Candle>, bucket: int, period: int, unit: string)
    requires |cs| > 0
    requires SupportedUnit(unit) && period > 0
    requires SameBucket(cs, bucket, period, unit)
    ensures var r := AggregateAll(cs[1..], Some(Aggregate(cs[0], None, period, unit).value.1), period, unit);
      && r.Some?
      && r.value.startTime == bucket
      && r.value.endTime == bucket + Timedelta(period, unit).value - MsPerSecond
      && r.value.open == cs[0].open
      && r.value.close == cs[|cs| - 1].close
      && r.value.high == MaxHigh(cs)
      && r.value.low == MinLow(cs)
      && r.value.volume == TotalVolume(cs)
    decreases |cs|
  {
    var first := Aggregate(cs[0], None, period, unit).value.1;
    if |cs| == 1 {
      assert cs[1..] == [];
      assert TotalVolume(cs) == TotalVolume(cs[..0]) + cs[0].volume;
    } else {
      var init := cs[..|cs| - 1];
      assert init[0] == cs[0];
      assert SameBucket(init, bucket, period, unit);
      AggregateRun(init, bucket, period, unit);
      assert cs[1..][..|cs[1..]| - 1] == init[1..];
      var prev := AggregateAll(init[1..], Some(first), period, unit).value;
      var last := cs[|cs| - 1];
      assert Normalize(last.startTime, period, unit) == Ok(bucket);
      assert !StartsFresh(Some(prev), bucket);
      assert init == cs[..|cs| - 1];
    }
  }
}

=== FILE: core_subscriptions.dfy ===
/** The strategy-aware subscription manager (core/subscription_manager.py):
    per-account contexts created on first use, two subscriptions (candle and
    userFills) per strategy, and removal through the owning account's
    context. The database lookup for an account alias, building a context
    (`exchange_utils.setup` plus the strategy factory) and the SDK's
    `subscribe`/`unsubscribe` calls are inputs: the reply each produced. */
module CoreSubscriptions {
  import opened Wrappers
  import opened Json
  import opened SubscriptionTable

  /** The manager's state: the table and the contexts by account address
      (a context is represented by the strategy handle it holds). */
  datatype Manager = Manager(table: Table, contexts: map<Json, Json>)

  const Init: Manager := Manager(Empty, map[])

  /** The row the alias lookup finds in the accounts table. */
  datatype Account = Account(secretKey: Json, address: Json)

  const MissingUser: string :=
    "Missing 'user' in params; provide account_alias or account_address to resolve"

  /** The message of the `TypeError` a list or dict raises as a dict key. */
  function Unhashable(j: Json): string {
    if j.JArr? then "unhashable type: 'list'" else "unhashable type: 'dict'"
  }

  /** The alias resolution at the start of `add_strategy_subscriptions`: only
      when an alias is given and `user` is not, an account found with a
      secret key supplies `user_secret_key` and `user`. A failing lookup is
      skipped. */
  /** Whether the alias supplies the user: it is given, `user` is not, and
      the account it names was found with a secret key. */
  predicate AliasApplies(params: map<string, Json>, lookup: Reply<Option<Account>>) {
    && "user" !in params && Truthy(GetOr(params, "account_alias", JNull))
    && lookup.Returned? && lookup.result.Some? && Truthy(lookup.result.value.secretKey)
  }

  function ResolveAlias(params: map<string, Json>, lookup: Reply<Option<Account>>): (r: map<string, Json>)
    ensures !AliasApplies(params, lookup) ==> r == params
    ensures AliasApplies(params, lookup) ==>
      && r == params["user_secret_key" := lookup.result.value.secretKey]["user" := lookup.result.value.address]
      && "user" in r && r != params
  {
    if Truthy(GetOr(params, "account_alias", JNull)) && "user" !in params then
      match lookup
      case Returned(Some(acc)) =>
        if Truthy(acc.secretKey) then
          var r := params["user_secret_key" := acc.secretKey]["user" := acc.address];
          assert "user" in r && "user" !in params;
          r
        else params
      case _ => params
    else params
  }

  /** Find or build the context for `user` (`target_user not in
      self._contexts` and the block under it): an unhashable key, or a
      raising setup or strategy factory, is the error message. */
  function EnsureContext(m: Manager, user: Json, build: Reply<Json>): (r: Result<Manager, string>)
    ensures r.Ok? ==> r.value.table == m.table && user in r.value.contexts
    ensures r.Ok? ==> forall u :: u in m.contexts ==> u in r.value.contexts && r.value.contexts[u] == m.contexts[u]
    ensures user in m.contexts && Hashable(user) ==> r == Ok(m)
    ensures r.Err? <==> !Hashable(user) || (user !in m.contexts && build.Raised?)
  {
    if !Hashable(user) then Err(Unhashable(user))
    else if user in m.contexts then Ok(m)
    else match build
      case Raised(e) => Err(e)
      case Returned(handle) => Ok(m.(contexts := m.contexts[user := handle]))
  }

  /** `add_strategy_subscriptions`: the manager afterwards and either the two
      new ids (candle, userFills) or the message of the `RuntimeError`.
      `subscribe` is what the account's `info.subscribe` answers for a
      parameter bag. */
  function AddStrategySubscriptions(m: Manager, params: map<string, Json>, lookup: Reply<Option<Account>>,
                                    build: Reply<Json>, subscribe: map<string, Json> -> Reply<Json>)
    : (r: (Manager, Result<(string, string), string>))
    ensures var p := ResolveAlias(params, lookup);
      var user := GetOr(p, "user", JNull);
      && (!Truthy(user) ==> r == (m, Err(MissingUser)))
      && (Truthy(user) && EnsureContext(m, user, build).Err? ==> r == (m, Err(EnsureContext(m, user, build).error)))
      && (r.1.Ok? <==>
           && Truthy(user) && EnsureContext(m, user, build).Ok?
           && subscribe(p["type" := JStr("candle")]).Returned?
           && subscribe(p["type" := JStr("userFills")]).Returned?)
      && (r.1.Ok? ==> r.1.value == (IdOf(m.table.counter + 1), IdOf(m.table.counter + 2)) && user in r.0.contexts)
    ensures forall u :: u in m.contexts ==> u in r.0.contexts && r.0.contexts[u] == m.contexts[u]
    ensures forall id :: Lookup(m.table, id).Some? && Valid(m.table) ==> Lookup(r.0.table, id) == Lookup(m.table, id)
    ensures Valid(m.table) ==> Valid(r.0.table)
  {
    var p := ResolveAlias(params, lookup);
    var user := GetOr(p, "user", JNull);
    if !Truthy(user) then (m, Err(MissingUser))
    else match EnsureContext(m, user, build)
      case Err(e) => (m, Err(e))
      case Ok(m1) =>
        var (t, ids) := SubscribePair(m1.table, p, subscribe);
        (m1.(table := t), ids)
  }

  /** The two subscriptions `add_strategy_subscriptions` makes once the
      context exists: draw an id, subscribe, store; then the same for
      userFills. */
  function SubscribePair(t: Table, p: map<string, Json>, subscribe: map<string, Json> -> Reply<Json>)
    : (r: (Table, Result<(string, string), string>))
    ensures var c1, c2 := p["type" := JStr("candle")], p["type" := JStr("userFills")];
      && (r.1.Ok? <==> subscribe(c1).Returned? && subscribe(c2).Returned?)
      && (r.1.Ok? ==> r.1.value == (IdOf(t.counter + 1), IdOf(t.counter + 2)))
      && r.0.counter == t.counter + (if subscribe(c1).Raised? then 1 else 2)
    ensures Valid(t) ==> forall id :: Lookup(t, id).Some? ==> Lookup(r.0, id) == Lookup(t, id)
    ensures Valid(t) ==> Valid(r.0)
  {
    var (t1, candleId) := NextId(t);
    var candleParams := p["type" := JStr("candle")];
    match subscribe(candleParams)
    case Raised(e) => (t1, Err(e))
    case Returned(h1) =>
      var info1 := SubscriptionInfo(candleId, "candle", candleParams, Active, h1, None);
      StoreEffect(t, info1);
      var t2 := Put(t1, info1);
      var (t3, fillsId) := NextId(t2);
      var fillsParams := p["type" := JStr("userFills")];
      match subscribe(fillsParams)
      case Raised(e) => (t3, Err(e))
      case Returned(h2) =>
        var info2 := SubscriptionInfo(fillsId, "userFills", fillsParams, Active, h2, None);
        StoreEffect(t2, info2);
        var t4 := Put(t3, info2);
        (t4, Ok((candleId, fillsId)))
  }

  /** `after` holds, on top of everything `before` held, the ACTIVE candle
      and userFills records under the next two ids, each with the parameters
      plus its `type` and the handle its subscribe answered; it stays valid. */
  ghost predicate PairStored(before: Table, after: Table, p: map<string, Json>,
                       subscribe: map<string, Json> -> Reply<Json>)
  {
    var c1, c2 := p["type" := JStr("candle")], p["type" := JStr("userFills")];
    var id1, id2 := IdOf(before.counter + 1), IdOf(before.counter + 2);
    && Valid(after)
    && after.counter == before.counter + 2
    && subscribe(c1).Returned?
    && Lookup(after, id1) == Some(SubscriptionInfo(id1, "candle", c1, Active, subscribe(c1).result, None))
    && subscribe(c2).Returned?
    && Lookup(after, id2) == Some(SubscriptionInfo(id2, "userFills", c2, Active, subscribe(c2).result, None))
    && (forall id :: Lookup(before, id).Some? ==> Lookup(after, id) == Lookup(before, id))
  }

  /** Both subscribes answer: the ids are the next two, and each has its
      ACTIVE record; nothing already there changes. */
  lemma PairSubscribed(t: Table, p: map<string, Json>, subscribe: map<string, Json> -> Reply<Json>)
    requires Valid(t)
    requires subscribe(p["type" := JStr("candle")]).Returned?
    requires subscribe(p["type" := JStr("userFills")]).Returned?
    ensures SubscribePair(t, p, subscribe).1 == Ok((IdOf(t.counter + 1), IdOf(t.counter + 2)))
    ensures PairStored(t, SubscribePair(t, p, subscribe).0, p, subscribe)
  {
    var c1, c2 := p["type" := JStr("candle")], p["type" := JStr("userFills")];
    var info1 := SubscriptionInfo(IdOf(t.counter + 1), "candle", c1, Active, subscribe(c1).result, None);
    StoreEffect(t, info1);
    var t2 := Put(NextId(t).0, info1);
    var info2 := SubscriptionInfo(IdOf(t.counter + 2), "userFills", c2, Active, subscribe(c2).result, None);
    StoreEffect(t2, info2);
    IdOfInjective(t.counter + 1, t.counter + 2);
    assert SubscribePair(t, p, subscribe) == (Put(NextId(t2).0, info2), Ok((IdOf(t.counter + 1), IdOf(t.counter + 2))));
  }

  /** The userFills subscribe raises: the candle record stays, ACTIVE, both
      ids are used up, and nothing already there changes. */
  lemma PairHalfSubscribed(t: Table, p: map<string, Json>, subscribe: map<string, Json> -> Reply<Json>)
    requires Valid(t)
    requires subscribe(p["type" := JStr("candle")]).Returned?
    requires subscribe(p["type" := JStr("userFills")]).Raised?
    ensures var r := SubscribePair(t, p, subscribe);
      var c1 := p["type" := JStr("candle")];
      && Valid(r.0)
      && r.1.Err?
      && r.0.counter == t.counter + 2
      && Lookup(r.0, IdOf(t.counter + 1)) == Some(SubscriptionInfo(IdOf(t.counter + 1), "candle", c1, Active, subscribe(c1).result, None))
      && Lookup(r.0, IdOf(t.counter + 2)).None?
      && (forall id :: Lookup(t, id).Some? ==> Lookup(r.0, id) == Lookup(t, id))
  {
    var c1 := p["type" := JStr("candle")];
    var info1 := SubscriptionInfo(IdOf(t.counter + 1), "candle", c1, Active, subscribe(c1).result, None);
    StoreEffect(t, info1);
    var t2 := Put(NextId(t).0, info1);
    IdOfInjective(t.counter + 1, t.counter + 2);
    FreshIdAbsent(t2, IdOf(t.counter + 2));
    assert SubscribePair(t, p, subscribe).0 == NextId(t2).0;
  }

  /** On success the strategy owns two new ACTIVE records with the next two
      ids, subscribed with the resolved parameters plus their `type`; every
      record already there is untouched, the table stays valid and the
      account has a context. */
  lemma StrategySubscribed(m: Manager, params: map<string, Json>, lookup: Reply<Option<Account>>,
                           build: Reply<Json>, subscribe: map<string, Json> -> Reply<Json>)
    requires Valid(m.table)
    requires AddStrategySubscriptions(m, params, lookup, build, subscribe).1.Ok?
    ensures var res := AddStrategySubscriptions(m, params, lookup, build, subscribe);
      var p := ResolveAlias(params, lookup);
      && res.1.value == (IdOf(m.table.counter + 1), IdOf(m.table.counter + 2))
      && PairStored(m.table, res.0.table, p, subscribe)
      && GetOr(p, "user", JNull) in res.0.contexts
  {
    var p := ResolveAlias(params, lookup);
    StrategyShape(m, params, lookup, build, subscribe);
    PairOk(m.table, p, subscribe);
    PairSubscribed(m.table, p, subscribe);
  }

  /** A successful `add_strategy_subscriptions` is the context step followed
      by the two subscriptions on the unchanged table. */
  lemma StrategyShape(m: Manager, params: map<string, Json>, lookup: Reply<Option<Account>>,
                      build: Reply<Json>, subscribe: map<string, Json> -> Reply<Json>)
    requires AddStrategySubscriptions(m, params, lookup, build, subscribe).1.Ok?
    ensures var p := ResolveAlias(params, lookup);
      var user := GetOr(p, "user", JNull);
      var pair := SubscribePair(m.table, p, subscribe);
      && EnsureContext(m, user, build).Ok?
      && user in EnsureContext(m, user, build).value.contexts
      && AddStrategySubscriptions(m, params, lookup, build, subscribe)
         == (EnsureContext(m, user, build).value.(table := pair.0), pair.1)
  {
  }

  /** Both subscriptions answered when the pair succeeded. */
  lemma PairOk(t: Table, p: map<string, Json>, subscribe: map<string, Json> -> Reply<Json>)
    requires SubscribePair(t, p, subscribe).1.Ok?
    ensures subscribe(p["type" := JStr("candle")]).Returned?
    ensures subscribe(p["type" := JStr("userFills")]).Returned?
  {
  }

  /** Without a user, even after alias resolution, nothing changes at all
      (not even the id counter). */
  lemma MissingUserChangesNothing(m: Manager, params: map<string, Json>, lookup: Reply<Option<Account>>,
                                  build: Reply<Json>, subscribe: map<string, Json> -> Reply<Json>)
    requires !Truthy(GetOr(ResolveAlias(params, lookup), "user", JNull))
    ensures AddStrategySubscriptions(m, params, lookup, build, subscribe) == (m, Err(MissingUser))
  {
  }

  /** A userFills subscription that fails leaves the candle record behind:
      the manager raises, yet holds an ACTIVE candle subscription and has
      used up both ids. */
  lemma FailedFillsKeepsCandle(m: Manager, params: map<string, Json>, lookup: Reply<Option<Account>>,
                               build: Reply<Json>, subscribe: map<string, Json> -> Reply<Json>)
    requires Valid(m.table)
    requires var p := ResolveAlias(params, lookup);
      && Truthy(GetOr(p, "user", JNull))
      && EnsureContext(m, GetOr(p, "user", JNull), build).Ok?
      && subscribe(p["type" := JStr("candle")]).Returned?
      && subscribe(p["type" := JStr("userFills")]).Raised?
    ensures var (m', r) := AddStrategySubscriptions(m, params, lookup, build, subscribe);
      && r.Err?
      && m'.table.counter == m.table.counter + 2
      && Lookup(m'.table, IdOf(m.table.counter + 1)).Some?
      && Lookup(m'.table, IdOf(m.table.counter + 1)).value.status == Active
      && Lookup(m'.table, IdOf(m.table.counter + 2)).None?
  {
    var p := ResolveAlias(params, lookup);
    var m1 := EnsureContext(m, GetOr(p, "user", JNull), build).value;
    PairHalfSubscribed(m1.table, p, subscribe);
  }

  /** `add_subscription` (single): the id is drawn first, so a failure still
      uses it up, but no record is stored; `subscribe` gets the parameters
      as given. */
  function AddSubscription(m: Manager, kind: string, params: map<string, Json>, build: Reply<Json>,
                           subscribe: map<string, Json> -> Reply<Json>)
    : (r: (Manager, Result<string, string>))
    ensures r.0.table.counter == m.table.counter + 1
    ensures r.1.Ok? ==> r.1.value == IdOf(m.table.counter + 1)
    ensures r.1.Ok? ==> subscribe(params).Returned?
    ensures r.1.Ok? && subscribe(params).Returned? ==>
      Lookup(r.0.table, r.1.value) == Some(SubscriptionInfo(r.1.value, kind, params, Active, subscribe(params).result, None))
    ensures r.1.Err? ==> r.0.table == m.table.(counter := m.table.counter + 1)
    ensures r.1.Ok? <==>
      && Truthy(GetOr(params, "user", JNull))
      && EnsureContext(m, GetOr(params, "user", JNull), build).Ok?
      && subscribe(params).Returned?
    ensures forall id :: id != IdOf(m.table.counter + 1) ==> Lookup(r.0.table, id) == Lookup(m.table, id)
    ensures Valid(m.table) ==> Valid(r.0.table)
  {
    var (t1, id) := NextId(m.table);
    var m0 := m.(table := t1);
    var user := GetOr(params, "user", JNull);
    if !Truthy(user) then (m0, Err(MissingUser))
    else match EnsureContext(m0, user, build)
      case Err(e) => (m0, Err(e))
      case Ok(m1) =>
        match subscribe(params)
        case Raised(e) => (m1, Err(e))
        case Returned(h) =>
          StoreEffect(m.table, SubscriptionInfo(id, kind, params, Active, h, None));
          (m1.(table := Put(t1, SubscriptionInfo(id, kind, params, Active, h, None))), Ok(id))
  }

  /** What `remove_subscription` raises while unsubscribing `info`, if
      anything: only a record with an exchange id whose `user` has a context
      is unsubscribed; `unsubscribe` is what that context's
      `info.unsubscribe` does. */
  function UnsubscribeFailure(contexts: map<Json, Json>, unsubscribe: SubscriptionInfo -> Reply<Json>,
                              info: SubscriptionInfo): (r: Option<string>)
    ensures r.Some? ==> info.externalId != JNull && Truthy(GetOr(info.params, "user", JNull))
    ensures info.externalId != JNull && Truthy(GetOr(info.params, "user", JNull))
            && Hashable(GetOr(info.params, "user", JNull))
            && GetOr(info.params, "user", JNull) in contexts ==>
      (r.Some? <==> unsubscribe(info).Raised?)
  {
    if info.externalId == JNull then None
    else
      var user := GetOr(info.params, "user", JNull);
      if !Truthy(user) then None
      else if !Hashable(user) then Some(Unhashable(user))
      else if user !in contexts then None
      else match unsubscribe(info)
        case Raised(e) => Some(e)
        case Returned(_) => None
  }

  /** `remove_subscription`: an unknown id is refused and nothing changes; a
      record whose unsubscribe does not raise is deleted and no other record
      changes; otherwise it stays, marked ERROR with the message. */
  function RemoveSubscription(m: Manager, id: string, unsubscribe: SubscriptionInfo -> Reply<Json>)
    : (r: (Manager, bool))
    ensures Lookup(m.table, id).None? ==> r == (m, false)
    ensures r.0.contexts == m.contexts && r.0.table.counter == m.table.counter
    ensures Valid(m.table) ==> Valid(r.0.table)
    ensures r.1 <==> Lookup(m.table, id).Some? && UnsubscribeFailure(m.contexts, unsubscribe, Lookup(m.table, id).value).None?
    ensures r.1 ==> Lookup(r.0.table, id).None?
    ensures Lookup(m.table, id).Some? && !r.1 ==>
      && Lookup(r.0.table, id).Some?
      && Lookup(r.0.table, id).value.status == Error
      && Lookup(r.0.table, id).value.errorMessage == UnsubscribeFailure(m.contexts, unsubscribe, Lookup(m.table, id).value)
    ensures forall other :: other != id ==> Lookup(r.0.table, other) == Lookup(m.table, other)
  {
    match Lookup(m.table, id)
    case None => (m, false)
    case Some(info) =>
      var (t, ok) := Remove(m.table, id, UnsubscribeFailure(m.contexts, unsubscribe, info));
      (m.(table := t), ok)
  }

  /** A record the exchange never gave an id to is always removed. */
  lemma UnsubscribedRecordRemoved(m: Manager, id: string, unsubscribe: SubscriptionInfo -> Reply<Json>)
    requires Lookup(m.table, id).Some? && Lookup(m.table, id).value.externalId == JNull
    ensures RemoveSubscription(m, id, unsubscribe).1
    ensures Lookup(RemoveSubscription(m, id, unsubscribe).0.table, id).None?
  {
  }

  /** `remove_strategy_subscriptions`: every id is removed in turn (a failure
      does not stop the loop) and the result is whether all succeeded. */
  function RemoveStrategySubscriptions(m: Manager, ids: seq<(string, string)>,
                                       unsubscribe: SubscriptionInfo -> Reply<Json>)
    : (r: (Manager, bool))
    ensures r.0.contexts == m.contexts && r.0.table.counter == m.table.counter
    ensures r.1 ==> forall k :: 0 <= k < |ids| ==> Lookup(r.0.table, ids[k].1).None?
    ensures forall id :: Lookup(m.table, id).None? ==> Lookup(r.0.table, id).None?
    ensures |ids| > 0 && Lookup(m.table, ids[0].1).None? ==> !r.1
    decreases |ids|
  {
    if |ids| == 0 then (m, true)
    else
      var (m1, ok) := RemoveSubscription(m, ids[0].1, unsubscribe);
      var (m2, rest) := RemoveStrategySubscriptions(m1, ids[1..], unsubscribe);
      assert forall k :: 1 <= k < |ids| ==> ids[k] == ids[1..][k - 1];
      (m2, ok && rest)
  }

  /** Removing a strategy's subscriptions keeps a valid table valid, each
      removal doing so in turn. */
  lemma {:induction false} RemoveStrategyKeepsValid(m: Manager, ids: seq<(string, string)>,
                                                    unsubscribe: SubscriptionInfo -> Reply<Json>)
    ensures Valid(m.table) ==> Valid(RemoveStrategySubscriptions(m, ids, unsubscribe).0.table)
    decreases |ids|
  {
    if |ids| > 0 {
      var m1 := RemoveSubscription(m, ids[0].1, unsubscribe).0;
      RemoveStrategyKeepsValid(m1, ids[1..], unsubscribe);
    }
  }

  /** All removals succeed exactly when the ids name distinct records that
      are all present and unsubscribe cleanly; in particular an id that names
      no record makes the whole call report failure. */
  lemma {:induction false} RemoveStrategyOutcome(m: Manager, ids: seq<(string, string)>,
                                                 unsubscribe: SubscriptionInfo -> Reply<Json>)
    ensures RemoveStrategySubscriptions(m, ids, unsubscribe).1
        <==> DistinctTargets(ids) && AllRemovable(m, ids, unsubscribe)
    ensures (exists k :: 0 <= k < |ids| && Lookup(m.table, ids[k].1).None?) ==>
      !RemoveStrategySubscriptions(m, ids, unsubscribe).1
    decreases |ids|
  {
    var all := DistinctTargets(ids) && AllRemovable(m, ids, unsubscribe);
    if |ids| > 0 {
      var first := RemoveSubscription(m, ids[0].1, unsubscribe);
      var m1 := first.0;
      var tail := RemoveStrategySubscriptions(m1, ids[1..], unsubscribe).1;
      assert RemoveStrategySubscriptions(m, ids, unsubscribe).1 == (first.1 && tail);
      RemoveStrategyOutcome(m1, ids[1..], unsubscribe);
      if first.1 {
        if all {
          TailRemovableForward(m, m1, ids, unsubscribe);
        }
        if tail {
          TailRemovableBackward(m, m1, ids, unsubscribe);
        }
      } else {
        assert !AllRemovable(m, ids, unsubscribe);
      }
    }
    if exists k :: 0 <= k < |ids| && Lookup(m.table, ids[k].1).None? {
      assert !AllRemovable(m, ids, unsubscribe);
    }
  }

  /** After a clean first removal, distinct removable ids leave a removable tail. */
  lemma TailRemovableForward(m: Manager, m1: Manager, ids: seq<(string, string)>,
                             unsubscribe: SubscriptionInfo -> Reply<Json>)
    requires |ids| > 0 && (m1, true) == RemoveSubscription(m, ids[0].1, unsubscribe)
    requires DistinctTargets(ids) && AllRemovable(m, ids, unsubscribe)
    ensures DistinctTargets(ids[1..]) && AllRemovable(m1, ids[1..], unsubscribe)
  {
    var rest := ids[1..];
    forall k | 0 <= k < |rest|
      ensures Lookup(m1.table, rest[k].1) == Lookup(m.table, ids[k + 1].1)
    {
      assert rest[k] == ids[k + 1];
    }
    forall j, k | 0 <= j < k < |rest|
      ensures rest[j].1 != rest[k].1
    {
      assert rest[j] == ids[j + 1] && rest[k] == ids[k + 1];
    }
  }

  /** After a clean first removal, a removable tail means the whole list was
      distinct and removable: the first id is gone, so no later id repeats it. */
  lemma TailRemovableBackward(m: Manager, m1: Manager, ids: seq<(string, string)>,
                              unsubscribe: SubscriptionInfo -> Reply<Json>)
    requires |ids| > 0 && (m1, true) == RemoveSubscription(m, ids[0].1, unsubscribe)
    requires DistinctTargets(ids[1..]) && AllRemovable(m1, ids[1..], unsubscribe)
    ensures DistinctTargets(ids) && AllRemovable(m, ids, unsubscribe)
  {
    var rest := ids[1..];
    forall k | 1 <= k < |ids|
      ensures ids[k].1 != ids[0].1
      ensures Lookup(m.table, ids[k].1) == Lookup(m1.table, rest[k - 1].1)
    {
      assert ids[k] == rest[k - 1];
      assert Lookup(m1.table, ids[k].1).Some?;
    }
    forall j, k | 0 <= j < k < |ids|
      ensures ids[j].1 != ids[k].1
    {
      if j > 0 {
        assert ids[j] == rest[j - 1] && ids[k] == rest[k - 1];
      }
    }
  }

  /** The ids of `ids` name distinct records. */
  predicate DistinctTargets(ids: seq<(string, string)>) {
    forall j, k :: 0 <= j < k < |ids| ==> ids[j].1 != ids[k].1
  }

  /** Every id of `ids` names a record whose unsubscribe would not raise. */
  predicate AllRemovable(m: Manager, ids: seq<(string, string)>, unsubscribe: SubscriptionInfo -> Reply<Json>) {
    forall k :: 0 <= k < |ids| ==>
      Lookup(m.table, ids[k].1).Some? && UnsubscribeFailure(m.contexts, unsubscribe, Lookup(m.table, ids[k].1).value).None?
  }

  /** `clear_all_subscriptions`: every record is removed through its
      account's context; the ones whose unsubscribe raised stay behind,
      marked ERROR, and the count is how many went. */
  method ClearAllSubscriptions(m: Manager, unsubscribe: SubscriptionInfo -> Reply<Json>)
    returns (m': Manager, count: nat)
    requires Valid(m.table)
    ensures m'.contexts == m.contexts && m'.table.counter == m.table.counter
    ensures m'.table.entries == Survivors(m.table.entries, info => UnsubscribeFailure(m.contexts, unsubscribe, info))
    ensures count + |m'.table.entries| == |m.table.entries|
    ensures Valid(m'.table)
  {
    var t;
    t, count := ClearAll(m.table, info => UnsubscribeFailure(m.contexts, unsubscribe, info));
    m' := m.(table := t);
  }

  // ---------------------------------------------------------------------
  // The call into `exchange_utils.setup` as written.

  /** `setup` takes no `account_address`, so the call made when a context is
      built raises this before anything else happens. */
  const SetupTypeError: string := "setup() got an unexpected keyword argument 'account_address'"

  /** `add_strategy_subscriptions` with the `setup` call as written. */
  function AddStrategySubscriptionsAsWritten(m: Manager, params: map<string, Json>,
                                             lookup: Reply<Option<Account>>,
                                             subscribe: map<string, Json> -> Reply<Json>)
    : (r: (Manager, Result<(string, string), string>))
    ensures r == AddStrategySubscriptions(m, params, lookup, Raised(SetupTypeError), subscribe)
    ensures m.contexts == map[] ==> r.0 == m && r.1.Err?
  {
    AddStrategySubscriptions(m, params, lookup, Raised(SetupTypeError), subscribe)
  }

  /** `add_subscription` with the `setup` call as written: for a user with no
      context yet the call fails, and only the id it drew is used up. */
  function AddSubscriptionAsWritten(m: Manager, kind: string, params: map<string, Json>,
                                    subscribe: map<string, Json> -> Reply<Json>)
    : (r: (Manager, Result<string, string>))
    ensures r == AddSubscription(m, kind, params, Raised(SetupTypeError), subscribe)
    ensures GetOr(params, "user", JNull) !in m.contexts ==>
      r.1.Err? && r.0 == m.(table := m.table.(counter := m.table.counter + 1))
  {
    AddSubscription(m, kind, params, Raised(SetupTypeError), subscribe)
  }

  /** As written, a manager that starts without contexts never gets one and
      never stores a subscription, whatever is added. */
  lemma {:induction false} AsWrittenNeverSubscribes(m: Manager, calls: seq<(map<string, Json>, Reply<Option<Account>>)>,
                                                    subscribe: map<string, Json> -> Reply<Json>)
    requires m.contexts == map[]
    ensures AddAllAsWritten(m, calls, subscribe) == m
  {
    if |calls| > 0 {
      AsWrittenNeverSubscribes(
        AddStrategySubscriptionsAsWritten(m, calls[0].0, calls[0].1, subscribe).0, calls[1..], subscribe);
    }
  }

  /** A run of `add_strategy_subscriptions` calls, each with its alias lookup. */
  function AddAllAsWritten(m: Manager, calls: seq<(map<string, Json>, Reply<Option<Account>>)>,
                           subscribe: map<string, Json> -> Reply<Json>): Manager
    decreases |calls|
  {
    if |calls| == 0 then m
    else AddAllAsWritten(AddStrategySubscriptionsAsWritten(m, calls[0].0, calls[0].1, subscribe).0, calls[1..], subscribe)
  }

  /** Once a context exists, the corrected call no longer depends on the
      `setup` result. */
  lemma ExistingContextIgnoresSetup(m: Manager, params: map<string, Json>, lookup: Reply<Option<Account>>,
                                    b1: Reply<Json>, b2: Reply<Json>, subscribe: map<string, Json> -> Reply<Json>)
    requires GetOr(ResolveAlias(params, lookup), "user", JNull) in m.contexts
    ensures AddStrategySubscriptions(m, params, lookup, b1, subscribe) ==
            AddStrategySubscriptions(m, params, lookup, b2, subscribe)
  {
  }
}

=== FILE: events.dfy ===
/** Decoding the exchange's websocket payloads into typed events
    (core/events.py): a candle record becomes a `Candle`, a fill record a
    `Fill`. Every field lookup and conversion that Python would let raise is
    an `Err` naming the field. */
module Events {
  import opened Wrappers
  import opened Json
  import opened Numbers
  import opened Candles

  /** Why a record could not be decoded: the key is absent (`KeyError`, or
      `TypeError` when the record is not a dict), or its value does not
      convert (`TypeError`/`ValueError`). */
  datatype DecodeError = Missing(key: string) | Invalid(key: string)

  /** One fill of one of our orders. */
  datatype Fill = Fill(
    symbol: Json,
    price: real,
    size: real,
    side: Json,
    time: int,
    hash: Json,
    oid: Json,
    crossed: Json,
    fee: Json,
    tid: Json,
    liquidation: Json,
    feeToken: Json,
    builderFee: Json)

  /** `message[key]`. */
  function Field(msg: Json, key: string): (r: Result<Json, DecodeError>)
    ensures r.Ok? <==> msg.JObj? && key in msg.fields
    ensures r.Ok? ==> r.value == msg.fields[key]
    ensures r.Err? ==> r.error == Missing(key)
  {
    match Index(msg, key)
    case Some(v) => Ok(v)
    case None => Err(Missing(key))
  }

  /** `float(message[key])`. */
  function FloatField(msg: Json, key: string): (r: Result<real, DecodeError>)
    ensures r.Ok? <==> Field(msg, key).Ok? && PyFloat(Field(msg, key).value).Some?
    ensures r.Ok? ==> r.value == PyFloat(msg.fields[key]).value
  {
    var v :- Field(msg, key);
    match PyFloat(v)
    case Some(x) => Ok(x)
    case None => Err(Invalid(key))
  }

  /** `int(message[key])`. */
  function IntField(msg: Json, key: string): (r: Result<int, DecodeError>)
    ensures r.Ok? <==> Field(msg, key).Ok? && PyInt(Field(msg, key).value).Some?
    ensures r.Ok? ==> r.value == PyInt(msg.fields[key]).value
  {
    var v :- Field(msg, key);
    match PyInt(v)
    case Some(i) => Ok(i)
    case None => Err(Invalid(key))
  }

  /** A millisecond timestamp, as `fromtimestamp(message[key] / 1000.0)`
      reads it: any number (a bool counts as 0 or 1) divides, anything else
      raises `TypeError`. The model keeps whole milliseconds, so a fractional
      count is rounded down to the millisecond it falls in. */
  function MillisOf(v: Json): (r: Option<int>)
    ensures v.JInt? ==> r == Some(v.i)
    ensures v.JNum? ==> r.Some? && r.value as real <= v.r < r.value as real + 1.0
    ensures v.JBool? ==> r == Some(if v.b then 1 else 0)
    ensures v.JNull? || v.JStr? || v.JArr? || v.JObj? ==> r.None?
  {
    match v
    case JInt(i) => Some(i)
    case JBool(b) => Some(if b then 1 else 0)
    case JNum(x) => Some(x.Floor)
    case _ => None
  }

  /** `fromtimestamp(message[key] / 1000.0)`: the key must be present and
      hold a number; the instant is kept as milliseconds since the epoch. */
  function TimeField(msg: Json, key: string): (r: Result<int, DecodeError>)
    ensures r.Ok? <==> Field(msg, key).Ok? && MillisOf(Field(msg, key).value).Some?
    ensures r.Ok? ==> r.value == MillisOf(msg.fields[key]).value
  {
    var v :- Field(msg, key);
    match MillisOf(v)
    case Some(t) => Ok(t)
    case None => Err(Invalid(key))
  }

  /** An interval such as "15m": `int(i[:-1])` is the period and `i[-1]` the
      unit. Anything but a string, and text whose prefix is not an integer
      (including the empty string), is invalid. */
  function ParseInterval(v: Json): (r: Result<(int, string), DecodeError>)
    ensures r.Ok? ==> v.JStr? && |v.s| >= 2
    ensures r.Ok? ==> Some(r.value.0) == ParseInt(v.s[..|v.s| - 1])
    ensures r.Ok? ==> r.value.1 == [v.s[|v.s| - 1]]
    ensures v.JStr? && |v.s| >= 1 && ParseInt(v.s[..|v.s| - 1]).Some? ==> r.Ok?
  {
    if !v.JStr? || |v.s| == 0 then Err(Invalid("i"))
    else
      var s := v.s;
      match ParseInt(s[..|s| - 1])
      case None => Err(Invalid("i"))
      case Some(p) => Ok((p, [s[|s| - 1]]))
  }

  /** The text the exchange uses for an interval: the period then a one-letter unit. */
  function FormatInterval(period: int, unit: char): string {
    IntToString(period) + [unit]
  }

  /** An interval written out reads back as the same period and unit. */
  lemma IntervalRoundTrip(period: int, unit: char)
    ensures ParseInterval(JStr(FormatInterval(period, unit))) == Ok((period, [unit]))
  {
    var s := FormatInterval(period, unit);
    assert s[..|s| - 1] == IntToString(period);
    ParseIntRoundTrip(period);
  }

  /** `OHLCVEvent.from_hyperliquid_message`: decoding succeeds exactly when
      every field is present and converts, and each field of the candle is
      the conversion of its key. */
  function ParseCandle(msg: Json): (r: Result<Candle, DecodeError>)
    ensures !msg.JObj? ==> r == Err(Missing("t"))
    ensures r.Ok? <==>
      && TimeField(msg, "t").Ok? && TimeField(msg, "T").Ok? && Field(msg, "s").Ok?
      && Field(msg, "i").Ok? && ParseInterval(msg.fields["i"]).Ok?
      && FloatField(msg, "o").Ok? && FloatField(msg, "h").Ok? && FloatField(msg, "l").Ok?
      && FloatField(msg, "c").Ok? && FloatField(msg, "v").Ok? && IntField(msg, "n").Ok?
    ensures r.Ok? ==>
      && TimeField(msg, "t") == Ok(r.value.startTime)
      && TimeField(msg, "T") == Ok(r.value.endTime)
      && Field(msg, "s") == Ok(r.value.symbol)
      && ParseInterval(msg.fields["i"]) == Ok((r.value.period, r.value.unit))
      && FloatField(msg, "o") == Ok(r.value.open)
      && FloatField(msg, "h") == Ok(r.value.high)
      && FloatField(msg, "l") == Ok(r.value.low)
      && FloatField(msg, "c") == Ok(r.value.close)
      && FloatField(msg, "v") == Ok(r.value.volume)
      && IntField(msg, "n") == Ok(r.value.numTrades)
  {
    var t :- TimeField(msg, "t");
    var tEnd :- TimeField(msg, "T");
    var sym :- Field(msg, "s");
    var i :- Field(msg, "i");
    var interval :- ParseInterval(i);
    var o :- FloatField(msg, "o");
    var h :- FloatField(msg, "h");
    var l :- FloatField(msg, "l");
    var c :- FloatField(msg, "c");
    var vol :- FloatField(msg, "v");
    var n :- IntField(msg, "n");
    Ok(Candle(t, tEnd, sym, interval.0, interval.1, o, h, l, c, vol, n))
  }

  /** The wire record the exchange sends for a candle with a one-letter unit. */
  function CandleMessage(c: Candle): Json
    requires |c.unit| == 1
  {
    JObj(map[
      "t" := JInt(c.startTime), "T" := JInt(c.endTime), "s" := c.symbol,
      "i" := JStr(FormatInterval(c.period, c.unit[0])),
      "o" := JNum(c.open), "h" := JNum(c.high), "l" := JNum(c.low),
      "c" := JNum(c.close), "v" := JNum(c.volume), "n" := JInt(c.numTrades)])
  }

  /** Decoding a candle record gives back the candle it was written from. */
  lemma CandleRoundTrip(c: Candle)
    requires |c.unit| == 1
    ensures ParseCandle(CandleMessage(c)) == Ok(c)
  {
    var m := CandleMessage(c).fields;
    assert m["t"] == JInt(c.startTime);
    assert m["T"] == JInt(c.endTime);
    assert m["s"] == c.symbol;
    assert m["i"] == JStr(FormatInterval(c.period, c.unit[0]));
    assert m["o"] == JNum(c.open);
    assert m["h"] == JNum(c.high);
    assert m["l"] == JNum(c.low);
    assert m["c"] == JNum(c.close);
    assert m["v"] == JNum(c.volume);
    assert m["n"] == JInt(c.numTrades);
    IntervalRoundTrip(c.period, c.unit[0]);
    assert [c.unit[0]] == c.unit;
  }

  /** `FillEvent.from_hyperliquid_message`, for a single fill record:
      price and size are converted with `float`, the time read as
      milliseconds, every other field copied as it is. */
  function ParseFill(msg: Json): (r: Result<Fill, DecodeError>)
    ensures !msg.JObj? ==> r == Err(Missing("coin"))
    ensures r.Ok? <==>
      && Field(msg, "coin").Ok? && FloatField(msg, "px").Ok? && FloatField(msg, "sz").Ok?
      && Field(msg, "side").Ok? && TimeField(msg, "time").Ok? && Field(msg, "hash").Ok?
      && Field(msg, "oid").Ok? && Field(msg, "crossed").Ok? && Field(msg, "fee").Ok?
      && Field(msg, "tid").Ok? && Field(msg, "liquidation").Ok? && Field(msg, "feeToken").Ok?
      && Field(msg, "builderFee").Ok?
    ensures r.Ok? ==>
      && Field(msg, "coin") == Ok(r.value.symbol)
      && FloatField(msg, "px") == Ok(r.value.price)
      && FloatField(msg, "sz") == Ok(r.value.size)
      && Field(msg, "side") == Ok(r.value.side)
      && TimeField(msg, "time") == Ok(r.value.time)
      && Field(msg, "hash") == Ok(r.value.hash)
      && Field(msg, "oid") == Ok(r.value.oid)
      && Field(msg, "crossed") == Ok(r.value.crossed)
      && Field(msg, "fee") == Ok(r.value.fee)
      && Field(msg, "tid") == Ok(r.value.tid)
      && Field(msg, "liquidation") == Ok(r.value.liquidation)
      && Field(msg, "feeToken") == Ok(r.value.feeToken)
      && Field(msg, "builderFee") == Ok(r.value.builderFee)
  {
    var coin :- Field(msg, "coin");
    var px :- FloatField(msg, "px");
    var sz :- FloatField(msg, "sz");
    var side :- Field(msg, "side");
    var time :- TimeField(msg, "time");
    var hash :- Field(msg, "hash");
    var oid :- Field(msg, "oid");
    var crossed :- Field(msg, "crossed");
    var fee :- Field(msg, "fee");
    var tid :- Field(msg, "tid");
    var liquidation :- Field(msg, "liquidation");
    var feeToken :- Field(msg, "feeToken");
    var builderFee :- Field(msg, "builderFee");
    Ok(Fill(coin, px, sz, side, time, hash, oid, crossed, fee, tid, liquidation, feeToken, builderFee))
  }

  /** The wire record for a fill. */
  function FillMessage(f: Fill): Json {
    JObj(map[
      "coin" := f.symbol, "px" := JNum(f.price), "sz" := JNum(f.size),
      "side" := f.side, "time" := JInt(f.time), "hash" := f.hash, "oid" := f.oid,
      "crossed" := f.crossed, "fee" := f.fee, "tid" := f.tid,
      "liquidation" := f.liquidation, "feeToken" := f.feeToken, "builderFee" := f.builderFee])
  }

  /** Decoding a fill record gives back the fill it was written from. */
  lemma FillRoundTrip(f: Fill)
    ensures ParseFill(FillMessage(f)) == Ok(f)
  {
    var m := FillMessage(f).fields;
    assert m["coin"] == f.symbol;
    assert m["px"] == JNum(f.price);
    assert m["sz"] == JNum(f.size);
    assert m["side"] == f.side;
    assert m["time"] == JInt(f.time);
    assert m["hash"] == f.hash;
    assert m["oid"] == f.oid;
    assert m["crossed"] == f.crossed;
    assert m["fee"] == f.fee;
    assert m["tid"] == f.tid;
    assert m["liquidation"] == f.liquidation;
    assert m["feeToken"] == f.feeToken;
    assert m["builderFee"] == f.builderFee;
  }

  /** A `userFills` payload carries a LIST of fills; handing that list to the
      single-fill decoder fails on the very first lookup, whatever it holds. */
  lemma ParseFillOfList(fills: seq<Json>)
    ensures ParseFill(JArr(fills)) == Err(Missing("coin"))
  {
  }
}

=== FILE: gateway.dfy ===
/** The order gateway (order_system.py, `BasicOrderSystem`): argument checks
    before a limit order reaches the exchange, filtering and cancelling open
    orders, and reading one position out of the account state. Every call into
    the exchange SDK is an input here: the `Reply` it produced, or a function
    from the request to its reply. */
module Gateway {
  import opened Wrappers
  import opened Json
  import opened Numbers

  /** `bool(result and result.get("status") == "ok")`: a falsy reply is not
      ok, and a truthy reply that is not a dict raises on `.get`, which every
      caller turns into "not ok" as well. */
  predicate StatusOk(reply: Reply<Json>) {
    && reply.Returned?
    && reply.result.JObj?
    && "status" in reply.result.fields
    && reply.result.fields["status"] == JStr("ok")
  }

  /** The request `place_limit_order` sends to `exchange.order`. */
  datatype LimitRequest = LimitRequest(
    symbol: string, isBuy: bool, size: real, price: real, tif: string, reduceOnly: bool)

  /** `place_limit_order`: the request sent (if any) and the boolean returned.
      `reply` is what the exchange answers to that request. */
  function PlaceLimitOrder(symbol: string, isBuy: bool, size: real, price: real, tif: string,
                           reduceOnly: bool, reply: Reply<Json>)
    : (r: (Option<LimitRequest>, bool))
    ensures r.0.None? <==> size <= 0.0 || price <= 0.0
    ensures r.0.Some? ==> r.0.value == LimitRequest(symbol, isBuy, size, price, tif, reduceOnly)
    ensures r.1 <==> r.0.Some? && StatusOk(reply)
  {
    if size <= 0.0 || price <= 0.0 then (None, false)
    else (Some(LimitRequest(symbol, isBuy, size, price, tif, reduceOnly)), StatusOk(reply))
  }

  /** `o.get("coin")` of an order (`None` for anything but a dict). */
  function CoinOf(o: Json): Json {
    match o
    case JObj(m) => GetOr(m, "coin", JNull)
    case _ => JNull
  }

  predicate AllDicts(orders: seq<Json>) {
    forall i :: 0 <= i < |orders| ==> orders[i].JObj?
  }

  /** `[o for o in orders if o.get("coin") == symbol]`. */
  function FilterByCoin(orders: seq<Json>, symbol: string): (r: seq<Json>)
    ensures |r| <= |orders|
    ensures forall i :: 0 <= i < |r| ==> CoinOf(r[i]) == JStr(symbol)
    ensures forall o :: o in r <==> o in orders && CoinOf(o) == JStr(symbol)
    ensures (forall i :: 0 <= i < |orders| ==> CoinOf(orders[i]) == JStr(symbol)) ==> r == orders
    ensures |orders| == 1 ==> r == (if CoinOf(orders[0]) == JStr(symbol) then orders else [])
  {
    if |orders| == 0 then []
    else
      var rest := FilterByCoin(orders[..|orders| - 1], symbol);
      var o := orders[|orders| - 1];
      assert orders == orders[..|orders| - 1] + [o];
      if CoinOf(o) == JStr(symbol) then rest + [o] else rest
  }

  /** The filter keeps the orders in their original order: filtering a
      concatenation is concatenating the filtered parts, so with the
      one-order case above the result is fixed element by element. */
  lemma {:induction false} FilterByCoinConcat(a: seq<Json>, b: seq<Json>, symbol: string)
    ensures FilterByCoin(a + b, symbol) == FilterByCoin(a, symbol) + FilterByCoin(b, symbol)
    decreases |b|
  {
    if |b| > 0 {
      var b' := b[..|b| - 1];
      assert (a + b)[..|a + b| - 1] == a + b';
      assert (a + b)[|a + b| - 1] == b[|b| - 1];
      FilterByCoinConcat(a, b', symbol);
    } else {
      assert a + b == a;
    }
  }

  /** `get_open_orders(symbol)`. With a non-empty symbol the SDK's list is
      filtered by coin; an element that is not a dict makes `.get` raise, and
      any exception gives `[]`. Without one the list comes back as it is. */
  function GetOpenOrders(symbol: Option<string>, reply: Reply<seq<Json>>): (r: seq<Json>)
    ensures reply.Raised? ==> r == []
    ensures reply.Returned? && (symbol.None? || symbol.value == "") ==> r == reply.result
    ensures reply.Returned? && symbol.Some? && symbol.value != "" ==>
      r == (if AllDicts(reply.result) then FilterByCoin(reply.result, symbol.value) else [])
  {
    match reply
    case Raised(_) => []
    case Returned(orders) =>
      if symbol.Some? && |symbol.value| > 0 then
        if AllDicts(orders) then FilterByCoin(orders, symbol.value) else []
      else orders
  }

  /** The `exchange.cancel(o["coin"], o["oid"])` calls `cancel_all_orders`
      makes, in order: an order missing either key is skipped, and the first
      element that is not a dict ends the loop (its error handler itself calls
      `o.get`, which raises out of the loop). */
  function CancelCalls(orders: seq<Json>): (r: seq<(Json, Json)>)
    ensures |r| <= |orders|
  {
    if |orders| == 0 then []
    else
      var o := orders[0];
      if !o.JObj? then []
      else if "coin" in o.fields && "oid" in o.fields then
        [(o.fields["coin"], o.fields["oid"])] + CancelCalls(orders[1..])
      else CancelCalls(orders[1..])
  }

  /** How many of `calls` the exchange answered with status "ok". */
  function CountOk(calls: seq<(Json, Json)>, cancel: (Json, Json) -> Reply<Json>): (n: nat)
    ensures n <= |calls|
  {
    if |calls| == 0 then 0
    else
      var c := calls[|calls| - 1];
      CountOk(calls[..|calls| - 1], cancel) + (if StatusOk(cancel(c.0, c.1)) then 1 else 0)
  }

  /** `cancel_all_orders(symbol)`: the cancels it sends and the count it
      returns, which is the number of cancels answered "ok", or 0 when the
      loop was left through the outer error handler. */
  method CancelAllOrders(symbol: Option<string>, openReply: Reply<seq<Json>>,
                         cancel: (Json, Json) -> Reply<Json>)
    returns (count: nat, calls: seq<(Json, Json)>)
    ensures calls == CancelCalls(GetOpenOrders(symbol, openReply))
    ensures count == if AllDicts(GetOpenOrders(symbol, openReply)) then CountOk(calls, cancel) else 0
    ensures count <= |GetOpenOrders(symbol, openReply)|
  {
    count, calls := CancelEach(GetOpenOrders(symbol, openReply), cancel);
  }

  /** The loop of `cancel_all_orders` over the open orders it fetched. */
  method CancelEach(orders: seq<Json>, cancel: (Json, Json) -> Reply<Json>)
    returns (count: nat, calls: seq<(Json, Json)>)
    ensures calls == CancelCalls(orders)
    ensures count == if AllDicts(orders) then CountOk(calls, cancel) else 0
    ensures count <= |orders|
  {
    count, calls := 0, [];
    var i := 0;
    while i < |orders|
      invariant 0 <= i <= |orders|
      invariant forall j :: 0 <= j < i ==> orders[j].JObj?
      invariant calls + CancelCalls(orders[i..]) == CancelCalls(orders)
      invariant |calls| <= i
      invariant count == CountOk(calls, cancel)
    {
      var o := orders[i];
      if !o.JObj? {
        assert !AllDicts(orders);
        assert CancelCalls(orders[i..]) == [];
        return 0, calls;
      }
      CancelCallsStep(orders, i);
      var before := calls;
      calls, count := CancelOne(o, calls, count, cancel);
      ConcatAssoc(before, calls[|before|..], CancelCalls(orders[i + 1..]));
      i := i + 1;
    }
  }

  /** One turn of the cancel loop over a dict element: a cancel is sent
      when the order names both its coin and its oid. */
  method CancelOne(o: Json, calls: seq<(Json, Json)>, count: nat, cancel: (Json, Json) -> Reply<Json>)
    returns (calls': seq<(Json, Json)>, count': nat)
    requires o.JObj? && count == CountOk(calls, cancel)
    ensures calls' == calls + (if "coin" in o.fields && "oid" in o.fields then [(o.fields["coin"], o.fields["oid"])] else [])
    ensures count' == CountOk(calls', cancel)
  {
    calls', count' := calls, count;
    if "coin" in o.fields && "oid" in o.fields {
      var call := (o.fields["coin"], o.fields["oid"]);
      CountOkAppend(calls, call, cancel);
      calls' := calls + [call];
      if StatusOk(cancel(call.0, call.1)) {
        count' := count + 1;
      }
    }
  }

  lemma ConcatAssoc<T>(a: seq<T>, b: seq<T>, c: seq<T>)
    ensures (a + b) + c == a + (b + c)
  {
  }

  /** One step of the cancel loop over a dict element. */
  lemma CancelCallsStep(orders: seq<Json>, i: nat)
    requires i < |orders| && orders[i].JObj?
    ensures var o := orders[i];
      CancelCalls(orders[i..]) ==
        (if "coin" in o.fields && "oid" in o.fields then [(o.fields["coin"], o.fields["oid"])] else [])
        + CancelCalls(orders[i + 1..])
  {
    assert orders[i..][1..] == orders[i + 1..];
  }

  lemma CountOkAppend(calls: seq<(Json, Json)>, call: (Json, Json), cancel: (Json, Json) -> Reply<Json>)
    ensures CountOk(calls + [call], cancel) == CountOk(calls, cancel) + (if StatusOk(cancel(call.0, call.1)) then 1 else 0)
  {
    assert (calls + [call])[..|calls|] == calls;
  }

  /** `get_user_state()`: an exception gives `{}`. */
  function GetUserState(reply: Reply<Json>): (r: Json)
    ensures reply.Raised? ==> r == EmptyObj
    ensures reply.Returned? ==> r == reply.result
  {
    match reply
    case Raised(_) => EmptyObj
    case Returned(us) => us
  }

  datatype Side = Long | Short

  /** The dict `get_position` returns. */
  datatype Position = Position(symbol: string, size: real, entryPrice: real, unrealizedPnl: real, side: Side)

  /** `x or 0`. */
  function OrZero(x: Json): Json {
    if Truthy(x) then x else JInt(0)
  }

  /** What one asset position does to the search: a well-formed entry for
      another coin is skipped; an entry for `symbol` ends it with its
      position (or none, for size 0 or a field that does not convert); an
      entry that makes `.get` raise ends it with none. */
  datatype Probe = Skip | Stop(position: Option<Position>)

  /** `ap.get("position", {})` of a dict entry. */
  function PositionField(ap: Json): Json
    requires ap.JObj?
  {
    GetOr(ap.fields, "position", EmptyObj)
  }

  /** The entry's position is a dict whose "coin" is `symbol`. */
  predicate Matches(ap: Json, symbol: string) {
    ap.JObj? && PositionField(ap).JObj? && GetOr(PositionField(ap).fields, "coin", JNull) == JStr(symbol)
  }

  /** `float(ap["position"].get("szi", 0))`, `float(ap["position"].get("entryPx") or 0)`
      and `float(ap.get("unrealizedPnl") or 0)` of a matching entry. */
  function SizeOf(ap: Json, symbol: string): Option<real>
    requires Matches(ap, symbol)
  {
    PyFloat(GetOr(PositionField(ap).fields, "szi", JInt(0)))
  }

  function EntryPriceOf(ap: Json, symbol: string): Option<real>
    requires Matches(ap, symbol)
  {
    PyFloat(OrZero(GetOr(PositionField(ap).fields, "entryPx", JNull)))
  }

  function PnlOf(ap: Json): Option<real>
    requires ap.JObj?
  {
    PyFloat(OrZero(GetOr(ap.fields, "unrealizedPnl", JNull)))
  }

  function ProbeEntry(ap: Json, symbol: string): (r: Probe)
    ensures r == Skip <==> ap.JObj? && PositionField(ap).JObj? && !Matches(ap, symbol)
    ensures Matches(ap, symbol) ==>
      (r.Stop? && r.position.Some? <==>
        && SizeOf(ap, symbol).Some? && SizeOf(ap, symbol).value != 0.0
        && EntryPriceOf(ap, symbol).Some? && PnlOf(ap).Some?)
    ensures r.Stop? && r.position.Some? ==>
      && Matches(ap, symbol)
      && SizeOf(ap, symbol) == Some(r.position.value.size)
      && EntryPriceOf(ap, symbol) == Some(r.position.value.entryPrice)
      && PnlOf(ap) == Some(r.position.value.unrealizedPnl)
      && r.position.value.symbol == symbol
      && r.position.value.size != 0.0
      && (r.position.value.side == Long <==> r.position.value.size > 0.0)
  {
    if !ap.JObj? then Stop(None)
    else
      var pos := PositionField(ap);
      if !pos.JObj? then Stop(None)
      else if GetOr(pos.fields, "coin", JNull) != JStr(symbol) then Skip
      else match SizeOf(ap, symbol)
        case None => Stop(None)
        case Some(size) =>
          if size == 0.0 then Stop(None)
          else match EntryPriceOf(ap, symbol)
            case None => Stop(None)
            case Some(entry) =>
              match PnlOf(ap)
              case None => Stop(None)
              case Some(pnl) =>
                Stop(Some(Position(symbol, size, entry, pnl, if size > 0.0 then Long else Short)))
  }

  /** The loop over `assetPositions`. */
  function FirstPosition(aps: seq<Json>, symbol: string): (r: Option<Position>)
    ensures (forall j :: 0 <= j < |aps| ==> ProbeEntry(aps[j], symbol) == Skip) ==> r.None?
  {
    if |aps| == 0 then None
    else match ProbeEntry(aps[0], symbol)
      case Skip => FirstPosition(aps[1..], symbol)
      case Stop(p) => p
  }

  /** `get_position(symbol)`. Only a list of asset positions is searched: a
      dict or a string iterates to keys or characters, whose `.get` raises,
      and anything else is not iterable; all of those end in `None`. */
  function GetPosition(symbol: string, reply: Reply<Json>): (r: Option<Position>)
    ensures reply.Raised? ==> r.None?
    ensures var us := GetUserState(reply);
      r == if us.JObj? && GetOr(us.fields, "assetPositions", JArr([])).JArr?
           then FirstPosition(GetOr(us.fields, "assetPositions", JArr([])).items, symbol)
           else None
    ensures r.Some? ==>
      && r.value.symbol == symbol
      && r.value.size != 0.0
      && (r.value.side == Long <==> r.value.size > 0.0)
  {
    var us := GetUserState(reply);
    if !us.JObj? then None
    else match GetOr(us.fields, "assetPositions", JArr([]))
      case JArr(aps) =>
        FirstPositionSound(aps, symbol);
        FirstPosition(aps, symbol)
      case _ => None
  }

  /** A position found by the search is the one some entry stops at, with
      every entry before it skipped as another coin's. */
  lemma {:induction false} FirstPositionSound(aps: seq<Json>, symbol: string)
    ensures var r := FirstPosition(aps, symbol);
      r.Some? ==> exists i :: (0 <= i < |aps| && ProbeEntry(aps[i], symbol) == Stop(r)
                              && forall j :: 0 <= j < i ==> ProbeEntry(aps[j], symbol) == Skip)
    ensures var r := FirstPosition(aps, symbol);
      r.Some? ==> r.value.symbol == symbol && r.value.size != 0.0 && (r.value.side == Long <==> r.value.size > 0.0)
    decreases |aps|
  {
    if |aps| > 0 && ProbeEntry(aps[0], symbol).Skip? {
      var r := FirstPosition(aps, symbol);
      FirstPositionSound(aps[1..], symbol);
      if r.Some? {
        var i :| 0 <= i < |aps[1..]| && ProbeEntry(aps[1..][i], symbol) == Stop(r)
                 && forall j :: 0 <= j < i ==> ProbeEntry(aps[1..][j], symbol) == Skip;
        assert ProbeEntry(aps[i + 1], symbol) == Stop(r);
        forall j | 0 <= j < i + 1
          ensures ProbeEntry(aps[j], symbol) == Skip
        {
          if j > 0 {
            assert aps[j] == aps[1..][j - 1];
          }
        }
      }
    } else if |aps| > 0 {
      assert ProbeEntry(aps[0], symbol) == Stop(FirstPosition(aps, symbol));
    }
  }

  /** The first entry that is not skipped decides the result: later entries,
      even ones for the same coin, are never looked at. */
  lemma {:induction false} FirstMatchDecides(aps: seq<Json>, symbol: string, i: nat)
    requires i < |aps|
    requires forall j :: 0 <= j < i ==> ProbeEntry(aps[j], symbol) == Skip
    requires ProbeEntry(aps[i], symbol).Stop?
    ensures FirstPosition(aps, symbol) == ProbeEntry(aps[i], symbol).position
    decreases i
  {
    if i > 0 {
      FirstMatchDecides(aps[1..], symbol, i - 1);
    }
  }

  /** When every entry is another coin's, there is no position. */
  lemma {:induction false} NoMatchNoPosition(aps: seq<Json>, symbol: string)
    requires forall j :: 0 <= j < |aps| ==> ProbeEntry(aps[j], symbol) == Skip
    ensures FirstPosition(aps, symbol) == None
    decreases |aps|
  {
    if |aps| > 0 {
      NoMatchNoPosition(aps[1..], symbol);
    }
  }
}

=== FILE: indicators.dfy ===
/** The streaming Bollinger Bands indicator (indicators.py, and its identical
    copy core/indicators.py): a bounded FIFO window of the latest values, an
    SMA middle band and bands `k` sample standard deviations either side. */
module Indicators {
  import opened Wrappers
  import opened Json

  type Period = n: int | n >= 1 witness 1
  type NonNegReal = r: real | r >= 0.0

  datatype Bands = Bands(middle: real, upper: real, lower: real)

  /** The indicator's state: the bands are the ones the latest update produced. */
  datatype BollingerBands = BollingerBands(
    period: Period,
    numStdDev: NonNegReal,
    window: seq<real>,
    bands: Option<Bands>)

  datatype IndicatorError =
    | NonPositivePeriod   // ValueError from the constructor
    | NegativeStdDev      // ValueError from the constructor
    | NotANumber          // TypeError from update

  function Sum(w: seq<real>): real {
    if |w| == 0 then 0.0 else Sum(w[..|w| - 1]) + w[|w| - 1]
  }

  function Mean(w: seq<real>): real
    requires |w| > 0
  {
    Sum(w) / |w| as real
  }

  lemma MulNonNeg(a: real, b: real)
    requires a >= 0.0 && b >= 0.0
    ensures a * b >= 0.0
  {
  }

  lemma SquareNonNeg(d: real)
    ensures d * d >= 0.0
  {
    if d < 0.0 {
      MulNonNeg(-d, -d);
    } else {
      MulNonNeg(d, d);
    }
  }

  function SquaredDeviations(w: seq<real>, m: real): (r: real)
    ensures r >= 0.0
  {
    if |w| == 0 then 0.0
    else
      var d := w[|w| - 1] - m;
      SquareNonNeg(d);
      SquaredDeviations(w[..|w| - 1], m) + d * d
  }

  /** The sample variance (divisor n - 1) that `statistics.stdev` takes the root of. */
  function SampleVariance(w: seq<real>): real
    requires |w| >= 2
  {
    SquaredDeviations(w, Mean(w)) / (|w| - 1) as real
  }

  /** `r` is a non-negative square root of `v`. */
  ghost predicate IsRoot(r: real, v: real) {
    r >= 0.0 && r * r == v
  }

  /** What the model assumes of `statistics.stdev`: for windows of two or more
      values it is the non-negative square root of the sample variance. */
  ghost predicate IsStdev(sd: seq<real> -> real) {
    forall w: seq<real>, r: real :: |w| >= 2 ==> (IsRoot(r, SampleVariance(w)) <==> r == sd(w))
  }

  /** The last `n` elements of `s`, or all of it when it is shorter:
      what a `deque(maxlen=n)` keeps after `s` is appended to it. */
  function Last<T>(s: seq<T>, n: nat): (r: seq<T>)
    ensures |r| == if |s| <= n then |s| else n
    ensures forall i :: 0 <= i < |r| ==> r[i] == s[|s| - |r| + i]
  {
    if |s| <= n then s else s[|s| - n..]
  }

  /** The two facts the model uses about `statistics.stdev` on one window. */
  lemma StdevOf(sd: seq<real> -> real, w: seq<real>)
    requires IsStdev(sd) && |w| >= 2
    ensures sd(w) >= 0.0 && sd(w) * sd(w) == SampleVariance(w)
  {
    assert IsRoot(sd(w), SampleVariance(w));
  }

  lemma LastAppend<T>(s: seq<T>, x: T, n: nat)
    requires n >= 1
    ensures Last(Last(s, n) + [x], n) == Last(s + [x], n)
    ensures Last(s + [x], n)[..|Last(s + [x], n)| - 1] == Last(s, n - 1)
  {
  }

  /** The state invariant: the window never exceeds the period, the bands are
      defined exactly when it is full, and then they are the SMA of the window
      with symmetric, ordered bands around it. */
  predicate Valid(b: BollingerBands) {
    && |b.window| <= b.period
    && (b.bands.Some? <==> |b.window| == b.period)
    && (b.bands.Some? ==>
          && b.bands.value.middle == Sum(b.window) / b.period as real
          && b.bands.value.upper - b.bands.value.middle == b.bands.value.middle - b.bands.value.lower
          && b.bands.value.lower <= b.bands.value.middle <= b.bands.value.upper)
  }

  /** `BollingerBands.__init__`; a period below 2 with `k > 0` only prints a warning. */
  function New(period: int, numStdDev: real): (r: Result<BollingerBands, IndicatorError>)
    ensures r.Ok? <==> period > 0 && numStdDev >= 0.0
    ensures period <= 0 ==> r == Err(NonPositivePeriod)
    ensures period > 0 && numStdDev < 0.0 ==> r == Err(NegativeStdDev)
    ensures r.Ok? ==> Valid(r.value) && !IsReady(r.value) && |r.value.window| == 0
    ensures r.Ok? ==> r.value.period == period && r.value.numStdDev == numStdDev
  {
    if period <= 0 then Err(NonPositivePeriod)
    else if numStdDev < 0.0 then Err(NegativeStdDev)
    else Ok(BollingerBands(period, numStdDev, [], None))
  }

  /** The bands of a full window. */
  function BandsOf(w: seq<real>, period: Period, k: NonNegReal, sd: seq<real> -> real): (r: Bands)
    requires IsStdev(sd) && |w| == period
    ensures r.middle == Sum(w) / period as real
    ensures r.upper - r.middle == k * (if period < 2 then 0.0 else sd(w))
    ensures r.middle - r.lower == r.upper - r.middle
    ensures r.lower <= r.middle <= r.upper
  {
    var middle := Sum(w) / period as real;
    var dev := if period < 2 then 0.0 else sd(w);
    if period >= 2 then StdevOf(sd, w); MulNonNeg(k, dev); Bands(middle, middle + k * dev, middle - k * dev)
    else Bands(middle, middle + k * dev, middle - k * dev)
  }

  /** `update(value)`: append to the window, evicting the oldest value when
      full, and return the bands, defined only once the window is full. */
  function Update(b: BollingerBands, x: real, sd: seq<real> -> real)
    : (r: (BollingerBands, Option<Bands>))
    requires IsStdev(sd)
    ensures Valid(r.0)
    ensures r.0.period == b.period && r.0.numStdDev == b.numStdDev
    ensures r.0.bands == r.1
    ensures r.0.window == Last(b.window + [x], b.period)
    ensures r.1.Some? ==> r.1.value == BandsOf(r.0.window, b.period, b.numStdDev, sd)
  {
    var w := Last(b.window + [x], b.period);
    if |w| == b.period then
      var bands := BandsOf(w, b.period, b.numStdDev, sd);
      (b.(window := w, bands := Some(bands)), Some(bands))
    else
      (b.(window := w, bands := None), None)
  }

  /** A value is accepted when Python sees it as an `int` or a `float` (a `bool` is an `int`). */
  function AsNumber(v: Json): Option<real> {
    match v
    case JInt(i) => Some(i as real)
    case JNum(r) => Some(r)
    case JBool(t) => Some(if t then 1.0 else 0.0)
    case _ => None
  }

  /** `update` on an arbitrary Python value: a non-number raises `TypeError`
      before the window is touched. */
  function UpdateValue(b: BollingerBands, v: Json, sd: seq<real> -> real)
    : (r: (BollingerBands, Result<Option<Bands>, IndicatorError>))
    requires IsStdev(sd)
    ensures AsNumber(v).None? <==> r.1.Err?
    ensures r.1.Err? ==> r.0 == b && r.1.error == NotANumber
    ensures r.1.Ok? ==> (r.0, r.1.value) == Update(b, AsNumber(v).value, sd)
  {
    match AsNumber(v)
    case None => (b, Err(NotANumber))
    case Some(x) =>
      var (b', out) := Update(b, x, sd);
      (b', Ok(out))
  }

  /** `is_ready`. */
  predicate IsReady(b: BollingerBands) {
    b.bands.Some?
  }

  /** In a valid indicator, `is_ready` holds exactly when the window is full. */
  lemma ReadyIffFull(b: BollingerBands)
    requires Valid(b)
    ensures IsReady(b) <==> |b.window| == b.period
  {
  }

  /** The `middle_band` property: defined exactly when the indicator is
      ready, and then the mean of the full window. */
  function MiddleBand(b: BollingerBands): (r: Option<real>)
    ensures r.Some? <==> IsReady(b)
    ensures Valid(b) && r.Some? ==> |b.window| == b.period && r.value == Sum(b.window) / b.period as real
  {
    if b.bands.Some? then Some(b.bands.value.middle) else None
  }

  /** The `upper_band` property: defined exactly when the indicator is
      ready, and then at or above the middle band. */
  function UpperBand(b: BollingerBands): (r: Option<real>)
    ensures r.Some? <==> IsReady(b)
    ensures Valid(b) && r.Some? ==> MiddleBand(b).Some? && MiddleBand(b).value <= r.value
  {
    if b.bands.Some? then Some(b.bands.value.upper) else None
  }

  /** The `lower_band` property: defined exactly when the indicator is
      ready, and then as far below the middle band as the upper band is
      above it. */
  function LowerBand(b: BollingerBands): (r: Option<real>)
    ensures r.Some? <==> IsReady(b)
    ensures Valid(b) && r.Some? ==>
      && MiddleBand(b).Some? && UpperBand(b).Some?
      && r.value <= MiddleBand(b).value
      && MiddleBand(b).value - r.value == UpperBand(b).value - MiddleBand(b).value
  {
    if b.bands.Some? then Some(b.bands.value.lower) else None
  }

  /** `is_ready` is exactly "the middle band is defined", and then all three are. */
  lemma ReadyIffMiddleDefined(b: BollingerBands)
    ensures IsReady(b) <==> MiddleBand(b).Some?
    ensures IsReady(b) <==> UpperBand(b).Some? && LowerBand(b).Some?
  {
  }

  /** `reset`: empties the window and forgets the bands, giving back the
      freshly constructed indicator. */
  function Reset(b: BollingerBands): (r: BollingerBands)
    ensures New(b.period, b.numStdDev) == Ok(r)
    ensures !IsReady(r) && Valid(r)
  {
    b.(window := [], bands := None)
  }

  // ---------------------------------------------------------------------
  // Streams of updates.

  /** The state after feeding `xs` one by one. */
  function Feed(b: BollingerBands, xs: seq<real>, sd: seq<real> -> real): BollingerBands
    requires IsStdev(sd)
  {
    if |xs| == 0 then b else Update(Feed(b, xs[..|xs| - 1], sd), xs[|xs| - 1], sd).0
  }

  /** Whatever has been fed, the window holds exactly the last `min(n, period)`
      inputs, in order, and the period never changes. */
  lemma {:induction false} FeedWindow(b: BollingerBands, xs: seq<real>, sd: seq<real> -> real)
    requires IsStdev(sd)
    requires |b.window| == 0
    ensures Feed(b, xs, sd).window == Last(xs, b.period)
    ensures Feed(b, xs, sd).period == b.period
  {
    if |xs| > 0 {
      var init, x := xs[..|xs| - 1], xs[|xs| - 1];
      assert init + [x] == xs;
      FeedWindow(b, init, sd);
      var prev := Feed(b, init, sd);
      var next := Update(prev, x, sd).0;
      assert Feed(b, xs, sd) == next;
      assert next.window == Last(Last(init, b.period) + [x], b.period);
      LastAppend(init, x, b.period);
    }
  }

  /** Starting empty, the bands are undefined for the first `period - 1`
      updates and defined from the `period`-th on; once full, the window
      stays full. */
  lemma FeedReady(b: BollingerBands, xs: seq<real>, sd: seq<real> -> real)
    requires IsStdev(sd)
    requires |b.window| == 0 && !IsReady(b)
    ensures IsReady(Feed(b, xs, sd)) <==> |xs| >= b.period
    ensures Valid(Feed(b, xs, sd))
  {
    FeedWindow(b, xs, sd);
    if |xs| > 0 {
      assert Valid(Feed(b, xs, sd));
    }
  }

  /** A full window stays full: every later update yields defined bands. */
  lemma FullStaysFull(b: BollingerBands, x: real, sd: seq<real> -> real)
    requires IsStdev(sd)
    requires |b.window| == b.period
    ensures Update(b, x, sd).1.Some?
    ensures |Update(b, x, sd).0.window| == b.period
  {
  }

  lemma {:induction false} SumConstant(w: seq<real>, c: real)
    requires forall i :: 0 <= i < |w| ==> w[i] == c
    ensures Sum(w) == |w| as real * c
  {
    if |w| > 0 {
      SumConstant(w[..|w| - 1], c);
    }
  }

  lemma {:induction false} SquaredDeviationsConstant(w: seq<real>, c: real)
    requires forall i :: 0 <= i < |w| ==> w[i] == c
    ensures SquaredDeviations(w, c) == 0.0
  {
    if |w| > 0 {
      SquaredDeviationsConstant(w[..|w| - 1], c);
    }
  }

  /** A window with no spread has standard deviation zero. */
  lemma StdevOfNoSpread(sd: seq<real> -> real, w: seq<real>)
    requires IsStdev(sd) && |w| >= 2 && SampleVariance(w) == 0.0
    ensures sd(w) == 0.0
  {
    assert IsRoot(0.0, SampleVariance(w));
  }

  /** A window of unit sample variance has standard deviation one. */
  lemma StdevOfUnitVariance(sd: seq<real> -> real, w: seq<real>)
    requires IsStdev(sd) && |w| >= 2 && SampleVariance(w) == 1.0
    ensures sd(w) == 1.0
  {
    assert IsRoot(1.0, SampleVariance(w));
  }

  /** A constant window has zero standard deviation, so all three bands coincide. */
  lemma ConstantWindowCollapses(w: seq<real>, c: real, period: Period, k: NonNegReal, sd: seq<real> -> real)
    requires IsStdev(sd)
    requires |w| == period
    requires forall i :: 0 <= i < |w| ==> w[i] == c
    ensures BandsOf(w, period, k, sd) == Bands(c, c, c)
  {
    SumConstant(w, c);
    assert Sum(w) / period as real == c;
    if period >= 2 {
      SquaredDeviationsConstant(w, c);
      assert Mean(w) == c;
      assert SampleVariance(w) == 0.0;
      StdevOfNoSpread(sd, w);
    }
  }

  /** Feeding 1, 2, 3 into an empty period-3 indicator fills the window with
      exactly those values and computes their bands. */
  lemma ThreeValueWindow(b: BollingerBands, sd: seq<real> -> real)
    requires IsStdev(sd)
    requires b == New(3, 2.0).value
    ensures Feed(b, [1.0, 2.0, 3.0], sd).window == [1.0, 2.0, 3.0]
    ensures Feed(b, [1.0, 2.0, 3.0], sd).bands == Some(BandsOf([1.0, 2.0, 3.0], 3, 2.0, sd))
  {
    var w := [1.0, 2.0, 3.0];
    FeedWindow(b, w, sd);
    assert w[..|w| - 1] == [1.0, 2.0] && w[|w| - 1] == 3.0;
    var next := Update(Feed(b, [1.0, 2.0], sd), 3.0, sd).0;
    assert Feed(b, w, sd) == next;
    assert Valid(next) && |next.window| == next.period;
  }

  /** 1, 2, 3 has mean 2 and sample variance 1. */
  lemma ThreeValueVariance()
    ensures Sum([1.0, 2.0, 3.0]) == 6.0
    ensures SampleVariance([1.0, 2.0, 3.0]) == 1.0
  {
    var w := [1.0, 2.0, 3.0];
    assert w[..2] == [1.0, 2.0] && [1.0, 2.0][..1] == [1.0] && [1.0][..0] == [];
    assert Sum([1.0]) == 1.0;
    assert Sum([1.0, 2.0]) == 3.0;
    assert Sum(w) == 6.0;
    assert Mean(w) == 2.0;
    assert SquaredDeviations([1.0], 2.0) == 1.0;
    assert SquaredDeviations([1.0, 2.0], 2.0) == 1.0;
    assert SquaredDeviations(w, 2.0) == 2.0;
  }

  /** period 3, k 2, inputs 1, 2, 3: middle 2, sample stdev 1, upper 4, lower 0. */
  lemma ThreeValueExample(sd: seq<real> -> real)
    requires IsStdev(sd)
    ensures var b := New(3, 2.0).value;
      Feed(b, [1.0, 2.0, 3.0], sd).bands == Some(Bands(2.0, 4.0, 0.0))
  {
    var w := [1.0, 2.0, 3.0];
    ThreeValueWindow(New(3, 2.0).value, sd);
    ThreeValueVariance();
    StdevOfUnitVariance(sd, w);
  }
}

=== FILE: json.dfy ===
/** The Python values that `json.loads` produces and that the exchange SDK hands
    back: the shape every wire message, SDK result and parameter bag has here. */
module Json {
  import opened Wrappers

  datatype Json =
    | JNull
    | JBool(b: bool)
    | JInt(i: int)
    | JNum(r: real)
    | JStr(s: string)
    | JArr(items: seq<Json>)
    | JObj(fields: map<string, Json>)

  /** The empty dict `{}`. */
  const EmptyObj: Json := JObj(map[])

  /** Python truthiness: `None`, `False`, zero, and empty strings, lists and dicts are falsy. */
  predicate Truthy(j: Json) {
    match j
    case JNull => false
    case JBool(b) => b
    case JInt(i) => i != 0
    case JNum(r) => r != 0.0
    case JStr(s) => |s| > 0
    case JArr(xs) => |xs| > 0
    case JObj(m) => |m| > 0
  }

  /** `d.get(key, default)` on a dict. */
  function GetOr(fields: map<string, Json>, key: string, default: Json): (r: Json)
    ensures key in fields ==> r == fields[key]
    ensures key !in fields ==> r == default
  {
    if key in fields then fields[key] else default
  }

  /** `obj.get(key, default)` where `obj` may not be a dict: calling `.get` on
      anything else raises `AttributeError`, which is `None` here. */
  function Get(obj: Json, key: string, default: Json): (r: Option<Json>)
    ensures r.Some? <==> obj.JObj?
    ensures obj.JObj? ==> r.value == GetOr(obj.fields, key, default)
  {
    match obj
    case JObj(m) => Some(GetOr(m, key, default))
    case _ => None
  }

  /** `obj[key]`: a `KeyError`, or a `TypeError` on a non-dict, is `None` here. */
  function Index(obj: Json, key: string): (r: Option<Json>)
    ensures r.Some? <==> obj.JObj? && key in obj.fields
    ensures r.Some? ==> r.value == obj.fields[key]
  {
    if obj.JObj? && key in obj.fields then Some(obj.fields[key]) else None
  }

  /** Values Python can use as a dict key: lists and dicts are unhashable. */
  predicate Hashable(j: Json) {
    !j.JArr? && !j.JObj?
  }
}

=== FILE: numbers.dfy ===
/** Python's `str(int)`, `int(...)`, `float(...)` and `%` as far as the model
    needs them, written out over unbounded integers and reals. */
module Numbers {
  import opened Wrappers
  import opened Json

  predicate IsDigit(c: char) {
    '0' <= c <= '9'
  }

  predicate AllDigits(s: string) {
    forall i :: 0 <= i < |s| ==> IsDigit(s[i])
  }

  function DigitChar(d: nat): (c: char)
    requires d < 10
    ensures IsDigit(c)
  {
    "0123456789"[d]
  }

  function DigitOf(c: char): (d: nat)
    requires IsDigit(c)
    ensures d < 10
  {
    (c as int - '0' as int) as nat
  }

  /** The number a string of decimal digits denotes (most significant first). */
  function DigitsValue(s: string): nat
    requires AllDigits(s)
  {
    if |s| == 0 then 0 else DigitsValue(s[..|s| - 1]) * 10 + DigitOf(s[|s| - 1])
  }

  function Pow10(k: nat): (r: nat)
    ensures r >= 1
  {
    if k == 0 then 1 else 10 * Pow10(k - 1)
  }

  /** `str(n)` for a non-negative integer: no leading zeros, "0" for zero. */
  function NatToString(n: nat): (s: string)
    ensures |s| >= 1 && AllDigits(s)
    ensures |s| > 1 ==> s[0] != '0'
  {
    if n < 10 then [DigitChar(n)] else NatToString(n / 10) + [DigitChar(n % 10)]
  }

  /** `str(i)` for any integer. */
  function IntToString(i: int): (s: string)
    ensures |s| >= 1
    ensures i >= 0 <==> AllDigits(s)
  {
    if i >= 0 then NatToString(i)
    else
      var s := "-" + NatToString(-i);
      assert !IsDigit(s[0]);
      s
  }

  /** `int(s)` restricted to ASCII digits: the digits of a non-negative number. */
  function ParseNat(s: string): (r: Option<nat>)
    ensures r.Some? <==> |s| > 0 && AllDigits(s)
  {
    if |s| > 0 && AllDigits(s) then Some(DigitsValue(s)) else None
  }

  /** The text `int(s)` accepts: an optional sign, then at least one ASCII digit. */
  predicate IntegerText(s: string) {
    if |s| > 0 && (s[0] == '-' || s[0] == '+') then |s| > 1 && AllDigits(s[1..])
    else |s| > 0 && AllDigits(s)
  }

  /** `int(s)`: an optional sign followed by at least one ASCII digit. */
  function ParseInt(s: string): (r: Option<int>)
    ensures r.Some? <==> IntegerText(s)
    ensures |s| > 0 && AllDigits(s) ==> r == Some(DigitsValue(s) as int)
    ensures IntegerText(s) && s[0] == '-' ==> r == Some(-(DigitsValue(s[1..]) as int))
    ensures IntegerText(s) && s[0] == '+' ==> r == Some(DigitsValue(s[1..]) as int)
  {
    if |s| > 0 && s[0] == '-' then
      match ParseNat(s[1..])
      case Some(n) => Some(-(n as int))
      case None => None
    else if |s| > 0 && s[0] == '+' then
      match ParseNat(s[1..])
      case Some(n) => Some(n as int)
      case None => None
    else
      match ParseNat(s)
      case Some(n) => Some(n as int)
      case None => None
  }

  lemma {:induction false} DigitsValueOfNatToString(n: nat)
    ensures DigitsValue(NatToString(n)) == n
    decreases n
  {
    var s := NatToString(n);
    if n >= 10 {
      DigitsValueOfNatToString(n / 10);
      assert s[..|s| - 1] == NatToString(n / 10);
    }
  }

  /** Reading back what `str` wrote gives the same number. */
  lemma ParseNatRoundTrip(n: nat)
    ensures ParseNat(NatToString(n)) == Some(n)
  {
    DigitsValueOfNatToString(n);
  }

  lemma ParseIntRoundTrip(i: int)
    ensures ParseInt(IntToString(i)) == Some(i)
  {
    if i >= 0 {
      ParseNatRoundTrip(i);
    } else {
      var s := IntToString(i);
      assert s[1..] == NatToString(-i);
      ParseNatRoundTrip(-i);
    }
  }

  /** `str` never gives two numbers the same text. */
  lemma NatToStringInjective(a: nat, b: nat)
    requires NatToString(a) == NatToString(b)
    ensures a == b
  {
    ParseNatRoundTrip(a);
    ParseNatRoundTrip(b);
  }

  function IndexOf(s: string, c: char): (r: Option<nat>)
    ensures r.Some? ==> r.value < |s| && s[r.value] == c
    ensures r.Some? ==> forall k :: 0 <= k < r.value ==> s[k] != c
    ensures r.None? ==> forall k :: 0 <= k < |s| ==> s[k] != c
  {
    if |s| == 0 then None
    else if s[0] == c then Some(0)
    else match IndexOf(s[1..], c)
      case Some(k) => Some(k + 1)
      case None => None
  }

  /** The text `float` accepts without a sign: only digits and '.', at most
      one '.', and at least one digit ("5", "5.", ".5", "5.25"). */
  predicate DecimalText(s: string) {
    && (forall i :: 0 <= i < |s| ==> IsDigit(s[i]) || s[i] == '.')
    && (forall i, j :: 0 <= i < j < |s| && s[i] == '.' ==> s[j] != '.')
    && (exists i :: 0 <= i < |s| && IsDigit(s[i]))
  }

  /** The value of digits `ip` before the point and `fp` after it. */
  function DecimalValue(ip: string, fp: string): (r: real)
    requires AllDigits(ip) && AllDigits(fp)
    ensures r >= 0.0
  {
    DigitsValue(ip) as real + DigitsValue(fp) as real / Pow10(|fp|) as real
  }

  /** The value of an unsigned decimal `digits[.digits]` with at least one
      digit; `UnsignedDecimalOfPoint` gives the value of a text with a point. */
  function UnsignedDecimal(s: string): (r: Option<real>)
    ensures r.Some? <==> DecimalText(s)
    ensures |s| > 0 && AllDigits(s) ==> r == Some(DigitsValue(s) as real)
  {
    var dot := IndexOf(s, '.');
    var ip := if dot.Some? then s[..dot.value] else s;
    var fp := if dot.Some? then s[dot.value + 1..] else "";
    DecimalTextSplit(s);
    if |ip| + |fp| == 0 || !AllDigits(ip) || !AllDigits(fp) then None
    else
      assert dot.None? ==> DigitsValue(fp) == 0 && Pow10(|fp|) == 1;
      Some(DecimalValue(ip, fp))
  }

  /** How `DecimalText` reads through the first '.': with no point it is
      non-empty digits, with one the two sides are digits and not both empty. */
  lemma DecimalTextSplit(s: string)
    ensures IndexOf(s, '.').None? ==> (DecimalText(s) <==> |s| > 0 && AllDigits(s))
    ensures IndexOf(s, '.').Some? ==>
      var k := IndexOf(s, '.').value;
      DecimalText(s) <==> |s| >= 2 && AllDigits(s[..k]) && AllDigits(s[k + 1..])
  {
    match IndexOf(s, '.')
    case None =>
      if |s| > 0 && AllDigits(s) {
        assert IsDigit(s[0]);
      }
    case Some(k) =>
      var ip, fp := s[..k], s[k + 1..];
      if DecimalText(s) {
        forall i | 0 <= i < |ip|
          ensures IsDigit(ip[i])
        {
          assert ip[i] == s[i];
        }
        forall i | 0 <= i < |fp|
          ensures IsDigit(fp[i])
        {
          assert fp[i] == s[k + 1 + i];
        }
        var d :| 0 <= d < |s| && IsDigit(s[d]);
        assert d != k;
      }
      if |s| >= 2 && AllDigits(ip) && AllDigits(fp) {
        forall i | 0 <= i < |s|
          ensures IsDigit(s[i]) || s[i] == '.'
          ensures i != k ==> IsDigit(s[i])
        {
          if i < k {
            assert s[i] == ip[i];
          } else if i > k {
            assert s[i] == fp[i - k - 1];
          }
        }
        var d := if k == 0 then 1 else 0;
        assert IsDigit(s[d]);
      }
  }

  /** `float(s)` for plain decimal text: an optional sign, digits, an optional
      fractional part, at least one digit in all. */
  function ParseDecimal(s: string): (r: Option<real>)
    ensures r.Some? <==>
      if |s| > 0 && (s[0] == '-' || s[0] == '+') then DecimalText(s[1..]) else DecimalText(s)
    ensures r.Some? && |s| > 0 && s[0] == '-' ==> r.value <= 0.0
    ensures r.Some? && (|s| == 0 || s[0] != '-') ==> r.value >= 0.0
  {
    if |s| > 0 && s[0] == '-' then
      match UnsignedDecimal(s[1..])
      case Some(v) => Some(-v)
      case None => None
    else if |s| > 0 && s[0] == '+' then UnsignedDecimal(s[1..])
    else UnsignedDecimal(s)
  }

  /** Digits, a point and digits read back as their value. */
  lemma UnsignedDecimalOfPoint(ip: string, fp: string)
    requires AllDigits(ip) && AllDigits(fp) && |ip| + |fp| > 0
    ensures UnsignedDecimal(ip + "." + fp) == Some(DecimalValue(ip, fp))
  {
    var t := ip + "." + fp;
    var k := |ip|;
    assert t[k] == '.';
    var dot := IndexOf(t, '.');
    assert dot == Some(k) by {
      assert dot.Some?;
    }
    assert t[..k] == ip && t[k + 1..] == fp;
  }

  /** The sign `float` accepts in front of the digits. */
  datatype Sign = NoSign | Plus | Minus

  function SignText(sign: Sign): string {
    match sign
    case NoSign => ""
    case Plus => "+"
    case Minus => "-"
  }

  /** A signed text whose rest does not start with a sign reads as the
      rest, negated for '-'. */
  lemma ParseSigned(sign: Sign, t: string)
    requires |t| > 0 && IsDigit(t[0])
    ensures ParseDecimal(SignText(sign) + t)
         == if sign == Minus then (if UnsignedDecimal(t).Some? then Some(-UnsignedDecimal(t).value) else None)
            else UnsignedDecimal(t)
  {
    var text := SignText(sign) + t;
    if sign == NoSign {
      assert text == t;
    } else {
      assert text[0] != '-' || sign == Minus;
      assert text[1..] == t;
    }
  }

  /** A decimal with a fractional part reads back as its value, whatever its
      sign: `float("-12.05") == -(12 + 5/100)` and `float("+12.05") == 12.05`. */
  lemma ParseDecimalFraction(sign: Sign, n: nat, d: string)
    requires AllDigits(d)
    ensures var v := DecimalValue(NatToString(n), d);
      ParseDecimal(SignText(sign) + NatToString(n) + "." + d) == Some(if sign == Minus then -v else v)
  {
    var ip := NatToString(n);
    var t := ip + "." + d;
    UnsignedDecimalOfPoint(ip, d);
    assert SignText(sign) + ip + "." + d == SignText(sign) + t;
    assert t[0] == ip[0];
    ParseSigned(sign, t);
  }

  /** The text `str` writes for an integer reads back through `float` as
      that integer. */
  lemma ParseDecimalOfIntString(i: int)
    ensures ParseDecimal(IntToString(i)) == Some(i as real)
  {
    var n: nat := if i >= 0 then i else -i;
    var t := NatToString(n);
    DigitsValueOfNatToString(n);
    assert IsDigit(t[0]);
    if i >= 0 {
      assert SignText(NoSign) + t == IntToString(i);
      ParseSigned(NoSign, t);
    } else {
      assert SignText(Minus) + t == IntToString(i);
      ParseSigned(Minus, t);
    }
  }

  /** Conversion of a real to an integer by truncation toward zero, as Python's `int(x)`. */
  function Trunc(r: real): (t: int)
    ensures r >= 0.0 ==> 0 <= t && t as real <= r < t as real + 1.0
    ensures r < 0.0 ==> t <= 0 && t as real - 1.0 < r <= t as real
  {
    if r >= 0.0 then r.Floor else -((-r).Floor)
  }

  /** Python's `float(x)`; `None` stands for the `TypeError`/`ValueError` it raises. */
  function PyFloat(j: Json): (r: Option<real>)
    ensures j.JInt? ==> r == Some(j.i as real)
    ensures j.JNum? ==> r == Some(j.r)
    ensures j.JBool? ==> r == Some(if j.b then 1.0 else 0.0)
    ensures j.JStr? ==> r == ParseDecimal(j.s)
    ensures j.JNull? || j.JArr? || j.JObj? ==> r.None?
  {
    match j
    case JInt(i) => Some(i as real)
    case JNum(x) => Some(x)
    case JBool(b) => Some(if b then 1.0 else 0.0)
    case JStr(s) => ParseDecimal(s)
    case _ => None
  }

  /** Python's `int(x)`; `None` stands for the exception it raises. */
  function PyInt(j: Json): (r: Option<int>)
    ensures j.JInt? ==> r == Some(j.i)
    ensures j.JNum? && j.r >= 0.0 ==> r.Some? && 0 <= r.value && r.value as real <= j.r < r.value as real + 1.0
    ensures j.JNum? && j.r < 0.0 ==> r.Some? && r.value <= 0 && r.value as real - 1.0 < j.r <= r.value as real
    ensures j.JBool? ==> r == Some(if j.b then 1 else 0)
    ensures j.JStr? ==> r == ParseInt(j.s)
    ensures j.JNull? || j.JArr? || j.JObj? ==> r.None?
  {
    match j
    case JInt(i) => Some(i)
    case JNum(x) => Some(Trunc(x))
    case JBool(b) => Some(if b then 1 else 0)
    case JStr(s) => ParseInt(s)
    case _ => None
  }

  /** Python's `a // b`: the quotient rounded toward minus infinity, for `b != 0`. */
  function PyDiv(a: int, b: int): int
    requires b != 0
  {
    if b > 0 || a % b == 0 then a / b else a / b - 1
  }

  /** Python's `a % b` (the result takes the sign of `b`), for `b != 0`. */
  function PyMod(a: int, b: int): (r: int)
    requires b != 0
    ensures b > 0 ==> 0 <= r < b
    ensures b < 0 ==> b < r <= 0
    ensures b > 0 ==> r == a % b
    ensures b < 0 ==> (r == 0 <==> a % b == 0)
  {
    if b > 0 then a % b
    else if a % b == 0 then 0
    else a % b + b
  }

  /** Python's floor division and remainder recombine: `a == (a // b) * b + a % b`,
      so the remainder is congruent to `a` modulo `b`. */
  lemma PyDivMod(a: int, b: int)
    requires b != 0
    ensures a == PyDiv(a, b) * b + PyMod(a, b)
  {
  }
}

=== FILE: perps_helper.dfy ===
/** The market-data helpers (core/perps_helper.py): defensive walks over the
    JSON the exchange's info endpoint returns. The endpoint's answer is the
    input. */
module PerpsHelper {
  import opened Wrappers
  import opened Json
  import opened Numbers

  /** The dex name one entry of `get_perp_dexs` contributes: the entry must
      be a two-element list whose second element is a dict with a string
      `name`. */
  function DexName(entry: Json): (r: Option<string>)
    ensures r.Some? ==>
      && entry.JArr? && |entry.items| == 2 && entry.items[1].JObj?
      && "name" in entry.items[1].fields && entry.items[1].fields["name"] == JStr(r.value)
  {
    if entry.JArr? && |entry.items| == 2 && entry.items[1].JObj? then
      match GetOr(entry.items[1].fields, "name", JNull)
      case JStr(name) => Some(name)
      case _ => None
    else None
  }

  /** The names of the well-formed entries, one per entry. */
  function DexNames(entries: seq<Json>): (r: seq<string>)
    ensures |r| <= |entries|
    ensures |entries| == 1 ==> r == (if DexName(entries[0]).Some? then [DexName(entries[0]).value] else [])
    ensures forall name :: name in r <==> exists e :: e in entries && DexName(e) == Some(name)
  {
    if |entries| == 0 then []
    else
      var rest := DexNames(entries[..|entries| - 1]);
      var e := entries[|entries| - 1];
      assert entries == entries[..|entries| - 1] + [e];
      match DexName(e)
      case Some(name) => rest + [name]
      case None => rest
  }

  /** Names are listed in the order of their entries: the names of a
      concatenation are the names of its parts, one after the other. */
  lemma {:induction false} DexNamesConcat(a: seq<Json>, b: seq<Json>)
    ensures DexNames(a + b) == DexNames(a) + DexNames(b)
    decreases |b|
  {
    if |b| > 0 {
      var b' := b[..|b| - 1];
      assert (a + b)[..|a + b| - 1] == a + b';
      assert (a + b)[|a + b| - 1] == b[|b| - 1];
      DexNamesConcat(a, b');
    } else {
      assert a + b == a;
    }
  }

  /** `list_dex_names`: the names of the well-formed entries, in order; a
      result that is not a list gives none. */
  function ListDexNames(result: Json): (r: seq<string>)
    ensures !result.JArr? ==> r == []
    ensures result.JArr? ==> forall name :: name in r <==> exists e :: e in result.items && DexName(e) == Some(name)
    ensures result.JArr? && (forall i :: 0 <= i < |result.items| ==> DexName(result.items[i]).Some?) ==>
      |r| == |result.items|
  {
    if result.JArr? then
      AllNamed(result.items);
      DexNames(result.items)
    else []
  }

  /** `list_dex_names` walks the list front to back: the names for two
      runs of entries are those of the first run, then those of the second. */
  lemma ListDexNamesInOrder(a: seq<Json>, b: seq<Json>)
    ensures ListDexNames(JArr(a + b)) == ListDexNames(JArr(a)) + ListDexNames(JArr(b))
  {
    DexNamesConcat(a, b);
  }

  lemma {:induction false} AllNamed(entries: seq<Json>)
    ensures (forall i :: 0 <= i < |entries| ==> DexName(entries[i]).Some?) ==> |DexNames(entries)| == |entries|
  {
    if |entries| > 0 {
      AllNamed(entries[..|entries| - 1]);
    }
  }

  /** `fetch_universe_and_ctxs`: `(universe, ctxs)` out of a two-element
      answer; anything else gives two empty lists. The universe is whatever
      `meta.get("universe", [])` holds. */
  function FetchUniverseAndCtxs(result: Json): (r: (Json, seq<Json>))
    ensures !(result.JArr? && |result.items| == 2) ==> r == (JArr([]), [])
    ensures result.JArr? && |result.items| == 2 ==>
      && r.0 == (if result.items[0].JObj? then GetOr(result.items[0].fields, "universe", JArr([])) else JArr([]))
      && r.1 == (if result.items[1].JArr? then result.items[1].items else [])
  {
    if result.JArr? && |result.items| == 2 then
      var meta, ctxs := result.items[0], result.items[1];
      (if meta.JObj? then GetOr(meta.fields, "universe", JArr([])) else JArr([]),
       if ctxs.JArr? then ctxs.items else [])
    else (JArr([]), [])
  }

  /** The coin one `(asset, ctx)` pair names, when the asset is a dict with a
      string `name` and the ctx a dict. */
  function PairCoin(asset: Json, ctx: Json): Option<string> {
    if asset.JObj? && ctx.JObj? then
      match GetOr(asset.fields, "name", JNull)
      case JStr(coin) => Some(coin)
      case _ => None
    else None
  }

  /** The loop over `zip(universe, ctxs)`: pairs by position, stops at the
      shorter list, later pairs overwrite earlier ones. */
  function Pairing(assets: seq<Json>, ctxs: seq<Json>): (r: map<string, Json>)
    ensures forall coin :: coin in r ==> r[coin].JObj?
    decreases |assets|
  {
    var n := if |assets| < |ctxs| then |assets| else |ctxs|;
    if n == 0 then map[]
    else
      var rest := Pairing(assets[..n - 1], ctxs[..n - 1]);
      match PairCoin(assets[n - 1], ctxs[n - 1])
      case Some(coin) => rest[coin := ctxs[n - 1]]
      case None => rest
  }

  /** The last position below `n` whose pair names `coin`. */
  function LastPair(assets: seq<Json>, ctxs: seq<Json>, n: nat, coin: string): (r: Option<nat>)
    requires n <= |assets| && n <= |ctxs|
    ensures r.Some? ==> r.value < n && PairCoin(assets[r.value], ctxs[r.value]) == Some(coin)
    ensures r.Some? ==> forall j :: r.value < j < n ==> PairCoin(assets[j], ctxs[j]) != Some(coin)
    ensures r.None? ==> forall j :: 0 <= j < n ==> PairCoin(assets[j], ctxs[j]) != Some(coin)
  {
    if n == 0 then None
    else if PairCoin(assets[n - 1], ctxs[n - 1]) == Some(coin) then Some(n - 1)
    else LastPair(assets, ctxs, n - 1, coin)
  }

  /** A coin maps to the ctx of the LAST pair that names it, and only coins
      some pair names are present. */
  lemma {:induction false} PairingLastWins(assets: seq<Json>, ctxs: seq<Json>, coin: string)
    ensures var n := if |assets| < |ctxs| then |assets| else |ctxs|;
      var last := LastPair(assets, ctxs, n, coin);
      && (coin in Pairing(assets, ctxs) <==> last.Some?)
      && (last.Some? ==> Pairing(assets, ctxs)[coin] == ctxs[last.value])
    decreases |assets|
  {
    var n := if |assets| < |ctxs| then |assets| else |ctxs|;
    if n > 0 {
      var a, c := assets[..n - 1], ctxs[..n - 1];
      PairingLastWins(a, c, coin);
      LastPairShrink(assets, ctxs, n - 1, coin);
    }
  }

  /** The last naming pair below `n` does not depend on what follows `n`. */
  lemma {:induction false} LastPairShrink(assets: seq<Json>, ctxs: seq<Json>, n: nat, coin: string)
    requires n < |assets| && n < |ctxs|
    ensures LastPair(assets[..n], ctxs[..n], n, coin) == LastPair(assets, ctxs, n, coin)
    decreases n
  {
    if n > 0 {
      LastPairShrink(assets, ctxs, n - 1, coin);
      assert assets[..n][..n - 1] == assets[..n - 1];
      assert ctxs[..n][..n - 1] == ctxs[..n - 1];
      LastPairShrink(assets[..n], ctxs[..n], n - 1, coin);
    }
  }

  /** `coin_to_ctx`. A universe that is a dict or a string iterates to keys
      or characters, none of which is a dict, so nothing is paired; one that
      is not iterable at all makes `zip` raise. */
  function CoinToCtx(result: Json): (r: Result<map<string, Json>, string>)
    ensures var (universe, ctxs) := FetchUniverseAndCtxs(result);
      && (r.Err? <==> !(universe.JArr? || universe.JObj? || universe.JStr?))
      && (universe.JArr? ==> r == Ok(Pairing(universe.items, ctxs)))
      && (universe.JObj? || universe.JStr? ==> r == Ok(map[]))
    ensures r.Ok? ==> forall coin :: coin in r.value ==> r.value[coin].JObj?
  {
    var (universe, ctxs) := FetchUniverseAndCtxs(result);
    match universe
    case JArr(assets) => Ok(Pairing(assets, ctxs))
    case JObj(_) => Ok(map[])
    case JStr(_) => Ok(map[])
    case _ => Err("object is not iterable")
  }

  /** The mark price of one ctx: `float(markPx)` when it is a string that
      parses; anything else is skipped. */
  function MarkPx(ctx: Json): Option<real> {
    if ctx.JObj? then
      match GetOr(ctx.fields, "markPx", JNull)
      case JStr(s) => ParseDecimal(s)
      case _ => None
    else None
  }

  /** `coin_mark_prices`: the coins of `coin_to_ctx` whose ctx carries a
      parseable string `markPx`, with that price. */
  function CoinMarkPrices(result: Json): (r: Result<map<string, real>, string>)
    ensures r.Err? <==> CoinToCtx(result).Err?
    ensures r.Ok? ==> forall coin :: coin in r.value <==>
      coin in CoinToCtx(result).value && MarkPx(CoinToCtx(result).value[coin]).Some?
    ensures r.Ok? ==> forall coin :: coin in r.value ==> Some(r.value[coin]) == MarkPx(CoinToCtx(result).value[coin])
  {
    var mapping :- CoinToCtx(result);
    Ok(map coin | coin in mapping && MarkPx(mapping[coin]).Some? :: MarkPx(mapping[coin]).value)
  }
}

=== FILE: response.dfy ===
/** The uniform API envelope (utils/response.py, `ApiResponse`): a code, an
    optional message and a data payload. `None` data is `JNull`. */
module Response {
  import opened Wrappers
  import opened Json

  datatype Envelope = Envelope(code: int, message: Option<string>, data: Json)

  /** `ApiResponse.success`: code 0; missing data becomes `{}`. */
  function Success(data: Json, message: Option<string>): (r: Envelope)
    ensures r.code == 0 && r.message == message
    ensures r.data == EmptyObj <==> data == JNull || data == EmptyObj
    ensures data != JNull ==> r.data == data
    ensures r.data != JNull
  {
    Envelope(0, message, if data == JNull then EmptyObj else data)
  }

  /** `ApiResponse.error`: code -1; the data is passed through, `None`
      included. */
  function Error(message: string, data: Json): (r: Envelope)
    ensures r.code == -1 && r.message == Some(message) && r.data == data
  {
    Envelope(-1, Some(message), data)
  }

  /** `ApiResponse.custom`: the given code; missing data becomes `{}`. */
  function Custom(code: int, message: Option<string>, data: Json): (r: Envelope)
    ensures r.code == code && r.message == message
    ensures data != JNull ==> r.data == data
    ensures data == JNull ==> r.data == EmptyObj
  {
    Envelope(code, message, if data == JNull then EmptyObj else data)
  }

  /** `custom` with code 0 is `success`. */
  lemma CustomZeroIsSuccess(message: Option<string>, data: Json)
    ensures Custom(0, message, data) == Success(data, message)
  {
  }

  /** `custom` with code -1 builds the `error` envelope exactly when there is
      data: `error` passes `None` through, `custom` turns it into `{}`. */
  lemma CustomMinusOneIsError(message: string, data: Json)
    ensures Custom(-1, Some(message), data) == Error(message, data) <==> data != JNull
  {
  }
}

=== FILE: strategy.dfy ===
/** The mean-reversion Bollinger Bands strategy (mv_bb.py, `MeanReversionBB`)
    as a pure step function: given the engine's state and one websocket
    message it yields the next state, the exchange actions taken in order,
    and the exception raised, if any. Actions taken before an exception stay
    taken, and so do the state changes made before it.

    The SDK is not called: the positions the gateway reports, the signed
    quantity of a fill, what `exchange.order` answers to each order,
    `round_values` and `statistics.stdev` are inputs. */
module Strategy {
  import opened Wrappers
  import opened Json
  import opened Candles
  import opened Indicators
  import opened Events
  import opened Gateway

  /** `MVBBState`. */
  datatype MvbbState = Neutral | LongState | ShortState

  /** The constructor's arguments that the logic sizes. */
  datatype Config = Config(
    symbol: string,
    tradeSizeUsd: real,
    maLookbackPeriods: int,
    bbStdDev: real,
    stopLossMultiplier: real,
    takeProfitMultiplier: real,
    targetCandlePeriods: int,
    targetCandleUnit: string,
    maxDecimalsSz: int,
    maxDecimalsPx: int)

  /** The constructor's defaults, for a given symbol: they build a valid
      indicator over 20 periods, so construction with them goes through. */
  function DefaultConfig(symbol: string): (cfg: Config)
    ensures cfg.symbol == symbol
    ensures Init(cfg).Ok? && Init(cfg).value.indicator.period == 20
  {
    Config(symbol, 12.0, 20, 2.5, 0.5, 0.5, 1, "h", 4, 1)
  }

  /** The mutable fields of the strategy object. */
  datatype Engine = Engine(
    state: MvbbState,
    watermark: int,
    current: Option<Candle>,
    indicator: BollingerBands,
    startupComplete: bool)

  /** The second argument of `round_values`: omitted, or a number of decimals. */
  datatype Precision = Default | Decimals(n: int)

  datatype OrderKind =
    | Limit(tif: string)
    | Trigger(triggerPx: real, isMarket: bool, tpsl: string)

  /** What the strategy asks of the exchange. */
  datatype Action =
    | CancelAll(symbol: string)
    | PlaceOrder(symbol: string, isBuy: bool, size: real, limitPx: real, kind: OrderKind)

  /** The exceptions `process_message` and the constructor let escape. */
  datatype Fault =
    | MissingKey(key: string)            // KeyError, or TypeError on a non-dict
    | BadCandle(decode: DecodeError)     // from OHLCVEvent.from_hyperliquid_message
    | BadTimeframe(time: TimeError)      // from aggregate_ohlcv
    | BadIndicator(ind: IndicatorError)  // from the BollingerBands constructor
    | NoBands                            // TypeError: arithmetic on a band that is None
    | DivisionByZero                     // ZeroDivisionError: a band that is 0
    | NoPosition                         // TypeError: None['size']
    | ZeroQuantity                       // ValueError: fill with zero quantity
    | BadFill(fill: DecodeError)         // from FillEvent.from_hyperliquid_message
    | NoOrderAttribute                   // AttributeError: FillEvent has no `order`
    | UnsupportedChannel(channel: Json)  // ValueError: message type not supported
    | OrderRaised(message: string)       // whatever `exchange.order` raised

  /** Actions taken and the exception that ended them, if any. */
  datatype Emitted = Emitted(actions: seq<Action>, fault: Option<Fault>)

  /** The result of one call. */
  datatype Outcome = Outcome(engine: Engine, actions: seq<Action>, fault: Option<Fault>)

  type Rounding = (real, Precision) -> real

  /** What `exchange.order` does with a placement: raise, or answer. The
      answer itself is never inspected by the strategy. */
  type Exchange = Action -> Reply<Json>

  /** What `get_position(symbol)` answers each time `_get_current_asset_quantity`
      sizes an order of a bracket: once for the stop, once again for the
      take-profit. `None['size']` raises. */
  datatype SizeReads = SizeReads(forStop: Option<Position>, forTakeProfit: Option<Position>)

  /** `round_values` never moves a smaller number above a larger one. */
  ghost predicate MonotoneAt(round: Rounding, p: Precision) {
    forall x: real, y: real :: x <= y ==> round(x, p) <= round(y, p)
  }

  // ---------------------------------------------------------------------
  // Construction.

  /** `__init__` up to `_start_up`: fresh indicator, no candle, the
      watermark at `datetime(1970, 1, 1)`, NEUTRAL. */
  function Init(cfg: Config): (r: Result<Engine, Fault>)
    ensures r.Ok? <==> cfg.maLookbackPeriods > 0 && cfg.bbStdDev >= 0.0
    ensures r.Ok? ==>
      && r.value.state == Neutral && r.value.watermark == 0 && r.value.current.None?
      && !r.value.startupComplete && !IsReady(r.value.indicator)
      && r.value.indicator.period == cfg.maLookbackPeriods
  {
    match New(cfg.maLookbackPeriods, cfg.bbStdDev)
    case Err(err) => Err(BadIndicator(err))
    case Ok(ind) => Ok(Engine(Neutral, 0, None, ind, false))
  }

  // ---------------------------------------------------------------------
  // Order logic for each state.

  /** The limit buy at the lower band and the limit sell at the upper band,
      each sized `trade_size_usd / band`. */
  function NeutralEntries(cfg: Config, bands: Option<Bands>, round: Rounding): (r: Emitted)
    ensures r.fault.None? <==> bands.Some? && bands.value.lower != 0.0 && bands.value.upper != 0.0
    ensures r.fault.None? ==> r.actions == [
      PlaceOrder(cfg.symbol, true, round(cfg.tradeSizeUsd / bands.value.lower, Decimals(cfg.maxDecimalsSz)),
                 round(bands.value.lower, Decimals(cfg.maxDecimalsPx)), Limit("Gtc")),
      PlaceOrder(cfg.symbol, false, round(cfg.tradeSizeUsd / bands.value.upper, Decimals(cfg.maxDecimalsSz)),
                 round(bands.value.upper, Decimals(cfg.maxDecimalsPx)), Limit("Gtc"))]
    ensures |r.actions| <= 2
  {
    if bands.None? then Emitted([], Some(NoBands))
    else
      var b := bands.value;
      if b.lower == 0.0 then Emitted([], Some(DivisionByZero))
      else
        var buy := PlaceOrder(cfg.symbol, true, round(cfg.tradeSizeUsd / b.lower, Decimals(cfg.maxDecimalsSz)),
                              round(b.lower, Decimals(cfg.maxDecimalsPx)), Limit("Gtc"));
        if b.upper == 0.0 then Emitted([buy], Some(DivisionByZero))
        else
          var sell := PlaceOrder(cfg.symbol, false, round(cfg.tradeSizeUsd / b.upper, Decimals(cfg.maxDecimalsSz)),
                                 round(b.upper, Decimals(cfg.maxDecimalsPx)), Limit("Gtc"));
          Emitted([buy, sell], None)
  }

  /** NEUTRAL order logic of `process_message`: cancel everything, then the entries. */
  function NeutralLogic(cfg: Config, bands: Option<Bands>, round: Rounding): (r: Emitted)
    ensures |r.actions| >= 1 && r.actions[0] == CancelAll(cfg.symbol)
    ensures r.actions[1..] == NeutralEntries(cfg, bands, round).actions
    ensures r.fault == NeutralEntries(cfg, bands, round).fault
  {
    var entries := NeutralEntries(cfg, bands, round);
    Emitted([CancelAll(cfg.symbol)] + entries.actions, entries.fault)
  }

  /** The raw (unrounded) prices of the LONG bracket: half the band width
      below and above the lower band, scaled by the multipliers. */
  function LongStopPx(b: Bands, sl: real): real {
    b.lower - (b.middle - b.lower) * sl
  }

  function LongTakeProfitPx(b: Bands, tp: real): real {
    b.lower + (b.middle - b.lower) * tp
  }

  /** The raw prices of the SHORT bracket, around the upper band. */
  function ShortStopPx(b: Bands, sl: real): real {
    b.upper + (b.upper - b.middle) * sl
  }

  function ShortTakeProfitPx(b: Bands, tp: real): real {
    b.upper - (b.upper - b.middle) * tp
  }

  /** The LONG stop-loss and take-profit trigger sells, each of the size
      its own position read reports. */
  function LongStop(cfg: Config, b: Bands, p: Position, round: Rounding): Action {
    var stop := round(LongStopPx(b, cfg.stopLossMultiplier), Decimals(cfg.maxDecimalsPx));
    PlaceOrder(cfg.symbol, false, p.size, stop, Trigger(stop, true, "sl"))
  }

  function LongTakeProfit(cfg: Config, b: Bands, p: Position, round: Rounding): Action {
    var tp := round(LongTakeProfitPx(b, cfg.takeProfitMultiplier), Decimals(cfg.maxDecimalsPx));
    PlaceOrder(cfg.symbol, false, p.size, tp, Trigger(tp, true, "tp"))
  }

  /** The SHORT trigger buys. The take-profit trigger price is rounded
      without a precision argument, unlike its limit price. */
  function ShortStop(cfg: Config, b: Bands, p: Position, round: Rounding): Action {
    var stop := round(ShortStopPx(b, cfg.stopLossMultiplier), Decimals(cfg.maxDecimalsPx));
    PlaceOrder(cfg.symbol, true, p.size, stop, Trigger(stop, true, "sl"))
  }

  function ShortTakeProfit(cfg: Config, b: Bands, p: Position, round: Rounding): Action {
    var tpRaw := ShortTakeProfitPx(b, cfg.takeProfitMultiplier);
    PlaceOrder(cfg.symbol, true, p.size, round(tpRaw, Decimals(cfg.maxDecimalsPx)), Trigger(round(tpRaw, Default), true, "tp"))
  }

  /** The bracket of a position: cancel everything, then the stop sized by
      the first read, then the take-profit sized by the second. Each read
      happens just before its order, so a missing position raises after
      whatever was sent before it. */
  function Bracket(cfg: Config, sizes: SizeReads, stop: Position -> Action, takeProfit: Position -> Action)
    : (r: Emitted)
    ensures sizes.forStop.None? ==> r == Emitted([CancelAll(cfg.symbol)], Some(NoPosition))
    ensures sizes.forStop.Some? && sizes.forTakeProfit.None? ==>
      r == Emitted([CancelAll(cfg.symbol), stop(sizes.forStop.value)], Some(NoPosition))
    ensures sizes.forStop.Some? && sizes.forTakeProfit.Some? ==>
      r == Emitted([CancelAll(cfg.symbol), stop(sizes.forStop.value), takeProfit(sizes.forTakeProfit.value)], None)
  {
    match sizes.forStop
    case None => Emitted([CancelAll(cfg.symbol)], Some(NoPosition))
    case Some(p1) =>
      match sizes.forTakeProfit
      case None => Emitted([CancelAll(cfg.symbol), stop(p1)], Some(NoPosition))
      case Some(p2) => Emitted([CancelAll(cfg.symbol), stop(p1), takeProfit(p2)], None)
  }

  /** LONG order logic: the half band width is taken before the cancel, so
      missing bands raise before anything is sent; then the LONG bracket. */
  function LongLogic(cfg: Config, bands: Option<Bands>, sizes: SizeReads, round: Rounding)
    : (r: Emitted)
    ensures bands.None? ==> r == Emitted([], Some(NoBands))
    ensures bands.Some? && sizes.forStop.None? ==> r == Emitted([CancelAll(cfg.symbol)], Some(NoPosition))
    ensures bands.Some? && sizes.forStop.Some? && sizes.forTakeProfit.None? ==>
      r == Emitted([CancelAll(cfg.symbol), LongStop(cfg, bands.value, sizes.forStop.value, round)], Some(NoPosition))
    ensures bands.Some? && sizes.forStop.Some? && sizes.forTakeProfit.Some? ==>
      var px := Decimals(cfg.maxDecimalsPx);
      var stop := round(LongStopPx(bands.value, cfg.stopLossMultiplier), px);
      var tp := round(LongTakeProfitPx(bands.value, cfg.takeProfitMultiplier), px);
      r == Emitted([
        CancelAll(cfg.symbol),
        PlaceOrder(cfg.symbol, false, sizes.forStop.value.size, stop, Trigger(stop, true, "sl")),
        PlaceOrder(cfg.symbol, false, sizes.forTakeProfit.value.size, tp, Trigger(tp, true, "tp"))], None)
  {
    if bands.None? then Emitted([], Some(NoBands))
    else
      Bracket(cfg, sizes, p => LongStop(cfg, bands.value, p, round), p => LongTakeProfit(cfg, bands.value, p, round))
  }

  /** SHORT order logic: the same around the upper band, buying. */
  function ShortLogic(cfg: Config, bands: Option<Bands>, sizes: SizeReads, round: Rounding)
    : (r: Emitted)
    ensures bands.None? ==> r == Emitted([], Some(NoBands))
    ensures bands.Some? && sizes.forStop.None? ==> r == Emitted([CancelAll(cfg.symbol)], Some(NoPosition))
    ensures bands.Some? && sizes.forStop.Some? && sizes.forTakeProfit.None? ==>
      r == Emitted([CancelAll(cfg.symbol), ShortStop(cfg, bands.value, sizes.forStop.value, round)], Some(NoPosition))
    ensures bands.Some? && sizes.forStop.Some? && sizes.forTakeProfit.Some? ==>
      var px := Decimals(cfg.maxDecimalsPx);
      var stop := round(ShortStopPx(bands.value, cfg.stopLossMultiplier), px);
      var tpRaw := ShortTakeProfitPx(bands.value, cfg.takeProfitMultiplier);
      r == Emitted([
        CancelAll(cfg.symbol),
        PlaceOrder(cfg.symbol, true, sizes.forStop.value.size, stop, Trigger(stop, true, "sl")),
        PlaceOrder(cfg.symbol, true, sizes.forTakeProfit.value.size, round(tpRaw, px),
                   Trigger(round(tpRaw, Default), true, "tp"))],
        None)
  {
    if bands.None? then Emitted([], Some(NoBands))
    else
      Bracket(cfg, sizes, p => ShortStop(cfg, bands.value, p, round), p => ShortTakeProfit(cfg, bands.value, p, round))
  }

  /** The order logic of the current state, as `process_message` runs it:
      when nothing raises it is one cancel-all and two placements on the
      symbol, a buy below and a sell above from NEUTRAL, two sells closing
      a LONG, two buys closing a SHORT. It fails exactly when the bands are
      missing, a band divides by zero (NEUTRAL), or one of the two position
      reads that size the bracket finds none (LONG, SHORT); the stop is
      still placed when only the second read finds none. */
  function StateLogic(cfg: Config, state: MvbbState, bands: Option<Bands>, sizes: SizeReads,
                      round: Rounding): (r: Emitted)
    ensures r.fault.None? <==>
      && bands.Some?
      && (state == Neutral ==> bands.value.lower != 0.0 && bands.value.upper != 0.0)
      && (state != Neutral ==> sizes.forStop.Some? && sizes.forTakeProfit.Some?)
    ensures forall k :: 0 <= k < |r.actions| ==> r.actions[k].symbol == cfg.symbol
    ensures |r.actions| <= 3
    ensures |r.actions| > 0 ==> r.actions[0] == CancelAll(cfg.symbol)
    ensures state != Neutral && bands.Some? && sizes.forStop.Some? && sizes.forTakeProfit.None? ==>
      && |r.actions| == 2 && r.actions[1].PlaceOrder? && r.actions[1].size == sizes.forStop.value.size
      && r.fault == Some(NoPosition)
    ensures r.fault.None? ==>
      && |r.actions| == 3 && r.actions[1].PlaceOrder? && r.actions[2].PlaceOrder?
      && (state == Neutral ==> r.actions[1].isBuy && !r.actions[2].isBuy)
      && (state == LongState ==> !r.actions[1].isBuy && !r.actions[2].isBuy)
      && (state == ShortState ==> r.actions[1].isBuy && r.actions[2].isBuy)
      && (state != Neutral ==>
            r.actions[1].size == sizes.forStop.value.size && r.actions[2].size == sizes.forTakeProfit.value.size)
  {
    match state
    case Neutral => NeutralLogic(cfg, bands, round)
    case LongState => LongLogic(cfg, bands, sizes, round)
    case ShortState => ShortLogic(cfg, bands, sizes, round)
  }

  /** The placement is one the exchange answers by raising. Cancels go
      through `cancel_all_orders`, which catches everything, so they never
      raise. */
  predicate Raises(a: Action, exchange: Exchange) {
    a.PlaceOrder? && exchange(a).Raised?
  }

  /** Sending the actions in order: the first placement that raises ends
      the call with its exception, after which nothing more is sent. */
  function Send(em: Emitted, exchange: Exchange): (r: Emitted)
    ensures |r.actions| <= |em.actions| && r.actions == em.actions[..|r.actions|]
    ensures forall k :: 0 <= k < |r.actions| - 1 ==> !Raises(r.actions[k], exchange)
    ensures (exists k :: 0 <= k < |em.actions| && Raises(em.actions[k], exchange)) ==>
      && |r.actions| > 0
      && Raises(r.actions[|r.actions| - 1], exchange)
      && r.fault == Some(OrderRaised(exchange(r.actions[|r.actions| - 1]).message))
    ensures (forall k :: 0 <= k < |em.actions| ==> !Raises(em.actions[k], exchange)) ==> r == em
    decreases |em.actions|
  {
    if |em.actions| == 0 then em
    else
      var a := em.actions[0];
      if Raises(a, exchange) then Emitted([a], Some(OrderRaised(exchange(a).message)))
      else
        var tail := Emitted(em.actions[1..], em.fault);
        var rest := Send(tail, exchange);
        assert forall k :: 1 <= k < |em.actions| ==> em.actions[k] == tail.actions[k - 1];
        Emitted([a] + rest.actions, rest.fault)
  }

  // ---------------------------------------------------------------------
  // Candles.

  /** Taking an accepted candle: the watermark moves to its start, it is
      folded into the aggregate, and a completed aggregate's close feeds the
      indicator. The boolean is the completion flag. */
  function Accept(cfg: Config, e: Engine, c: Candle, sd: seq<real> -> real)
    : (r: (Engine, Result<bool, Fault>))
    requires IsStdev(sd)
    ensures r.0.watermark == c.startTime
    ensures r.0.state == e.state && r.0.startupComplete == e.startupComplete
    ensures r.1.Err? ==> r.0 == e.(watermark := c.startTime)
    ensures r.1.Ok? ==>
      && r.0.current.Some?
      && Aggregate(c, e.current, cfg.targetCandlePeriods, cfg.targetCandleUnit) == Ok((r.1.value, r.0.current.value))
      && r.0.indicator == (if r.1.value then Update(e.indicator, r.0.current.value.close, sd).0 else e.indicator)
  {
    var e1 := e.(watermark := c.startTime);
    match Aggregate(c, e.current, cfg.targetCandlePeriods, cfg.targetCandleUnit)
    case Err(err) => (e1, Err(BadTimeframe(err)))
    case Ok((complete, agg)) =>
      var e2 := e1.(current := Some(agg));
      if complete then (e2.(indicator := Update(e.indicator, agg.close, sd).0), Ok(true))
      else (e2, Ok(false))
  }

  /** The candle is fresh (it starts after the watermark) and finished (it
      ended before "now"), so `process_message` takes it. */
  predicate Taken(e: Engine, c: Candle, now: int) {
    c.startTime > e.watermark && c.endTime < now
  }

  /** The candle branch of `process_message`. A candle that does not decode
      raises; a stale or unfinished one is skipped; a taken one is accepted,
      and when its aggregate completes start-up is complete as soon as the
      indicator is ready, after which the state's orders are sent. */
  function OnCandle(cfg: Config, e: Engine, data: Json, now: int, sizes: SizeReads,
                    round: Rounding, sd: seq<real> -> real, exchange: Exchange): (o: Outcome)
    requires IsStdev(sd)
    ensures o.engine.state == e.state
    ensures o.engine.watermark >= e.watermark
    ensures o.engine.watermark != e.watermark ==>
      ParseCandle(data).Ok? && o.engine.watermark == ParseCandle(data).value.startTime
    ensures ParseCandle(data).Err? ==> o == Outcome(e, [], Some(BadCandle(ParseCandle(data).error)))
    ensures ParseCandle(data).Ok? && !Taken(e, ParseCandle(data).value, now) ==> o == Outcome(e, [], None)
    ensures ParseCandle(data).Ok? && Taken(e, ParseCandle(data).value, now) ==>
      var acc := Accept(cfg, e, ParseCandle(data).value, sd);
      && o.engine.watermark == ParseCandle(data).value.startTime
      && (acc.1.Err? ==> o == Outcome(acc.0, [], Some(acc.1.error)))
      && (acc.1 == Ok(false) ==> o == Outcome(acc.0, [], None))
      && (acc.1 == Ok(true) ==>
           && o.engine == acc.0.(startupComplete := e.startupComplete || IsReady(acc.0.indicator))
           && (!o.engine.startupComplete ==> o.actions == [] && o.fault.None?)
           && (o.engine.startupComplete ==>
                Emitted(o.actions, o.fault) == Send(StateLogic(cfg, e.state, acc.0.indicator.bands, sizes, round), exchange)))
    ensures (exists a :: a in o.actions && a.PlaceOrder?) ==> o.engine.startupComplete
  {
    match ParseCandle(data)
    case Err(err) => Outcome(e, [], Some(BadCandle(err)))
    case Ok(c) =>
      if c.startTime <= e.watermark || c.endTime >= now then Outcome(e, [], None)
      else
        var (e1, res) := Accept(cfg, e, c, sd);
        match res
        case Err(f) => Outcome(e1, [], Some(f))
        case Ok(complete) =>
          if !complete then Outcome(e1, [], None)
          else
            var e2 := if IsReady(e1.indicator) then e1.(startupComplete := true) else e1;
            if !e2.startupComplete then Outcome(e2, [], None)
            else
              var em := Send(StateLogic(cfg, e2.state, e2.indicator.bands, sizes, round), exchange);
              Outcome(e2, em.actions, em.fault)
  }

  // ---------------------------------------------------------------------
  // Fills.

  /** The fills branch with the fill's signed quantity `qty` supplied: a
      snapshot is ignored; from NEUTRAL a buy fill goes LONG and a sell fill
      SHORT, each followed by that state's order logic, and a zero quantity
      raises; from LONG or SHORT any fill goes back to NEUTRAL after
      cancelling everything. */
  function OnFills(cfg: Config, e: Engine, data: Json, qty: real, sizes: SizeReads,
                   round: Rounding, exchange: Exchange): (o: Outcome)
    ensures o.engine.watermark == e.watermark && o.engine.current == e.current
    ensures o.engine.indicator == e.indicator && o.engine.startupComplete == e.startupComplete
  {
    match Index(data, "isSnapshot")
    case None => Outcome(e, [], Some(MissingKey("isSnapshot")))
    case Some(snapshot) =>
      if Truthy(snapshot) then Outcome(e, [], None)
      else match e.state
        case Neutral =>
          if qty > 0.0 then
            var em := Send(LongLogic(cfg, e.indicator.bands, sizes, round), exchange);
            Outcome(e.(state := LongState), em.actions, em.fault)
          else if qty < 0.0 then
            var em := Send(ShortLogic(cfg, e.indicator.bands, sizes, round), exchange);
            Outcome(e.(state := ShortState), em.actions, em.fault)
          else Outcome(e, [], Some(ZeroQuantity))
        case LongState => Outcome(e.(state := Neutral), [CancelAll(cfg.symbol)], None)
        case ShortState => Outcome(e.(state := Neutral), [CancelAll(cfg.symbol)], None)
  }

  /** The fills branch as the source has it: the whole `fills` list goes to
      the single-fill decoder, and from NEUTRAL the decoded event is asked
      for an `order` attribute it does not have. So the engine either stays
      as it was or, from LONG or SHORT and only after `fills` decoded as one
      fill, goes back to NEUTRAL with one cancel-all; from NEUTRAL nothing
      is ever sent and the state never changes. */
  function OnFillsAsWritten(cfg: Config, e: Engine, data: Json): (o: Outcome)
    ensures o.engine == e || o.engine == e.(state := Neutral)
    ensures o.engine != e ==>
      && e.state != Neutral
      && o == Outcome(e.(state := Neutral), [CancelAll(cfg.symbol)], None)
      && Index(data, "fills").Some? && ParseFill(Index(data, "fills").value).Ok?
    ensures e.state == Neutral ==> o.engine == e && o.actions == []
  {
    match Index(data, "isSnapshot")
    case None => Outcome(e, [], Some(MissingKey("isSnapshot")))
    case Some(snapshot) =>
      if Truthy(snapshot) then Outcome(e, [], None)
      else match Index(data, "fills")
        case None => Outcome(e, [], Some(MissingKey("fills")))
        case Some(fills) =>
          match ParseFill(fills)
          case Err(err) => Outcome(e, [], Some(BadFill(err)))
          case Ok(_) =>
            match e.state
            case Neutral => Outcome(e, [], Some(NoOrderAttribute))
            case LongState => Outcome(e.(state := Neutral), [CancelAll(cfg.symbol)], None)
            case ShortState => Outcome(e.(state := Neutral), [CancelAll(cfg.symbol)], None)
  }

  // ---------------------------------------------------------------------
  // Dispatch.

  /** Which branch of `process_message` a message takes. */
  datatype Route =
    | CandleRoute(data: Json)
    | FillsRoute(data: Json)
    | Unsupported(channel: Json)
    | Malformed(key: string)

  function RouteOf(msg: Json): (r: Route)
    ensures r.CandleRoute? <==> Index(msg, "channel") == Some(JStr("candle")) && Index(msg, "data").Some?
    ensures r.FillsRoute? <==> Index(msg, "channel") == Some(JStr("userFills")) && Index(msg, "data").Some?
    ensures r.Unsupported? <==>
      Index(msg, "channel").Some? && Index(msg, "channel") != Some(JStr("candle"))
      && Index(msg, "channel") != Some(JStr("userFills"))
  {
    match Index(msg, "channel")
    case None => Malformed("channel")
    case Some(channel) =>
      if channel == JStr("candle") || channel == JStr("userFills") then
        match Index(msg, "data")
        case None => Malformed("data")
        case Some(data) => if channel == JStr("candle") then CandleRoute(data) else FillsRoute(data)
      else Unsupported(channel)
  }

  /** `process_message`, with the fill quantity supplied. `now` is the
      current time in milliseconds, `sizes` what `get_position(symbol)`
      returns each time an order is sized during this call. */
  function Step(cfg: Config, e: Engine, msg: Json, now: int, sizes: SizeReads, qty: real,
                round: Rounding, sd: seq<real> -> real, exchange: Exchange): (o: Outcome)
    requires IsStdev(sd)
    ensures o.engine.watermark >= e.watermark
    ensures o.engine.state != e.state ==> RouteOf(msg).FillsRoute?
    ensures o.engine.watermark != e.watermark ==> RouteOf(msg).CandleRoute?
    ensures RouteOf(msg).Unsupported? ==> o == Outcome(e, [], Some(UnsupportedChannel(RouteOf(msg).channel)))
    ensures RouteOf(msg).Malformed? ==> o == Outcome(e, [], Some(MissingKey(RouteOf(msg).key)))
  {
    match RouteOf(msg)
    case CandleRoute(data) => OnCandle(cfg, e, data, now, sizes, round, sd, exchange)
    case FillsRoute(data) => OnFills(cfg, e, data, qty, sizes, round, exchange)
    case Unsupported(channel) => Outcome(e, [], Some(UnsupportedChannel(channel)))
    case Malformed(key) => Outcome(e, [], Some(MissingKey(key)))
  }

  /** `process_message` exactly as written. The watermark still only moves
      forward, but a fill can only ever send the state back to NEUTRAL, so
      a strategy that starts NEUTRAL stays NEUTRAL; a fill message carrying
      its fills as a list, as the exchange sends them, raises and changes
      nothing. */
  function StepAsWritten(cfg: Config, e: Engine, msg: Json, now: int, sizes: SizeReads,
                         round: Rounding, sd: seq<real> -> real, exchange: Exchange): (o: Outcome)
    requires IsStdev(sd)
    ensures o.engine.watermark >= e.watermark
    ensures o.engine.state != e.state ==> RouteOf(msg).FillsRoute? && o.engine.state == Neutral
    ensures e.state == Neutral ==> o.engine.state == Neutral
    ensures !RouteOf(msg).FillsRoute? ==> o == Step(cfg, e, msg, now, sizes, 0.0, round, sd, exchange)
    ensures RouteOf(msg).FillsRoute? ==> o.engine == e || o.engine == e.(state := Neutral)
    ensures RouteOf(msg).FillsRoute? ==>
      var data := RouteOf(msg).data;
      (&& Index(data, "isSnapshot").Some? && !Truthy(Index(data, "isSnapshot").value)
       && Index(data, "fills").Some? && Index(data, "fills").value.JArr?) ==>
      o == Outcome(e, [], Some(BadFill(Missing("coin"))))
  {
    match RouteOf(msg)
    case FillsRoute(data) =>
      if Index(data, "fills").Some? && Index(data, "fills").value.JArr? then
        ParseFillOfList(Index(data, "fills").value.items);
        OnFillsAsWritten(cfg, e, data)
      else OnFillsAsWritten(cfg, e, data)
    case _ => Step(cfg, e, msg, now, sizes, 0.0, round, sd, exchange)
  }

  // ---------------------------------------------------------------------
  // Start-up.

  /** One snapshot candle during start-up: decoded, skipped when it does not
      start after the watermark (no check against "now" here), otherwise
      accepted. A fault ends the constructor. */
  function ReplayOne(cfg: Config, e: Engine, msg: Json, sd: seq<real> -> real): (r: Result<Engine, Fault>)
    requires IsStdev(sd)
    ensures r.Ok? ==> r.value.watermark >= e.watermark && r.value.state == e.state
    ensures r.Ok? ==> r.value.startupComplete == e.startupComplete
  {
    match ParseCandle(msg)
    case Err(err) => Err(BadCandle(err))
    case Ok(c) =>
      if c.startTime <= e.watermark then Ok(e)
      else
        var (e1, res) := Accept(cfg, e, c, sd);
        match res
        case Err(f) => Err(f)
        case Ok(_) => Ok(e1)
  }

  function Replay(cfg: Config, e: Engine, msgs: seq<Json>, sd: seq<real> -> real): (r: Result<Engine, Fault>)
    requires IsStdev(sd)
    ensures r.Ok? ==> r.value.watermark >= e.watermark && r.value.state == e.state
    ensures r.Ok? ==> r.value.startupComplete == e.startupComplete
    decreases |msgs|
  {
    if |msgs| == 0 then Ok(e)
    else match ReplayOne(cfg, e, msgs[0], sd)
      case Err(f) => Err(f)
      case Ok(e1) => Replay(cfg, e1, msgs[1..], sd)
  }

  /** The state `_start_up` derives from the position it sizes. */
  function InitialState(p: Option<Position>): (s: MvbbState)
    ensures p.None? ==> s == Neutral
    ensures p.Some? && p.value.size != 0.0 ==> (s == LongState <==> p.value.side.Long?)
    ensures p.Some? && p.value.size != 0.0 ==> (s == ShortState <==> p.value.side.Short?)
  {
    if p.None? || p.value.size == 0.0 then Neutral
    else if p.value.side.Long? then LongState
    else ShortState
  }

  /** The orders `_start_up` places once the state is known: the entries
      alone in NEUTRAL, the state's whole order logic otherwise. So start-up
      places what `process_message` would in the same state, except that in
      NEUTRAL the leading cancel-all is left out. */
  function StartOrders(cfg: Config, state: MvbbState, bands: Option<Bands>, sizes: SizeReads,
                       round: Rounding): (r: Emitted)
    ensures state == Neutral ==>
      var em := StateLogic(cfg, state, bands, sizes, round);
      Emitted([CancelAll(cfg.symbol)] + r.actions, em.fault) == em
    ensures state != Neutral ==> r == StateLogic(cfg, state, bands, sizes, round)
  {
    match state
    case Neutral => NeutralEntries(cfg, bands, round)
    case LongState => LongLogic(cfg, bands, sizes, round)
    case ShortState => ShortLogic(cfg, bands, sizes, round)
  }

  /** `_start_up`: replay all snapshot candles but the last, mark start-up
      complete, cancel all, derive the state from the position of the
      hard-coded coin "ETH" (`ethPosition`), cancel all again, then send the
      state's start orders. A replay fault raises before anything is sent. */
  function StartUp(cfg: Config, e: Engine, snapshot: seq<Json>, ethPosition: Option<Position>,
                   sizes: SizeReads, round: Rounding, sd: seq<real> -> real,
                   exchange: Exchange): (o: Outcome)
    requires IsStdev(sd)
    ensures var replayed := Replay(cfg, e, if |snapshot| == 0 then [] else snapshot[..|snapshot| - 1], sd);
      && (replayed.Err? ==> o == Outcome(e, [], Some(replayed.error)))
      && (replayed.Ok? ==>
            && o.engine == replayed.value.(startupComplete := true, state := InitialState(ethPosition))
            && |o.actions| >= 2
            && o.actions[..2] == [CancelAll(cfg.symbol), CancelAll(cfg.symbol)]
            && Emitted(o.actions[2..], o.fault)
               == Send(StartOrders(cfg, InitialState(ethPosition), replayed.value.indicator.bands, sizes, round),
                       exchange))
  {
    var replayed := Replay(cfg, e, if |snapshot| == 0 then [] else snapshot[..|snapshot| - 1], sd);
    match replayed
    case Err(f) => Outcome(e, [], Some(f))
    case Ok(e1) =>
      var state := InitialState(ethPosition);
      var e2 := e1.(startupComplete := true, state := state);
      var cancels := [CancelAll(cfg.symbol), CancelAll(cfg.symbol)];
      var em := Send(StartOrders(cfg, state, e2.indicator.bands, sizes, round), exchange);
      assert (cancels + em.actions)[2..] == em.actions;
      Outcome(e2, cancels + em.actions, em.fault)
  }

  // ---------------------------------------------------------------------
  // Properties.

  lemma MulNonNegative(a: real, b: real)
    requires a >= 0.0 && b >= 0.0
    ensures a * b >= 0.0
  {
  }

  /** With non-negative multipliers the LONG stop lies at or below the lower
      band and the take-profit at or above it. */
  lemma LongBracket(b: Bands, sl: real, tp: real)
    requires b.lower <= b.middle && sl >= 0.0 && tp >= 0.0
    ensures LongStopPx(b, sl) <= b.lower <= LongTakeProfitPx(b, tp)
  {
    MulNonNegative(b.middle - b.lower, sl);
    MulNonNegative(b.middle - b.lower, tp);
  }

  /** With non-negative multipliers the SHORT take-profit lies at or below the
      upper band and the stop at or above it. */
  lemma ShortBracket(b: Bands, sl: real, tp: real)
    requires b.middle <= b.upper && sl >= 0.0 && tp >= 0.0
    ensures ShortTakeProfitPx(b, tp) <= b.upper <= ShortStopPx(b, sl)
  {
    MulNonNegative(b.upper - b.middle, sl);
    MulNonNegative(b.upper - b.middle, tp);
  }

  /** The bracket survives rounding when rounding is monotone: the LONG
      stop trigger is at or below the rounded lower band, the take-profit
      trigger at or above it. */
  lemma LongTriggersOrdered(cfg: Config, b: Bands, p1: Position, p2: Position, round: Rounding)
    requires b.lower <= b.middle && cfg.stopLossMultiplier >= 0.0 && cfg.takeProfitMultiplier >= 0.0
    requires MonotoneAt(round, Decimals(cfg.maxDecimalsPx))
    ensures var em := LongLogic(cfg, Some(b), SizeReads(Some(p1), Some(p2)), round);
      && em.fault.None? && |em.actions| == 3
      && em.actions[1].kind.triggerPx <= round(b.lower, Decimals(cfg.maxDecimalsPx))
      && round(b.lower, Decimals(cfg.maxDecimalsPx)) <= em.actions[2].kind.triggerPx
  {
    LongBracket(b, cfg.stopLossMultiplier, cfg.takeProfitMultiplier);
  }

  /** The same for SHORT, each trigger compared with the upper band rounded
      the way that trigger is: the take-profit trigger without a precision. */
  lemma ShortTriggersOrdered(cfg: Config, b: Bands, p1: Position, p2: Position, round: Rounding)
    requires b.middle <= b.upper && cfg.stopLossMultiplier >= 0.0 && cfg.takeProfitMultiplier >= 0.0
    requires MonotoneAt(round, Decimals(cfg.maxDecimalsPx)) && MonotoneAt(round, Default)
    ensures var em := ShortLogic(cfg, Some(b), SizeReads(Some(p1), Some(p2)), round);
      && em.fault.None? && |em.actions| == 3
      && em.actions[2].kind.triggerPx <= round(b.upper, Default)
      && round(b.upper, Decimals(cfg.maxDecimalsPx)) <= em.actions[1].kind.triggerPx
  {
    ShortBracket(b, cfg.stopLossMultiplier, cfg.takeProfitMultiplier);
  }

  /** Closing a LONG or SHORT when the position is gone by the second read
      (a stop that fills at once, say): the cancel and the stop are sent,
      then the take-profit's `None['size']` raises, unless the stop itself
      raised first. */
  lemma StopPlacedThenNoPosition(cfg: Config, state: MvbbState, b: Bands, p: Position, round: Rounding,
                                 exchange: Exchange)
    requires state != Neutral
    ensures var em := Send(StateLogic(cfg, state, Some(b), SizeReads(Some(p), None), round), exchange);
      && |em.actions| == 2 && em.actions[0] == CancelAll(cfg.symbol)
      && em.actions[1].PlaceOrder? && em.actions[1].size == p.size
      && (if Raises(em.actions[1], exchange) then em.fault == Some(OrderRaised(exchange(em.actions[1]).message))
          else em.fault == Some(NoPosition))
  {
    var logic := StateLogic(cfg, state, Some(b), SizeReads(Some(p), None), round);
    assert !Raises(logic.actions[0], exchange);
  }

  /** A candle that does not start after the watermark, or has not ended by
      "now", changes nothing and sends nothing. */
  lemma StaleCandleIgnored(cfg: Config, e: Engine, msg: Json, now: int, sizes: SizeReads,
                           qty: real, round: Rounding, sd: seq<real> -> real, exchange: Exchange)
    requires IsStdev(sd)
    requires RouteOf(msg).CandleRoute?
    requires var c := ParseCandle(RouteOf(msg).data);
      c.Ok? && (c.value.startTime <= e.watermark || c.value.endTime >= now)
    ensures Step(cfg, e, msg, now, sizes, qty, round, sd, exchange) == Outcome(e, [], None)
  {
  }

  /** Watermarks only grow along a run of messages. */
  lemma {:induction false} WatermarkAdvances(cfg: Config, e: Engine, msgs: seq<Json>, now: int,
                                             sizes: SizeReads, qty: real,
                                             round: Rounding, sd: seq<real> -> real, exchange: Exchange)
    requires IsStdev(sd)
    ensures Run(cfg, e, msgs, now, sizes, qty, round, sd, exchange).watermark >= e.watermark
    decreases |msgs|
  {
    if |msgs| > 0 {
      var o := Step(cfg, e, msgs[0], now, sizes, qty, round, sd, exchange);
      WatermarkAdvances(cfg, o.engine, msgs[1..], now, sizes, qty, round, sd, exchange);
    }
  }

  /** The engine after a run of messages, each handled even if an earlier one
      raised (the websocket callback is invoked once per message). */
  function Run(cfg: Config, e: Engine, msgs: seq<Json>, now: int, sizes: SizeReads, qty: real,
               round: Rounding, sd: seq<real> -> real, exchange: Exchange): Engine
    requires IsStdev(sd)
    decreases |msgs|
  {
    if |msgs| == 0 then e
    else Run(cfg, Step(cfg, e, msgs[0], now, sizes, qty, round, sd, exchange).engine, msgs[1..],
             now, sizes, qty, round, sd, exchange)
  }

  /** From NEUTRAL a buy fill goes LONG and a sell fill SHORT, and the new
      state's bracket follows; a zero quantity raises and changes nothing. */
  lemma NeutralFillTransitions(cfg: Config, e: Engine, data: Json, qty: real, sizes: SizeReads,
                               round: Rounding, exchange: Exchange)
    requires e.state == Neutral
    requires Index(data, "isSnapshot").Some? && !Truthy(Index(data, "isSnapshot").value)
    ensures var o := OnFills(cfg, e, data, qty, sizes, round, exchange);
      && (qty > 0.0 ==>
            o.engine.state == LongState
            && Emitted(o.actions, o.fault) == Send(LongLogic(cfg, e.indicator.bands, sizes, round), exchange))
      && (qty < 0.0 ==>
            o.engine.state == ShortState
            && Emitted(o.actions, o.fault) == Send(ShortLogic(cfg, e.indicator.bands, sizes, round), exchange))
      && (qty == 0.0 ==> o == Outcome(e, [], Some(ZeroQuantity)))
  {
  }

  /** From LONG or SHORT any fill closes back to NEUTRAL with one cancel-all
      and no new orders. */
  lemma ExitFillTransitions(cfg: Config, e: Engine, data: Json, qty: real, sizes: SizeReads,
                            round: Rounding, exchange: Exchange)
    requires e.state != Neutral
    requires Index(data, "isSnapshot").Some? && !Truthy(Index(data, "isSnapshot").value)
    ensures OnFills(cfg, e, data, qty, sizes, round, exchange)
         == Outcome(e.(state := Neutral), [CancelAll(cfg.symbol)], None)
  {
  }

  /** Snapshot fills are ignored. */
  lemma SnapshotFillIgnored(cfg: Config, e: Engine, data: Json, qty: real, sizes: SizeReads,
                            round: Rounding, exchange: Exchange)
    requires Index(data, "isSnapshot").Some? && Truthy(Index(data, "isSnapshot").value)
    ensures OnFills(cfg, e, data, qty, sizes, round, exchange) == Outcome(e, [], None)
    ensures OnFillsAsWritten(cfg, e, data) == Outcome(e, [], None)
  {
  }

  /** As written, a non-snapshot `userFills` message whose `fills` is a list,
      as the exchange sends it, always raises and leaves the engine as it
      was: the strategy never leaves NEUTRAL on a fill. */
  lemma FillsAsWrittenAlwaysRaise(cfg: Config, e: Engine, data: Json, fills: seq<Json>)
    requires Index(data, "isSnapshot").Some? && !Truthy(Index(data, "isSnapshot").value)
    requires Index(data, "fills") == Some(JArr(fills))
    ensures OnFillsAsWritten(cfg, e, data) == Outcome(e, [], Some(BadFill(Missing("coin"))))
  {
    ParseFillOfList(fills);
  }

  /** Concrete instance: a buy fill while NEUTRAL. */
  lemma BuyFillExample(cfg: Config, e: Engine, sizes: SizeReads, round: Rounding, exchange: Exchange)
    requires e.state == Neutral
    ensures var data := JObj(map["isSnapshot" := JBool(false), "fills" := JArr([])]);
      && OnFillsAsWritten(cfg, e, data).engine.state == Neutral
      && OnFillsAsWritten(cfg, e, data).fault.Some?
      && OnFills(cfg, e, data, 0.1, sizes, round, exchange).engine.state == LongState
  {
    var data := JObj(map["isSnapshot" := JBool(false), "fills" := JArr([])]);
    FillsAsWrittenAlwaysRaise(cfg, e, data, []);
  }
}

=== FILE: strategy_records.dfy ===
/** The strategy-record endpoints (api/strategy_records.py): what a stored
    record looks like once sanitised, and the running/stopped guards around
    update, delete, start and stop. The database is reduced to the one record
    an endpoint loads (`None` when there is none) and to the account its
    alias names; start and stop act on the core subscription manager. */
module StrategyRecords {
  import opened Wrappers
  import opened Json
  import opened Numbers
  import opened SubscriptionTable
  import opened CoreSubscriptions
  import opened Response

  /** A `StrategyRecord` row, as far as the endpoints read and write it. */
  datatype StrategyRecord = StrategyRecord(
    id: int,
    name: Option<string>,
    coin: Option<string>,
    interval: Option<string>,
    accountAlias: Option<string>,
    isRunning: Option<bool>,
    subscriptionId: Option<string>,
    subscriptionType: Option<string>,
    params: Option<map<string, Json>>,
    status: string,
    errorMessage: Option<string>)

  /** The dict `_sanitize_strategy_record` returns. */
  datatype RecordView = RecordView(
    id: int,
    name: string,
    coin: string,
    interval: string,
    accountAlias: string,
    isRunning: bool,
    subscriptionId: Option<string>,
    subscriptionType: Option<string>,
    params: Option<map<string, Json>>,
    status: string,
    errorMessage: Option<string>)

  /** An `HTTPException`. */
  datatype HttpError = HttpError(status: int, detail: string)

  /** An account row: its address and secret key. */
  datatype AccountRow = AccountRow(address: string, secretKey: string)

  /** The parameter keys that never leave the server. */
  const SecretKeys: set<string> := {"user_secret_key", "secret_key", "private_key"}

  function LegacyName(id: int): string {
    "Legacy Strategy " + IntToString(id)
  }

  /** The params filter: every key but the three secret ones, each with its
      value. */
  function WithoutSecrets(p: map<string, Json>): (r: map<string, Json>)
    ensures r.Keys == p.Keys - SecretKeys
    ensures forall k :: k in r ==> r[k] == p[k]
  {
    map k | k in p && k !in SecretKeys :: p[k]
  }

  /** `_sanitize_strategy_record`: defaults only where a field is `None`;
      non-empty params lose their secret keys (empty or missing params are
      left as they are). */
  function Sanitize(rec: StrategyRecord): (v: RecordView)
    ensures v.id == rec.id && v.status == rec.status && v.errorMessage == rec.errorMessage
    ensures v.subscriptionId == rec.subscriptionId && v.subscriptionType == rec.subscriptionType
    ensures v.name == rec.name.GetOr(LegacyName(rec.id))
    ensures v.coin == rec.coin.GetOr("ETH")
    ensures v.interval == rec.interval.GetOr("1m")
    ensures v.accountAlias == rec.accountAlias.GetOr("default")
    ensures v.isRunning == rec.isRunning.GetOr(false)
    ensures rec.params.None? ==> v.params.None?
    ensures rec.params.Some? ==> v.params.Some? && v.params.value.Keys == rec.params.value.Keys - SecretKeys
    ensures v.params.Some? ==> forall k :: k in v.params.value ==> k in rec.params.value && v.params.value[k] == rec.params.value[k]
  {
    RecordView(
      rec.id,
      rec.name.GetOr(LegacyName(rec.id)),
      rec.coin.GetOr("ETH"),
      rec.interval.GetOr("1m"),
      rec.accountAlias.GetOr("default"),
      rec.isRunning.GetOr(false),
      rec.subscriptionId,
      rec.subscriptionType,
      match rec.params
        case Some(p) => if |p| > 0 then Some(WithoutSecrets(p)) else Some(p)
        case None => None,
      rec.status,
      rec.errorMessage)
  }

  /** No secret survives sanitising, whatever the record held. */
  lemma SanitizedHasNoSecrets(rec: StrategyRecord)
    ensures Sanitize(rec).params.Some? ==> forall k :: k in SecretKeys ==> k !in Sanitize(rec).params.value
  {
  }

  /** Sanitising is idempotent on everything it changes: a view fed back as
      a record sanitises to itself. */
  lemma SanitizeIdempotent(rec: StrategyRecord)
    ensures var v := Sanitize(rec);
      Sanitize(AsRecord(v)) == v
  {
    var v := Sanitize(rec);
    if v.params.Some? && |v.params.value| > 0 {
      assert WithoutSecrets(v.params.value) == v.params.value;
    }
  }

  /** A view read back as a row with every field present. */
  function AsRecord(v: RecordView): StrategyRecord {
    StrategyRecord(v.id, Some(v.name), Some(v.coin), Some(v.interval), Some(v.accountAlias), Some(v.isRunning),
                   v.subscriptionId, v.subscriptionType, v.params, v.status, v.errorMessage)
  }

  /** `is_running` as the guards read it (`None` is falsy). */
  predicate Running(rec: StrategyRecord) {
    rec.isRunning == Some(true)
  }

  const NotFound: HttpError := HttpError(404, "Strategy record not found")

  /** The fields a `StrategyRecordUpdate` sets: `Some(v)` for a field present
      in the request (`v` may itself be `None`), `None` for one left unset. */
  datatype Update = Update(
    name: Option<Option<string>>,
    coin: Option<Option<string>>,
    interval: Option<Option<string>>,
    accountAlias: Option<Option<string>>)

  /** `update_strategy_record`: refused while running and for an account
      alias that names no account; otherwise every field the request set is
      written. */
  function UpdateRecord(rec: Option<StrategyRecord>, u: Update, aliasExists: string -> bool)
    : (r: Result<StrategyRecord, HttpError>)
    ensures rec.None? ==> r == Err(NotFound)
    ensures rec.Some? && Running(rec.value) ==> r.Err? && r.error.status == 400
    ensures r.Ok? ==> rec.Some? && !Running(rec.value)
    ensures r.Ok? ==> r.value.name == (if u.name.Some? then u.name.value else rec.value.name)
    ensures r.Ok? ==> r.value.coin == (if u.coin.Some? then u.coin.value else rec.value.coin)
    ensures r.Ok? ==> r.value.interval == (if u.interval.Some? then u.interval.value else rec.value.interval)
    ensures r.Ok? ==> r.value.accountAlias == (if u.accountAlias.Some? then u.accountAlias.value else rec.value.accountAlias)
    ensures r.Ok? ==> r.value.(name := rec.value.name, coin := rec.value.coin, interval := rec.value.interval,
                                accountAlias := rec.value.accountAlias) == rec.value
    ensures rec.Some? && !Running(rec.value) ==>
      (r.Err? <==> u.accountAlias.Some? && u.accountAlias.value.Some? && u.accountAlias.value.value != ""
                   && !aliasExists(u.accountAlias.value.value))
  {
    match rec
    case None => Err(NotFound)
    case Some(s) =>
      if Running(s) then
        Err(HttpError(400, "Strategy is running, cannot modify. Please stop the strategy first"))
      else if u.accountAlias.Some? && u.accountAlias.value.Some? && u.accountAlias.value.value != ""
              && !aliasExists(u.accountAlias.value.value) then
        Err(HttpError(400, "Account alias '" + u.accountAlias.value.value + "' not found"))
      else
        Ok(s.(name := if u.name.Some? then u.name.value else s.name,
              coin := if u.coin.Some? then u.coin.value else s.coin,
              interval := if u.interval.Some? then u.interval.value else s.interval,
              accountAlias := if u.accountAlias.Some? then u.accountAlias.value else s.accountAlias))
  }

  /** `delete_strategy_record`: refused while running; `Ok` means deleted. */
  function DeleteRecord(rec: Option<StrategyRecord>): (r: Result<Envelope, HttpError>)
    ensures rec.None? ==> r == Err(NotFound)
    ensures r.Ok? <==> rec.Some? && !Running(rec.value)
    ensures r.Err? && rec.Some? ==> r.error.status == 400
  {
    match rec
    case None => Err(NotFound)
    case Some(s) =>
      if Running(s) then Err(HttpError(400, "Strategy is running, cannot delete. Please stop the strategy first"))
      else Ok(Success(JObj(map["message" := JStr("Strategy record " + IntToString(s.id) + " deleted successfully")]), None))
  }

  function OptStr(o: Option<string>): Json {
    if o.Some? then JStr(o.value) else JNull
  }

  /** The subscription parameters `start_strategy_record` builds. */
  function StartParams(s: StrategyRecord, acc: AccountRow): map<string, Json> {
    map[
      "coin" := OptStr(s.coin),
      "interval" := OptStr(s.interval),
      "account_alias" := OptStr(s.accountAlias),
      "strategy_name" := OptStr(s.name),
      "user" := JStr(acc.address),
      "user_secret_key" := JStr(acc.secretKey)]
  }

  /** What a start attempt leaves behind: the record as stored afterwards
      (unchanged for a refused start), the manager, and the answer. */
  datatype Started = Started(rec: Option<StrategyRecord>, manager: Manager, answer: Result<RecordView, HttpError>)

  /** `start_strategy_record`: refused for a running record and for an alias
      with no account; otherwise one subscription is added through the core
      manager's `add_subscription`. If that raises, the record is marked
      "error" with the message and stays stopped; if not, it is running with
      that subscription and no error. */
  function Start(rec: Option<StrategyRecord>, account: Option<AccountRow>, m: Manager,
                 build: Reply<Json>, subscribe: map<string, Json> -> Reply<Json>): (r: Started)
    ensures rec.None? ==> r == Started(rec, m, Err(NotFound))
    ensures rec.Some? && Running(rec.value) ==> r == Started(rec, m, Err(HttpError(400, "Strategy is already running")))
    ensures rec.Some? && !Running(rec.value) && account.None? ==>
      r == Started(rec, m, Err(HttpError(400, "Account alias '" + rec.value.accountAlias.GetOr("None") + "' not found")))
    ensures rec.Some? && !Running(rec.value) && account.Some? ==>
      var added := AddSubscription(m, "candle", StartParams(rec.value, account.value), build, subscribe);
      && r.manager == added.0
      && (r.answer.Ok? <==> added.1.Ok?)
      && (added.1.Err? ==>
           && r.answer == Err(HttpError(500, "Failed to start strategy: " + added.1.error))
           && r.rec == Some(rec.value.(status := "error", errorMessage := Some(added.1.error))))
    ensures r.answer.Ok? ==> && rec.Some? && !Running(rec.value) && account.Some?
                             && r.rec.Some? && Running(r.rec.value) && r.rec.value.status == "running"
                             && r.rec.value.errorMessage.None?
                             && r.rec.value.subscriptionType == Some("candle")
                             && r.rec.value.subscriptionId == Some(IdOf(m.table.counter + 1))
                             && r.rec.value.params == Some(StartParams(rec.value, account.value))
                             && r.answer.value == Sanitize(r.rec.value)
    ensures r.answer.Err? && r.answer.error.status == 500 ==>
      && rec.Some? && r.rec.Some? && r.rec.value.status == "error" && r.rec.value.errorMessage.Some?
      && r.rec.value.isRunning == rec.value.isRunning
  {
    match rec
    case None => Started(rec, m, Err(NotFound))
    case Some(s) =>
      if Running(s) then Started(rec, m, Err(HttpError(400, "Strategy is already running")))
      else match account
        case None =>
          Started(rec, m, Err(HttpError(400, "Account alias '" + s.accountAlias.GetOr("None") + "' not found")))
        case Some(acc) =>
          var params := StartParams(s, acc);
          var (m1, added) := AddSubscription(m, "candle", params, build, subscribe);
          match added
          case Err(e) =>
            Started(Some(s.(status := "error", errorMessage := Some(e))), m1,
                    Err(HttpError(500, "Failed to start strategy: " + e)))
          case Ok(id) =>
            var s1 := s.(isRunning := Some(true), status := "running", subscriptionId := Some(id),
                         subscriptionType := Some("candle"), params := Some(params), errorMessage := None);
            Started(Some(s1), m1, Ok(Sanitize(s1)))
  }

  /** `start_strategy_record` with the core manager's `setup` call as
      written: a start for an account whose address has no context yet
      always ends in a 500, with the record marked "error" and not running. */
  function StartAsWritten(rec: Option<StrategyRecord>, account: Option<AccountRow>, m: Manager,
                          subscribe: map<string, Json> -> Reply<Json>): (r: Started)
    ensures r == Start(rec, account, m, Raised(SetupTypeError), subscribe)
    ensures rec.Some? && !Running(rec.value) && account.Some? && JStr(account.value.address) !in m.contexts ==>
      && r.answer.Err? && r.answer.error.status == 500
      && r.rec.Some? && r.rec.value.status == "error" && !Running(r.rec.value)
      && r.manager.table.entries == m.table.entries
  {
    Start(rec, account, m, Raised(SetupTypeError), subscribe)
  }

  /** `stop_strategy_record`: refused unless running; otherwise the record's
      subscription (if it has one) is removed through the core manager, and
      the record is stopped with its subscription fields, params and error
      cleared, whether or not the removal succeeded. */
  function Stop(rec: Option<StrategyRecord>, m: Manager, unsubscribe: SubscriptionInfo -> Reply<Json>): (r: Started)
    ensures rec.None? ==> r == Started(rec, m, Err(NotFound))
    ensures rec.Some? && !Running(rec.value) ==> r == Started(rec, m, Err(HttpError(400, "Strategy is not running")))
    ensures rec.Some? && Running(rec.value) ==>
      && r.answer.Ok?
      && r.rec == Some(rec.value.(isRunning := Some(false), status := "stopped", subscriptionId := None,
                                  subscriptionType := None, params := None, errorMessage := None))
      && r.answer.value == Sanitize(r.rec.value)
      && r.manager == (if rec.value.subscriptionId.Some? && rec.value.subscriptionId.value != ""
                       then RemoveSubscription(m, rec.value.subscriptionId.value, unsubscribe).0 else m)
  {
    match rec
    case None => Started(rec, m, Err(NotFound))
    case Some(s) =>
      if !Running(s) then Started(rec, m, Err(HttpError(400, "Strategy is not running")))
      else
        var m1 := if s.subscriptionId.Some? && s.subscriptionId.value != ""
                  then RemoveSubscription(m, s.subscriptionId.value, unsubscribe).0 else m;
        var s1 := s.(isRunning := Some(false), status := "stopped", subscriptionId := None,
                     subscriptionType := None, params := None, errorMessage := None);
        Started(Some(s1), m1, Ok(Sanitize(s1)))
  }

  /** Start then stop: the record ends stopped and clean, and the one
      subscription the start added is gone from the manager, provided the
      exchange lets it be unsubscribed. */
  lemma StartStopRoundTrip(rec: StrategyRecord, acc: AccountRow, m: Manager, build: Reply<Json>,
                           subscribe: map<string, Json> -> Reply<Json>, unsubscribe: SubscriptionInfo -> Reply<Json>)
    requires Start(Some(rec), Some(acc), m, build, subscribe).answer.Ok?
    requires forall info :: unsubscribe(info).Returned?
    ensures var started := Start(Some(rec), Some(acc), m, build, subscribe);
      var stopped := Stop(started.rec, started.manager, unsubscribe);
      && stopped.answer.Ok?
      && stopped.rec.Some? && !Running(stopped.rec.value) && stopped.rec.value.status == "stopped"
      && stopped.rec.value.subscriptionId.None? && stopped.rec.value.params.None?
      && Lookup(stopped.manager.table, IdOf(m.table.counter + 1)).None?
      && Lookup(started.manager.table, IdOf(m.table.counter + 1)).Some?
  {
    var started := Start(Some(rec), Some(acc), m, build, subscribe);
    var id := IdOf(m.table.counter + 1);
    var s1 := started.rec.value;
    assert s1.subscriptionId == Some(id);
    assert id != "" by {
      assert |id| > |Prefix|;
    }
    var (m1, added) := AddSubscription(m, "candle", StartParams(rec, acc), build, subscribe);
    assert started.manager == m1;
    assert Lookup(m1.table, id).Some?;
  }

  /** A start makes exactly one subscription record, of type "candle", and
      never a userFills one. */
  lemma StartAddsOneRecord(rec: StrategyRecord, acc: AccountRow, m: Manager, build: Reply<Json>,
                           subscribe: map<string, Json> -> Reply<Json>)
    requires Start(Some(rec), Some(acc), m, build, subscribe).answer.Ok?
    ensures var started := Start(Some(rec), Some(acc), m, build, subscribe);
      && started.manager.table.counter == m.table.counter + 1
      && Lookup(started.manager.table, IdOf(m.table.counter + 1)).Some?
      && Lookup(started.manager.table, IdOf(m.table.counter + 1)).value.kind == "candle"
      && (forall id :: id != IdOf(m.table.counter + 1) ==> Lookup(started.manager.table, id) == Lookup(m.table, id))
  {
  }
}

=== FILE: subscription_table.dfy ===
/** The subscription table both subscription managers keep
    (core/subscription_manager.py and api/subscription_manager.py): a dict
    from "sub_N" ids to records, in insertion order, and the counter the ids
    come from. A Python dict keeps insertion order, so the table is the
    sequence of its records; the key of a record is its `id`. */
module SubscriptionTable {
  import opened Wrappers
  import opened Json
  import opened Numbers

  /** `SubscriptionStatus`. */
  datatype Status = Active | Inactive | Error

  /** `SubscriptionInfo`: `kind` is its `type` and `externalId` the
      exchange's `subscription_id` (`JNull` when there is none). */
  datatype SubscriptionInfo = SubscriptionInfo(
    id: string,
    kind: string,
    params: map<string, Json>,
    status: Status,
    externalId: Json,
    errorMessage: Option<string>)

  datatype Table = Table(entries: seq<SubscriptionInfo>, counter: nat)

  /** A manager's table before anything was added. */
  const Empty: Table := Table([], 0)

  // ---------------------------------------------------------------------
  // Ids.

  const Prefix: string := "sub_"

  /** `f"sub_{n}"`. */
  function IdOf(n: nat): (id: string)
    ensures |id| > |Prefix| && id[..|Prefix|] == Prefix
    ensures ParseNat(id[|Prefix|..]) == Some(n)
  {
    var id := Prefix + NatToString(n);
    assert id[|Prefix|..] == NatToString(n);
    ParseNatRoundTrip(n);
    id
  }

  /** Two counters never give the same id. */
  lemma IdOfInjective(a: nat, b: nat)
    ensures IdOf(a) == IdOf(b) <==> a == b
  {
    if IdOf(a) == IdOf(b) {
      assert IdOf(a)[|Prefix|..] == IdOf(b)[|Prefix|..];
    }
  }

  /** `id` is one the counter has already handed out. */
  predicate Issued(id: string, counter: nat) {
    && |id| > |Prefix| && id[..|Prefix|] == Prefix
    && ParseNat(id[|Prefix|..]).Some?
    && 1 <= ParseNat(id[|Prefix|..]).value <= counter
  }

  predicate DistinctIds(s: seq<SubscriptionInfo>) {
    forall i, j :: 0 <= i < j < |s| ==> s[i].id != s[j].id
  }

  /** The table's invariant: ids are distinct and all were handed out by
      the counter. */
  predicate Valid(t: Table) {
    && DistinctIds(t.entries)
    && (forall i :: 0 <= i < |t.entries| ==> Issued(t.entries[i].id, t.counter))
  }

  /** `_generate_subscription_id`: bump the counter and name the new value;
      the id was never handed out before and is not in the table. */
  function NextId(t: Table): (r: (Table, string))
    ensures r.0 == t.(counter := t.counter + 1)
    ensures r.1 == IdOf(t.counter + 1)
    ensures !Issued(r.1, t.counter) && Issued(r.1, t.counter + 1)
    ensures Valid(t) ==> Valid(r.0) && Lookup(t, r.1).None?
  {
    var id := IdOf(t.counter + 1);
    var t' := t.(counter := t.counter + 1);
    FreshIdAbsent(t, id);
    (t', id)
  }

  /** An id the counter has not handed out is not in a valid table. */
  lemma FreshIdAbsent(t: Table, id: string)
    requires !Issued(id, t.counter)
    ensures Valid(t) ==> Lookup(t, id).None?
  {
    if Valid(t) {
      forall k | 0 <= k < |t.entries|
        ensures t.entries[k].id != id
      {
        assert Issued(t.entries[k].id, t.counter);
      }
    }
  }

  // ---------------------------------------------------------------------
  // Lookup and update.

  /** The position of `id` in the table. */
  function IndexOf(t: Table, id: string): (r: Option<nat>)
    ensures r.Some? ==> r.value < |t.entries| && t.entries[r.value].id == id
    ensures r.Some? ==> forall k :: 0 <= k < r.value ==> t.entries[k].id != id
    ensures r.None? ==> forall k :: 0 <= k < |t.entries| ==> t.entries[k].id != id
  {
    Find(t.entries, id)
  }

  function Find(s: seq<SubscriptionInfo>, id: string): (r: Option<nat>)
    ensures r.Some? ==> r.value < |s| && s[r.value].id == id
    ensures r.Some? ==> forall k :: 0 <= k < r.value ==> s[k].id != id
    ensures r.None? ==> forall k :: 0 <= k < |s| ==> s[k].id != id
  {
    if |s| == 0 then None
    else if s[0].id == id then Some(0)
    else match Find(s[1..], id)
      case Some(k) => Some(k + 1)
      case None => None
  }

  /** The first record with `id` is the one `Find` reports. */
  lemma {:induction false} FindAt(s: seq<SubscriptionInfo>, id: string, i: nat)
    requires i < |s| && s[i].id == id
    requires forall k :: 0 <= k < i ==> s[k].id != id
    ensures Find(s, id) == Some(i)
    decreases i
  {
    if i > 0 {
      FindAt(s[1..], id, i - 1);
    }
  }

  /** `get_subscription`: `subscriptions.get(sub_id)`. */
  function Lookup(t: Table, id: string): (r: Option<SubscriptionInfo>)
    ensures r.Some? <==> exists k :: 0 <= k < |t.entries| && t.entries[k].id == id
    ensures r.Some? ==> r.value in t.entries && r.value.id == id
  {
    match IndexOf(t, id)
    case Some(i) => Some(t.entries[i])
    case None => None
  }

  /** `subscriptions[info.id] = info`: replaces in place when the key is
      present, appends otherwise. */
  function Put(t: Table, info: SubscriptionInfo): (r: Table)
    ensures r.counter == t.counter
    ensures Lookup(r, info.id) == Some(info)
    ensures forall id :: id != info.id ==> Lookup(r, id) == Lookup(t, id)
    ensures Lookup(t, info.id).None? ==> r.entries == t.entries + [info]
  {
    match IndexOf(t, info.id)
    case Some(i) =>
      var r := t.(entries := t.entries[i := info]);
      FindAt(r.entries, info.id, i);
      PutOthers(t, r, info.id);
      r
    case None =>
      var r := t.(entries := t.entries + [info]);
      FindAt(r.entries, info.id, |t.entries|);
      PutOthers(t, r, info.id);
      r
  }

  /** Tables that agree on every record but `id`'s give the same lookups elsewhere. */
  lemma PutOthers(t: Table, r: Table, id: string)
    requires |r.entries| >= |t.entries|
    requires forall k :: 0 <= k < |t.entries| && t.entries[k].id != id ==> r.entries[k] == t.entries[k]
    requires forall k :: 0 <= k < |t.entries| && t.entries[k].id == id ==> r.entries[k].id == id
    requires forall k :: |t.entries| <= k < |r.entries| ==> r.entries[k].id == id
    ensures forall other :: other != id ==> Lookup(r, other) == Lookup(t, other)
  {
    forall other | other != id
      ensures Lookup(r, other) == Lookup(t, other)
    {
      match IndexOf(t, other)
      case Some(i) =>
        assert IndexOf(r, other) == Some(i);
      case None =>
        assert IndexOf(r, other).None?;
    }
  }

  /** `del subscriptions[id]`. */
  function Delete(t: Table, id: string): (r: Table)
    ensures r.counter == t.counter
    ensures Lookup(r, id).None?
    ensures forall other :: other != id ==> Lookup(r, other) == Lookup(t, other)
    ensures forall k :: 0 <= k < |r.entries| ==> r.entries[k] in t.entries
    ensures |r.entries| <= |t.entries|
    ensures Valid(t) ==> Valid(r)
  {
    var s := Without(t.entries, id);
    var r := t.(entries := s);
    WithoutDistinct(t.entries, id);
    forall other | other != id
      ensures Lookup(r, other) == Lookup(t, other)
    {
      WithoutFind(t.entries, id, other);
    }
    r
  }

  function Without(s: seq<SubscriptionInfo>, id: string): (r: seq<SubscriptionInfo>)
    ensures forall k :: 0 <= k < |r| ==> r[k].id != id && r[k] in s
    ensures |r| <= |s|
  {
    if |s| == 0 then []
    else if s[0].id == id then Without(s[1..], id)
    else [s[0]] + Without(s[1..], id)
  }

  /** Dropping records never makes two ids collide. */
  lemma {:induction false} WithoutDistinct(s: seq<SubscriptionInfo>, id: string)
    ensures DistinctIds(s) ==> DistinctIds(Without(s, id))
  {
    if |s| > 0 && DistinctIds(s) {
      assert DistinctIds(s[1..]);
      WithoutDistinct(s[1..], id);
      var rest := Without(s[1..], id);
      forall k | 0 <= k < |rest|
        ensures rest[k].id != s[0].id
      {
        var j :| 0 <= j < |s[1..]| && s[1..][j] == rest[k];
        assert s[j + 1] == rest[k];
      }
    }
  }

  lemma {:induction false} WithoutFind(s: seq<SubscriptionInfo>, id: string, other: string)
    requires other != id
    ensures var r := Without(s, id);
      (Find(r, other).Some? <==> Find(s, other).Some?)
      && (Find(r, other).Some? ==> r[Find(r, other).value] == s[Find(s, other).value])
  {
    if |s| > 0 {
      WithoutFind(s[1..], id, other);
    }
  }

  /** `update_subscription_status`: nothing happens for an unknown id; the
      message is overwritten only when one is given and non-empty. */
  function UpdateStatus(t: Table, id: string, status: Status, message: Option<string>): (r: Table)
    ensures Lookup(t, id).None? ==> r == t
    ensures Lookup(t, id).Some? ==>
      Lookup(r, id) == Some(Lookup(t, id).value.(
        status := status,
        errorMessage := if message.Some? && message.value != "" then message else Lookup(t, id).value.errorMessage))
    ensures forall other :: other != id ==> Lookup(r, other) == Lookup(t, other)
    ensures Valid(t) ==> Valid(r)
  {
    match Lookup(t, id)
    case None => t
    case Some(info) =>
      PutPresentKeepsValid(t, info.(
        status := status,
        errorMessage := if message.Some? && message.value != "" then message else info.errorMessage));
      Put(t, info.(
        status := status,
        errorMessage := if message.Some? && message.value != "" then message else info.errorMessage))
  }

  /** `remove_subscription` once it is known whether unsubscribing raised
      (`failure` is the message of what it raised): an unknown id is refused;
      a clean unsubscribe deletes the record; a raising one keeps it, marked
      ERROR with the message. */
  function Remove(t: Table, id: string, failure: Option<string>): (r: (Table, bool))
    ensures Lookup(t, id).None? ==> r == (t, false)
    ensures r.1 <==> Lookup(t, id).Some? && failure.None?
    ensures r.1 ==> r.0 == Delete(t, id)
    ensures Lookup(t, id).Some? && failure.Some? ==>
      r.0 == Put(t, Lookup(t, id).value.(status := Error, errorMessage := failure))
    ensures r.0.counter == t.counter
    ensures Valid(t) ==> Valid(r.0)
  {
    match Lookup(t, id)
    case None => (t, false)
    case Some(info) =>
      if failure.None? then (Delete(t, id), true)
      else
        PutPresentKeepsValid(t, info.(status := Error, errorMessage := failure));
        (Put(t, info.(status := Error, errorMessage := failure)), false)
  }

  /** Storing a record under an id already in the table keeps it valid:
      the record is replaced in place and no id changes. */
  lemma PutPresentKeepsValid(t: Table, info: SubscriptionInfo)
    ensures Valid(t) && Lookup(t, info.id).Some? ==> Valid(Put(t, info))
  {
    if Valid(t) && Lookup(t, info.id).Some? {
      var i := IndexOf(t, info.id).value;
      assert Put(t, info).entries == t.entries[i := info];
    }
  }

  /** Drawing the next id and storing a record under it keeps a valid table
      valid and changes no other record. */
  lemma StoreEffect(t: Table, info: SubscriptionInfo)
    requires info.id == IdOf(t.counter + 1)
    ensures var t' := Put(NextId(t).0, info);
      && t'.counter == t.counter + 1
      && Lookup(t', info.id) == Some(info)
      && (forall id :: id != info.id ==> Lookup(t', id) == Lookup(t, id))
      && (Valid(t) ==> Valid(t') && Lookup(t, info.id).None?)
  {
    if Valid(t) {
      PutKeepsValid(NextId(t).0, info);
    }
  }

  /** Adding a record under a fresh, newly issued id keeps the table valid. */
  lemma PutKeepsValid(t: Table, info: SubscriptionInfo)
    requires Valid(t) && Lookup(t, info.id).None? && Issued(info.id, t.counter)
    ensures Valid(Put(t, info))
  {
    var r := Put(t, info);
    assert r.entries == t.entries + [info];
  }

  // ---------------------------------------------------------------------
  // Queries.

  /** `get_all_subscriptions`: the records in insertion order. In a valid
      table each listed record is the one its id finds, and every record an
      id finds is listed. */
  function All(t: Table): (r: seq<SubscriptionInfo>)
    ensures |r| == |t.entries|
    ensures Valid(t) ==> forall k :: 0 <= k < |r| ==> Lookup(t, r[k].id) == Some(r[k])
    ensures forall id :: Lookup(t, id).Some? ==> Lookup(t, id).value in r
  {
    AllFound(t);
    t.entries
  }

  /** In a valid table each record is the one its id finds. */
  lemma AllFound(t: Table)
    ensures Valid(t) ==> forall k :: 0 <= k < |t.entries| ==> Lookup(t, t.entries[k].id) == Some(t.entries[k])
  {
    if Valid(t) {
      forall k | 0 <= k < |t.entries|
        ensures Lookup(t, t.entries[k].id) == Some(t.entries[k])
      {
        FindAt(t.entries, t.entries[k].id, k);
      }
    }
  }

  /** The records with `status`, in order. */
  function WithStatus(s: seq<SubscriptionInfo>, status: Status): (r: seq<SubscriptionInfo>)
    ensures forall x :: x in r <==> x in s && x.status == status
    ensures |r| <= |s|
    ensures |s| == 1 ==> r == (if s[0].status == status then s else [])
  {
    if |s| == 0 then []
    else
      var rest := WithStatus(s[..|s| - 1], status);
      assert s == s[..|s| - 1] + [s[|s| - 1]];
      if s[|s| - 1].status == status then rest + [s[|s| - 1]] else rest
  }

  /** The records of type `kind`, in order. */
  function OfKind(s: seq<SubscriptionInfo>, kind: string): (r: seq<SubscriptionInfo>)
    ensures forall x :: x in r <==> x in s && x.kind == kind
    ensures |r| <= |s|
    ensures |s| == 1 ==> r == (if s[0].kind == kind then s else [])
  {
    if |s| == 0 then []
    else
      var rest := OfKind(s[..|s| - 1], kind);
      assert s == s[..|s| - 1] + [s[|s| - 1]];
      if s[|s| - 1].kind == kind then rest + [s[|s| - 1]] else rest
  }

  /** The status filter keeps insertion order: filtering a concatenation
      concatenates the filtered parts. */
  lemma {:induction false} WithStatusConcat(a: seq<SubscriptionInfo>, b: seq<SubscriptionInfo>, status: Status)
    ensures WithStatus(a + b, status) == WithStatus(a, status) + WithStatus(b, status)
    decreases |b|
  {
    if |b| > 0 {
      var b' := b[..|b| - 1];
      assert (a + b)[..|a + b| - 1] == a + b';
      assert (a + b)[|a + b| - 1] == b[|b| - 1];
      WithStatusConcat(a, b', status);
    } else {
      assert a + b == a;
    }
  }

  /** The type filter keeps insertion order in the same way. */
  lemma {:induction false} OfKindConcat(a: seq<SubscriptionInfo>, b: seq<SubscriptionInfo>, kind: string)
    ensures OfKind(a + b, kind) == OfKind(a, kind) + OfKind(b, kind)
    decreases |b|
  {
    if |b| > 0 {
      var b' := b[..|b| - 1];
      assert (a + b)[..|a + b| - 1] == a + b';
      assert (a + b)[|a + b| - 1] == b[|b| - 1];
      OfKindConcat(a, b', kind);
    } else {
      assert a + b == a;
    }
  }

  /** The positions among the first `n` whose record has `status`. */
  function PositionsWith(s: seq<SubscriptionInfo>, status: Status, n: nat): set<nat>
    requires n <= |s|
  {
    set i: nat | i < n && s[i].status == status
  }

  /** The status filter keeps one record per position holding that status. */
  lemma {:induction false} WithStatusCount(s: seq<SubscriptionInfo>, status: Status, n: nat)
    requires n <= |s|
    ensures |WithStatus(s[..n], status)| == |PositionsWith(s, status, n)|
    decreases n
  {
    if n == 0 {
      assert PositionsWith(s, status, 0) == {};
    } else {
      WithStatusCount(s, status, n - 1);
      assert s[..n][..n - 1] == s[..n - 1];
      PositionsStep(s, status, n);
    }
  }

  /** One more position adds itself to the set when its record has `status`. */
  lemma PositionsStep(s: seq<SubscriptionInfo>, status: Status, n: nat)
    requires 0 < n <= |s|
    ensures |PositionsWith(s, status, n)|
         == |PositionsWith(s, status, n - 1)| + (if s[n - 1].status == status then 1 else 0)
  {
    var before := PositionsWith(s, status, n - 1);
    var after := PositionsWith(s, status, n);
    if s[n - 1].status == status {
      assert after == before + {n - 1};
    } else {
      assert after == before;
    }
  }

  /** `get_active_subscriptions`: exactly the ACTIVE records, in order. */
  function ActiveOnes(t: Table): (r: seq<SubscriptionInfo>)
    ensures forall x :: x in r <==> x in t.entries && x.status == Active
  {
    WithStatus(All(t), Active)
  }

  /** `get_subscriptions_by_type`: exactly the records of that type, in order. */
  function ByKind(t: Table, kind: string): (r: seq<SubscriptionInfo>)
    ensures forall x :: x in r <==> x in t.entries && x.kind == kind
  {
    OfKind(All(t), kind)
  }

  datatype Stats = Stats(total: nat, active: nat, inactive: nat, error: nat)

  /** `get_subscription_stats`: how many records there are, and how many
      hold each status. */
  function GetStats(t: Table): (r: Stats)
    ensures r.total == |t.entries|
    ensures r.active == |PositionsWith(t.entries, Active, |t.entries|)|
    ensures r.inactive == |PositionsWith(t.entries, Inactive, |t.entries|)|
    ensures r.error == |PositionsWith(t.entries, Error, |t.entries|)|
    ensures r.active + r.inactive + r.error == r.total
  {
    var s := t.entries;
    StatusPartition(s);
    assert s[..|s|] == s;
    WithStatusCount(s, Active, |s|);
    WithStatusCount(s, Inactive, |s|);
    WithStatusCount(s, Error, |s|);
    Stats(|s|, |WithStatus(s, Active)|, |WithStatus(s, Inactive)|, |WithStatus(s, Error)|)
  }

  /** Every record has exactly one of the three statuses. */
  lemma {:induction false} StatusPartition(s: seq<SubscriptionInfo>)
    ensures |WithStatus(s, Active)| + |WithStatus(s, Inactive)| + |WithStatus(s, Error)| == |s|
  {
    if |s| > 0 {
      StatusPartition(s[..|s| - 1]);
    }
  }

  // ---------------------------------------------------------------------
  // Clearing.

  /** What is left of `s` after every record is removed, where removing `x`
      raises `failure(x)`: the records whose removal raised, marked ERROR. */
  function Survivors(s: seq<SubscriptionInfo>, failure: SubscriptionInfo -> Option<string>)
    : (r: seq<SubscriptionInfo>)
    ensures |r| <= |s|
  {
    if |s| == 0 then []
    else
      var rest := Survivors(s[..|s| - 1], failure);
      var x := s[|s| - 1];
      if failure(x).Some? then rest + [x.(status := Error, errorMessage := failure(x))] else rest
  }

  /** The ids a sequence of records carries. */
  function IdSet(s: seq<SubscriptionInfo>): set<string> {
    set x | x in s :: x.id
  }

  /** Survivors keep their ids, which are ids of the original records, and
      stay distinct when those were. */
  lemma {:induction false} SurvivorIds(s: seq<SubscriptionInfo>, failure: SubscriptionInfo -> Option<string>)
    ensures forall k :: 0 <= k < |Survivors(s, failure)| ==> Survivors(s, failure)[k].id in IdSet(s)
    ensures DistinctIds(s) ==> DistinctIds(Survivors(s, failure))
  {
    if |s| > 0 {
      var init, x := s[..|s| - 1], s[|s| - 1];
      SurvivorIds(init, failure);
      assert forall y :: y in init ==> y in s;
      if DistinctIds(s) {
        assert DistinctIds(init);
        forall y | y in init
          ensures y.id != x.id
        {
          var j :| 0 <= j < |init| && init[j] == y;
          assert s[j] == y;
        }
      }
    }
  }

  /** Clearing a valid table leaves a valid table. */
  lemma SurvivorsValid(t: Table, failure: SubscriptionInfo -> Option<string>)
    ensures Valid(t) ==> Valid(t.(entries := Survivors(t.entries, failure)))
  {
    SurvivorIds(t.entries, failure);
    if Valid(t) {
      var r := Survivors(t.entries, failure);
      forall k | 0 <= k < |r|
        ensures Issued(r[k].id, t.counter)
      {
        var y :| y in t.entries && y.id == r[k].id;
        var j :| 0 <= j < |t.entries| && t.entries[j] == y;
      }
    }
  }

  /** `clear_all_subscriptions`: remove every record present at the start, in
      order, and count the removals that succeeded. */
  method ClearAll(t: Table, failure: SubscriptionInfo -> Option<string>) returns (r: Table, count: nat)
    requires DistinctIds(t.entries)
    ensures r.entries == Survivors(t.entries, failure)
    ensures r.counter == t.counter
    ensures count + |r.entries| == |t.entries|
    ensures Valid(t) ==> Valid(r)
  {
    r := t;
    count := 0;
    var i := 0;
    assert t.entries[0..] == t.entries;
    while i < |t.entries|
      invariant 0 <= i <= |t.entries|
      invariant r.counter == t.counter
      invariant r.entries == Survivors(t.entries[..i], failure) + t.entries[i..]
      invariant count + |Survivors(t.entries[..i], failure)| == i
    {
      var ok: bool;
      r, ok := ClearOne(t, r, i, failure);
      if ok {
        count := count + 1;
      }
      i := i + 1;
    }
    assert t.entries[..i] == t.entries;
    SurvivorsValid(t, failure);
  }

  /** The `remove_subscription` call for the i-th original record. */
  method ClearOne(t: Table, r: Table, i: nat, failure: SubscriptionInfo -> Option<string>)
    returns (r': Table, ok: bool)
    requires DistinctIds(t.entries) && i < |t.entries|
    requires r.entries == Survivors(t.entries[..i], failure) + t.entries[i..]
    ensures r'.counter == r.counter
    ensures r'.entries == Survivors(t.entries[..i + 1], failure) + t.entries[i + 1..]
    ensures ok <==> failure(t.entries[i]).None?
    ensures |Survivors(t.entries[..i + 1], failure)| ==
      |Survivors(t.entries[..i], failure)| + (if ok then 0 else 1)
  {
    var x := t.entries[i];
    ClearStep(t, r, i, failure);
    var res := Remove(r, x.id, failure(x));
    r', ok := res.0, res.1;
  }

  /** The record an unsuccessful removal leaves behind. */
  function Kept(x: SubscriptionInfo, failure: Option<string>): seq<SubscriptionInfo> {
    if failure.Some? then [x.(status := Error, errorMessage := failure)] else []
  }

  lemma SurvivorsStep(s: seq<SubscriptionInfo>, i: nat, failure: SubscriptionInfo -> Option<string>)
    requires i < |s|
    ensures Survivors(s[..i + 1], failure) == Survivors(s[..i], failure) + Kept(s[i], failure(s[i]))
    ensures Survivors(s[..i], failure) + Kept(s[i], failure(s[i])) + s[i..][1..]
         == Survivors(s[..i + 1], failure) + s[i + 1..]
  {
    assert s[..i + 1][..i] == s[..i];
    assert s[i..][1..] == s[i + 1..];
  }

  lemma ClearStepFacts(s: seq<SubscriptionInfo>, i: nat)
    requires DistinctIds(s) && i < |s|
    ensures forall k :: 0 <= k < i ==> s[..i][k].id != s[i].id
    ensures forall k :: 0 < k < |s[i..]| ==> s[i..][k].id != s[i..][0].id
  {
    forall k | 0 < k < |s[i..]|
      ensures s[i..][k].id != s[i..][0].id
    {
      assert s[i..][k] == s[i + k];
    }
  }

  /** One step of `clear_all_subscriptions`: removing the i-th original
      record, once the ones before it have been removed or marked. */
  lemma ClearStep(t: Table, r: Table, i: nat, failure: SubscriptionInfo -> Option<string>)
    requires DistinctIds(t.entries) && i < |t.entries|
    requires r.entries == Survivors(t.entries[..i], failure) + t.entries[i..]
    ensures var x := t.entries[i];
      && Remove(r, x.id, failure(x)).0 == r.(entries := Survivors(t.entries[..i + 1], failure) + t.entries[i + 1..])
      && (Remove(r, x.id, failure(x)).1 <==> failure(x).None?)
      && |Survivors(t.entries[..i + 1], failure)| == |Survivors(t.entries[..i], failure)| + (if failure(x).Some? then 1 else 0)
  {
    var x := t.entries[i];
    ClearStepFacts(t.entries, i);
    SurvivorsAvoid(t.entries[..i], failure, x.id);
    RemoveNext(r, Survivors(t.entries[..i], failure), t.entries[i..], failure(x));
    SurvivorsStep(t.entries, i, failure);
  }

  /** `remove_subscription` of the first record not yet visited, after
      `done`, which holds other ids. */
  lemma RemoveNext(t: Table, done: seq<SubscriptionInfo>, rest: seq<SubscriptionInfo>, failure: Option<string>)
    requires t.entries == done + rest && |rest| > 0
    requires forall k :: 0 <= k < |done| ==> done[k].id != rest[0].id
    requires forall k :: 0 < k < |rest| ==> rest[k].id != rest[0].id
    ensures Remove(t, rest[0].id, failure) == (t.(entries := done + Kept(rest[0], failure) + rest[1..]), failure.None?)
  {
    var x := rest[0];
    FindAt(t.entries, x.id, |done|);
    assert Lookup(t, x.id) == Some(x);
    if failure.None? {
      WithoutAt(t.entries, |done|);
      assert t.entries[..|done|] == done;
      assert t.entries[|done| + 1..] == rest[1..];
      assert Delete(t, x.id).entries == done + Kept(x, failure) + rest[1..];
    } else {
      assert t.entries[|done| := x.(status := Error, errorMessage := failure)] == done + Kept(x, failure) + rest[1..];
    }
  }

  lemma {:induction false} WithoutAt(s: seq<SubscriptionInfo>, i: nat)
    requires i < |s|
    requires forall k :: 0 <= k < |s| && k != i ==> s[k].id != s[i].id
    ensures Without(s, s[i].id) == s[..i] + s[i + 1..]
    decreases i
  {
    if i == 0 {
      WithoutNone(s[1..], s[0].id);
      assert s[..0] + s[1..] == s[1..];
    } else {
      WithoutAt(s[1..], i - 1);
      assert s[1..][..i - 1] + s[1..][i..] == s[1..i] + s[i + 1..];
      assert [s[0]] + s[1..i] == s[..i];
    }
  }

  lemma {:induction false} WithoutNone(s: seq<SubscriptionInfo>, id: string)
    requires forall k :: 0 <= k < |s| ==> s[k].id != id
    ensures Without(s, id) == s
  {
    if |s| > 0 {
      WithoutNone(s[1..], id);
    }
  }

  /** Everything `clear_all_subscriptions` leaves behind is an ERROR record
      carrying the message its removal raised, and nothing else survives. */
  lemma {:induction false} SurvivorsMarked(s: seq<SubscriptionInfo>, failure: SubscriptionInfo -> Option<string>)
    ensures forall k :: 0 <= k < |Survivors(s, failure)| ==>
      Survivors(s, failure)[k].status == Error && Survivors(s, failure)[k].errorMessage.Some?
    ensures (forall k :: 0 <= k < |s| ==> failure(s[k]).None?) ==> Survivors(s, failure) == []
  {
    if |s| > 0 {
      SurvivorsMarked(s[..|s| - 1], failure);
    }
  }

  /** Survivors keep the ids of the records they came from. */
  lemma {:induction false} SurvivorsAvoid(s: seq<SubscriptionInfo>, failure: SubscriptionInfo -> Option<string>, id: string)
    requires forall k :: 0 <= k < |s| ==> s[k].id != id
    ensures forall k :: 0 <= k < |Survivors(s, failure)| ==> Survivors(s, failure)[k].id != id
  {
    if |s| > 0 {
      SurvivorsAvoid(s[..|s| - 1], failure, id);
    }
  }
}

=== FILE: wrappers.dfy ===
/** Failure-compatible wrappers shared by every module of the model. */
module Wrappers {

  /** A value that may be absent: Python's `None` versus a present value. */
  datatype Option<+T> = None | Some(value: T) {
    function GetOr(default: T): T {
      match this
      case Some(v) => v
      case None => default
    }
  }

  /** The outcome of an operation that may raise: `Err` carries what was raised. */
  datatype Result<+T, +E> = Ok(value: T) | Err(error: E) {
    predicate IsFailure() {
      Err?
    }

    function PropagateFailure<U>(): Result<U, E>
      requires Err?
    {
      Err(error)
    }

    function Extract(): T
      requires Ok?
    {
      value
    }
  }

  /** What a call into code outside the model (the exchange SDK, the database)
      produced: either it raised an exception with a message, or it returned. */
  datatype Reply<+T> = Raised(message: string) | Returned(result: T)
}

=== FILE: ws_client.dfy ===
/** The WebSocket client (ws_client.py, `HLWebSocketClient`): the post
    correlation table, the frames it sends and the fan-out of inbound
    messages to handlers. The socket, its thread and the waits are not
    modelled: whether the socket opened is an input of `Connect`, an inbound
    frame arrives already decoded (or as `None` when it was not JSON), and a
    wait that has not been answered yet ends at once. */
module WsClient {
  import opened Wrappers
  import opened Json
  import opened Numbers

  /** A registered handler, by identity. */
  datatype Handler = Handler(id: nat)

  /** One handler invocation during dispatch and whether it raised. */
  datatype Call = Call(handler: Handler, message: Json, raised: bool)

  /** `connected` is `_app is not None`; `open` is the opened event;
      `nextId` is the next value of the id counter; `pending` maps a post id
      to its response (`None` while unanswered). */
  datatype Client = Client(
    connected: bool,
    open: bool,
    nextId: nat,
    pending: map<int, Option<Json>>,
    channelHandlers: map<string, seq<Handler>>,
    wildcards: seq<Handler>,
    sent: seq<Json>)

  /** A fresh client: the counter starts at 1. */
  const Init: Client := Client(false, false, 1, map[], map[], [], [])

  const NotInitialized: string := "WebSocketApp not initialized. Call connect() first."
  const NotOpen: string := "WebSocket not open; unable to send message."

  /** `connect`: nothing happens when already connected; otherwise the app is
      created and `opens` says whether the socket opened in time. */
  function Connect(c: Client, opens: bool): (r: Client)
    ensures c.connected ==> r == c
    ensures r.connected
    ensures !c.connected ==> r == c.(connected := true, open := opens)
  {
    if c.connected then c else c.(connected := true, open := opens)
  }

  /** `close`: the app is dropped; the open flag goes with the socket's
      close callback. */
  function Close(c: Client): (r: Client)
    ensures !r.connected && !r.open
    ensures r.pending == c.pending && r.nextId == c.nextId && r.sent == c.sent
  {
    c.(connected := false, open := false)
  }

  /** `_send`: refused before `connect` and while the socket is not open. */
  function Send(c: Client, frame: Json): (r: Result<Client, string>)
    ensures !c.connected ==> r == Err(NotInitialized)
    ensures c.connected && !c.open ==> r == Err(NotOpen)
    ensures r.Ok? <==> c.connected && c.open
    ensures r.Ok? ==> r.value == c.(sent := c.sent + [frame])
  {
    if !c.connected then Err(NotInitialized)
    else if !c.open then Err(NotOpen)
    else Ok(c.(sent := c.sent + [frame]))
  }

  /** The frame `_post_generic` sends. */
  function PostFrame(id: int, reqType: string, payload: Json): Json {
    JObj(map[
      "method" := JStr("post"),
      "id" := JInt(id),
      "request" := JObj(map["type" := JStr(reqType), "payload" := payload])])
  }

  /** `_post_generic` (`post_info` with "info", `post_action` with "action"):
      a caller-supplied id is used as it is, otherwise the counter gives the
      next one; the id is registered as pending before the frame is sent, so
      it stays registered when sending raises. */
  function Post(c: Client, reqType: string, payload: Json, requestId: Option<int>): (r: (Client, Result<int, string>))
    ensures var id := if requestId.Some? then requestId.value else c.nextId;
      && r.0.nextId == (if requestId.Some? then c.nextId else c.nextId + 1)
      && id in r.0.pending && r.0.pending[id] == None
      && (forall k :: k in c.pending && k != id ==> k in r.0.pending && r.0.pending[k] == c.pending[k])
      && (forall k :: k in r.0.pending ==> k in c.pending || k == id)
      && (r.1.Ok? <==> c.connected && c.open)
      && (r.1.Ok? ==> r.1.value == id && r.0.sent == c.sent + [PostFrame(id, reqType, payload)])
      && (r.1.Err? ==> r.0.sent == c.sent)
  {
    var (id, counter) := if requestId.Some? then (requestId.value, c.nextId) else (c.nextId, c.nextId + 1);
    var c1 := c.(nextId := counter, pending := c.pending[id := None]);
    match Send(c1, PostFrame(id, reqType, payload))
    case Err(e) => (c1, Err(e))
    case Ok(c2) => (c2, Ok(id))
  }

  /** `subscribe`, `unsubscribe` and `ping`: one frame each. */
  function SubscribeFrame(subscription: Json): Json {
    JObj(map["method" := JStr("subscribe"), "subscription" := subscription])
  }

  function UnsubscribeFrame(subscription: Json): Json {
    JObj(map["method" := JStr("unsubscribe"), "subscription" := subscription])
  }

  const PingFrame: Json := JObj(map["method" := JStr("ping")])

  /** `subscribe`: refused like any send; otherwise one frame asking for the
      subscription goes out and nothing else changes. */
  function Subscribe(c: Client, subscription: Json): (r: Result<Client, string>)
    ensures r.Ok? <==> c.connected && c.open
    ensures r.Err? ==> r == Send(c, SubscribeFrame(subscription))
    ensures r.Ok? ==>
      && |r.value.sent| == |c.sent| + 1 && r.value.sent[..|c.sent|] == c.sent
      && var frame := r.value.sent[|c.sent|];
         frame.JObj? && frame.fields.Keys == {"method", "subscription"}
         && frame.fields["method"] == JStr("subscribe") && frame.fields["subscription"] == subscription
    ensures r.Ok? ==> r.value.(sent := c.sent) == c
  {
    Send(c, SubscribeFrame(subscription))
  }

  /** `unsubscribe`: the same with the method "unsubscribe". */
  function Unsubscribe(c: Client, subscription: Json): (r: Result<Client, string>)
    ensures r.Ok? <==> c.connected && c.open
    ensures r.Err? ==> r == Send(c, UnsubscribeFrame(subscription))
    ensures r.Ok? ==>
      && |r.value.sent| == |c.sent| + 1 && r.value.sent[..|c.sent|] == c.sent
      && var frame := r.value.sent[|c.sent|];
         frame.JObj? && frame.fields.Keys == {"method", "subscription"}
         && frame.fields["method"] == JStr("unsubscribe") && frame.fields["subscription"] == subscription
    ensures r.Ok? ==> r.value.(sent := c.sent) == c
  {
    Send(c, UnsubscribeFrame(subscription))
  }

  /** `ping`: one frame carrying only the method "ping". */
  function Ping(c: Client): (r: Result<Client, string>)
    ensures r.Ok? <==> c.connected && c.open
    ensures r.Err? ==> r == Send(c, PingFrame)
    ensures r.Ok? ==>
      && |r.value.sent| == |c.sent| + 1 && r.value.sent[..|c.sent|] == c.sent
      && r.value.sent[|c.sent|] == JObj(map["method" := JStr("ping")])
    ensures r.Ok? ==> r.value.(sent := c.sent) == c
  {
    Send(c, PingFrame)
  }

  /** Subscribing and then unsubscribing sends two frames for the same
      subscription that differ only in their method. */
  lemma SubscribeUnsubscribe(c: Client, subscription: Json)
    requires c.connected && c.open
    ensures Subscribe(c, subscription).Ok?
    ensures var c1 := Subscribe(c, subscription).value;
      && Unsubscribe(c1, subscription).Ok?
      && var sent := Unsubscribe(c1, subscription).value.sent;
         && sent == c.sent + [SubscribeFrame(subscription), UnsubscribeFrame(subscription)]
         && sent[|c.sent|].fields["subscription"] == sent[|c.sent| + 1].fields["subscription"]
         && sent[|c.sent|].fields["method"] != sent[|c.sent| + 1].fields["method"]
  {
    var c1 := Subscribe(c, subscription).value;
    assert c1.sent == c.sent + [SubscribeFrame(subscription)];
  }

  /** `add_handler`: appended after the channel's existing handlers. */
  function AddHandler(c: Client, channel: string, h: Handler): (r: Client)
    ensures HandlersOf(r, channel) == HandlersOf(c, channel) + [h]
    ensures forall ch :: ch != channel ==> HandlersOf(r, ch) == HandlersOf(c, ch)
    ensures r.wildcards == c.wildcards && r.pending == c.pending
  {
    c.(channelHandlers := c.channelHandlers[channel := HandlersOf(c, channel) + [h]])
  }

  /** `add_wildcard_handler`. */
  function AddWildcardHandler(c: Client, h: Handler): (r: Client)
    ensures r.wildcards == c.wildcards + [h]
    ensures r.channelHandlers == c.channelHandlers && r.pending == c.pending
  {
    c.(wildcards := c.wildcards + [h])
  }

  /** `self._channel_handlers.get(channel, [])`. */
  function HandlersOf(c: Client, channel: string): seq<Handler> {
    if channel in c.channelHandlers then c.channelHandlers[channel] else []
  }

  /** Calls every handler of `hs` in order with `msg`; `raises` says which
      handler invocations raise, and a raise is swallowed. */
  function CallAll(hs: seq<Handler>, msg: Json, raises: (Handler, Json) -> bool): (r: seq<Call>)
    ensures |r| == |hs|
    ensures forall i :: 0 <= i < |hs| ==> r[i] == Call(hs[i], msg, raises(hs[i], msg))
  {
    if |hs| == 0 then [] else [Call(hs[0], msg, raises(hs[0], msg))] + CallAll(hs[1..], msg, raises)
  }

  /** The handlers called, in order. */
  function Called(calls: seq<Call>): (r: seq<Handler>)
    ensures |r| == |calls|
    ensures forall i :: 0 <= i < |calls| ==> r[i] == calls[i].handler
  {
    if |calls| == 0 then [] else [calls[0].handler] + Called(calls[1..])
  }

  /** The id of a post response: `int(data.get("id"))` where `data` is the
      frame's `data` (default `{}`); anything that raises gives `None`. */
  function ResponseId(obj: Json): (r: Option<int>)
    ensures r.Some? ==> obj.JObj? && GetOr(obj.fields, "data", EmptyObj).JObj?
  {
    if !obj.JObj? then None
    else
      var data := GetOr(obj.fields, "data", EmptyObj);
      if !data.JObj? then None else PyInt(GetOr(data.fields, "id", JNull))
  }

  predicate IsPostResponse(obj: Json) {
    obj.JObj? && "channel" in obj.fields && obj.fields["channel"] == JStr("post")
  }

  /** The correlation step of `_on_message`: a post response whose id is
      pending has its entry set to the frame's `data`; nothing else changes. */
  function Correlate(c: Client, obj: Json): (r: Client)
    ensures r.nextId == c.nextId && r.sent == c.sent
    ensures r.channelHandlers == c.channelHandlers && r.wildcards == c.wildcards
    ensures r.pending.Keys == c.pending.Keys
    ensures !IsPostResponse(obj) || ResponseId(obj).None? || ResponseId(obj).value !in c.pending ==> r == c
    ensures IsPostResponse(obj) && ResponseId(obj).Some? && ResponseId(obj).value in c.pending ==>
      r.pending == c.pending[ResponseId(obj).value := Some(obj.fields["data"])]
  {
    if IsPostResponse(obj) then
      match ResponseId(obj)
      case Some(id) =>
        if id in c.pending then c.(pending := c.pending[id := Some(obj.fields["data"])]) else c
      case None => c
    else c
  }

  /** `_on_message`: an undecodable frame is dropped; otherwise correlation
      runs, then the handlers of the frame's channel (when it is a string) in
      registration order, then every wildcard handler, each in isolation. */
  function OnMessage(c: Client, decoded: Option<Json>, raises: (Handler, Json) -> bool): (r: (Client, seq<Call>))
    ensures decoded.None? ==> r == (c, [])
    ensures decoded.Some? ==> r.0 == Correlate(c, decoded.value)
    ensures decoded.Some? ==> Called(r.1) == ChannelOf(c, decoded.value) + c.wildcards
    ensures forall i :: 0 <= i < |r.1| ==> r.1[i].message == decoded.value
  {
    match decoded
    case None => (c, [])
    case Some(obj) =>
      var calls := CallAll(ChannelOf(c, obj), obj, raises) + CallAll(c.wildcards, obj, raises);
      CalledAppend(CallAll(ChannelOf(c, obj), obj, raises), CallAll(c.wildcards, obj, raises));
      CalledAll(ChannelOf(c, obj), obj, raises);
      CalledAll(c.wildcards, obj, raises);
      (Correlate(c, obj), calls)
  }

  /** The channel handlers a decoded frame reaches: none unless it is a dict
      whose `channel` is a string. */
  function ChannelOf(c: Client, obj: Json): seq<Handler> {
    if obj.JObj? && "channel" in obj.fields && obj.fields["channel"].JStr? then
      HandlersOf(c, obj.fields["channel"].s)
    else []
  }

  lemma CalledAppend(a: seq<Call>, b: seq<Call>)
    ensures Called(a + b) == Called(a) + Called(b)
  {
    assert forall i :: 0 <= i < |a + b| ==> (a + b)[i].handler == (Called(a) + Called(b))[i];
  }

  lemma CalledAll(hs: seq<Handler>, msg: Json, raises: (Handler, Json) -> bool)
    ensures Called(CallAll(hs, msg, raises)) == hs
  {
  }

  /** A handler that raises stops nobody: which handlers are called does not
      depend on which of them raise. */
  lemma HandlersIsolated(c: Client, decoded: Option<Json>, raises1: (Handler, Json) -> bool,
                         raises2: (Handler, Json) -> bool)
    ensures OnMessage(c, decoded, raises1).0 == OnMessage(c, decoded, raises2).0
    ensures Called(OnMessage(c, decoded, raises1).1) == Called(OnMessage(c, decoded, raises2).1)
  {
  }

  /** `_on_error`: the error, as `{"channel": "error", "data": str(error)}`,
      goes to the wildcard handlers only. */
  function OnError(c: Client, error: string, raises: (Handler, Json) -> bool): (r: seq<Call>)
    ensures Called(r) == c.wildcards
    ensures forall i :: 0 <= i < |r| ==> r[i].message == ErrorMessage(error)
  {
    CalledAll(c.wildcards, ErrorMessage(error), raises);
    CallAll(c.wildcards, ErrorMessage(error), raises)
  }

  function ErrorMessage(error: string): Json {
    JObj(map["channel" := JStr("error"), "data" := JStr(error)])
  }

  /** `await_post` with the wait cut short: an unregistered id gives `None`;
      an answered one gives its response and is removed; an unanswered one
      gives `None` and stays pending. */
  function AwaitPost(c: Client, id: int): (r: (Client, Option<Json>))
    ensures id !in c.pending ==> r == (c, None)
    ensures id in c.pending && c.pending[id].None? ==> r == (c, None)
    ensures id in c.pending && c.pending[id].Some? ==>
      r.1 == c.pending[id] && r.0 == c.(pending := c.pending - {id})
  {
    if id !in c.pending then (c, None)
    else match c.pending[id]
      case None => (c, None)
      case Some(resp) => (c.(pending := c.pending - {id}), Some(resp))
  }

  /** A post, its response frame and the await that follows: the await
      returns exactly the response's `data`, and the id is no longer pending. */
  lemma PostRoundTrip(c: Client, reqType: string, payload: Json, data: map<string, Json>)
    requires c.connected && c.open
    requires var id := c.nextId; PyInt(GetOr(data, "id", JNull)) == Some(id)
    ensures var (c1, r) := Post(c, reqType, payload, None);
      var frame := JObj(map["channel" := JStr("post"), "data" := JObj(data)]);
      var c2 := Correlate(c1, frame);
      && r == Ok(c.nextId)
      && AwaitPost(c2, c.nextId) == (c2.(pending := c2.pending - {c.nextId}), Some(JObj(data)))
      && c.nextId !in AwaitPost(c2, c.nextId).0.pending
  {
    var (c1, r) := Post(c, reqType, payload, None);
    var frame := JObj(map["channel" := JStr("post"), "data" := JObj(data)]);
    assert ResponseId(frame) == Some(c.nextId);
  }

  /** Ids the counter hands out, one automatic post after another, strictly
      increase. */
  function AutoIds(c: Client, n: nat): (ids: seq<int>)
    ensures |ids| == n
    decreases n
  {
    if n == 0 then []
    else
      var (c1, _) := Post(c, "info", EmptyObj, None);
      [c.nextId] + AutoIds(c1, n - 1)
  }

  lemma {:induction false} AutoIdsIncrease(c: Client, n: nat)
    ensures forall i, j :: 0 <= i < j < n ==> AutoIds(c, n)[i] < AutoIds(c, n)[j]
    ensures forall i :: 0 <= i < n ==> AutoIds(c, n)[i] >= c.nextId
    decreases n
  {
    if n > 0 {
      var (c1, _) := Post(c, "info", EmptyObj, None);
      AutoIdsIncrease(c1, n - 1);
    }
  }
}
